=== FILE: README.md ===
# AlpineShredder gameplay core in Dafny

A functional model of the gameplay core of AlpineShredder, an endless
downhill runner for iOS, with proofs of its invariants. One frame of play
goes through these steps:

- The scene (`GameScene`) advances its clock, speed and distance.
- The rider (`PlayerController`) steers, jumps and tricks.
- The terrain streamer, the obstacle spawner and the collectible spawner follow the rider down the slope.
- The collision check finds at most one hit.
- The session manager (`GameManager`) turns the hit into game state, score, coins and multiplier.

Finished games go to the score statistics (`ScoreManager`) and to the
per-resort leaderboards (`LeaderboardManager`). Both keep their data in the
device's key-value store. The resort and equipment catalogs and the weather
state machine complete the core.

Conventions of the model:

- **State and operations.** Every piece of state is an immutable datatype. Every operation is a pure function from the old state to the new one. A spawn loop is a recursive function whose measure is the number of steps the frontier is still short of its target.
- **Numbers.**
  - Swift `Float` is modelled as `real`.
  - `Int(x)` truncates toward zero (`Numerics.Trunc`).
  - `Int` `/` and `%` truncate toward zero too (`Numerics.SwiftDiv`, `Numerics.SwiftRem`).
  - Swift `Int` is 64 bits wide and traps on overflow; the model's `int` is unbounded. The scores, counters and distances of a game stay far below 2^63, so no modelled operation reaches that bound.
- **Randomness as oracle arguments.** Every `Float.random`/`Int.random` draw becomes an argument whose subset type carries the draw's range. Draws that repeat inside a frontier loop are functions from the iteration index to a draw. The same goes for the current time (`Date()`, the frame timestamp) and the bob offset that the source computes with `sin` of the media clock.
- **The key-value store.** `UserDefaults` is a map from key to value (`Store.Defaults`). A missing key reads as 0. A list that does not decode reads as empty.
- **Object identity.** Collectibles are matched by identity (`===`) in the source. In the model they carry an id, handed out by the spawner's counter, and the spawner keeps the ids distinct.
- **Heads-up display.** What the session manager hands the HUD is recorded in a log (`Session.HudEvent`).

Modules, in dependency order:

| file | module | component |
|---|---|---|
| numerics.dfy | Numerics | Swift number semantics, step counts of frontier loops |
| constants.dfy | Constants | tuning values of `GameConstants` |
| optional.dfy | Optional | `Option` for lookups that can fail |
| store.dfy | Store | the key-value store |
| spatial.dfy | Spatial | vectors, `lerp`, `clamped`, bounding boxes |
| ranking.dfy | Ranking | append, sort and truncate for both ranked lists, filtering, first match |
| catalog.dfy | Catalog | index lookup wrapped modulo the catalog size |
| resorts.dfy | Resorts | the resort catalog and the selected resort |
| equipment.dfy | Equipment | the board and ski catalogs and the selected gear |
| weather.dfy | Weather | the weather condition, fog factor and change timer |
| terrain.dfy | Terrain | the chunk streamer |
| obstacles.dfy | Obstacles | the obstacle spawner and lane fairness |
| collectibles.dfy | Collectibles | the coin and power-up spawner |
| player.dfy | Player | the rider's locomotion and tricks |
| scene.dfy | Scene | the frame step and the collision check |
| score_manager.dfy | ScoreManager | high score, top ten, lifetime totals |
| leaderboard.dfy | Leaderboard | per-resort top twenty by distance |
| session.dfy | Session | the game state machine, score, multiplier, tricks |

Source paths below are relative to the repository root.

## Model

| member | source | states |
|---|---|---|
| Spatial.Add | AlpineShredder/AlpineShredder/Utils/Extensions.swift:6-8 | component-wise `+`: subtracting the added vector gives the original back, and adding the zero vector changes nothing |
| Spatial.Sub | AlpineShredder/AlpineShredder/Utils/Extensions.swift:10-12 | component-wise `-`: the difference is the zero vector exactly when the two vectors are equal |
| Spatial.Scale | AlpineShredder/AlpineShredder/Utils/Extensions.swift:14-16 | scaling by 1 changes nothing; scaling by 0, or scaling the zero vector, gives the zero vector |
| Spatial.AddSubRoundTrip | AlpineShredder/AlpineShredder/Utils/Extensions.swift:6-12 | vector `-` undoes `+` and `+` undoes `-`: (a + b) - b = a and (a - b) + b = a |
| Spatial.AddCommutesWithZeroUnit | AlpineShredder/AlpineShredder/Utils/Extensions.swift:6-12 | component-wise `+` commutes and the zero vector is its unit for `+` and `-` |
| Spatial.ScaleDistributes | AlpineShredder/AlpineShredder/Utils/Extensions.swift:6-16 | scaling distributes over `+` and scaling by 1 is the identity |
| Spatial.VectorExamples | AlpineShredder/AlpineShredderTests/GameTests.swift:123-150 | the unit tests' vector sums, differences and scalings come out as asserted |
| Spatial.Normalized | AlpineShredder/AlpineShredder/Utils/Extensions.swift:22-26 | the zero vector normalizes to itself rather than failing; otherwise the result scaled by the length gives back the vector |
| Spatial.Lerp | AlpineShredder/AlpineShredder/Utils/Extensions.swift:36-38 | amount 0 gives the start, amount 1 the target, and an amount in [0, 1] stays between the two |
| Spatial.LerpExample | AlpineShredder/AlpineShredderTests/GameTests.swift:173-176 | interpolating from 0 to 10 at 0.5 gives 5 |
| Spatial.Clamped | AlpineShredder/AlpineShredder/Utils/Extensions.swift:40-42 | with min <= max the result lies in [min, max]; a value inside is unchanged; below min gives min, above max gives max |
| Spatial.Intersects | AlpineShredder/AlpineShredder/Game/GameScene.swift:255-259 | boxes can only intersect when their half-extents add up to a positive length on every axis; boxes with the same center intersect exactly then |
| Spatial.IntersectsIffIntervalsOverlap | AlpineShredder/AlpineShredder/Game/GameScene.swift:255-259 | two boxes intersect exactly when their open extents overlap on all three axes (both directions) |
| Spatial.IntersectsSymmetric | AlpineShredder/AlpineShredder/Game/GameScene.swift:255-259 | box intersection is symmetric |
| Spatial.SameCenterIntersects | AlpineShredder/AlpineShredder/Game/GameScene.swift:255-259 | a box with positive extents intersects every box with the same center |
| Spatial.TouchingBoxesDoNotIntersect | AlpineShredder/AlpineShredder/Game/GameScene.swift:255-259 | boxes that only touch on one axis do not intersect: the test is strict |
| Spatial.BoundingBoxExamples | AlpineShredder/AlpineShredderTests/GameTests.swift:90-119 | the unit tests' overlapping boxes intersect and their separated boxes do not |
| Catalog.EntryAt | AlpineShredder/AlpineShredder/Models/Resort.swift:204-206 | a non-negative index picks entry `index mod count`; a negative multiple of the count picks the first entry, as Swift's remainder 0 does; a negative index with a non-zero remainder (a trap in Swift) gives no entry; every entry given is the one at the wrapped index and is in the catalog |
| Catalog.EntryAtPeriodic | AlpineShredder/AlpineShredder/Models/Resort.swift:204-206 | the lookup repeats with the catalog size as period |
| Resorts.SymbolsIdentifyAllButBlack | AlpineShredder/AlpineShredder/Models/Resort.swift:45-52 | two difficulties share a symbol exactly when they are equal or both are black or double black |
| Resorts.CatalogResortsPlayable | AlpineShredder/AlpineShredder/Models/Resort.swift:58-191 | six resorts, each with positive speed, obstacle and width multipliers, slope length 0 (endless) and fog start before fog end |
| Resorts.CatalogIdsDistinct | AlpineShredder/AlpineShredder/Models/Resort.swift:58-191 | the catalog's resort ids are pairwise distinct |
| Resorts.SelectResort | AlpineShredder/AlpineShredder/Models/Resort.swift:199-202 | after storing an index, the stored index reads back as that index and the current resort is the wrapped catalog entry at it |
| Resorts.CurrentResort | AlpineShredder/AlpineShredder/Models/Resort.swift:204-206 | the current resort is a catalog resort; with nothing stored it is the first one, and every non-negative stored index gives one |
| Resorts.CurrentResortWraps | AlpineShredder/AlpineShredder/Models/Resort.swift:204-206 | with nothing stored the first resort is current; a non-negative index picks `all[index mod 6]` and index + 6 picks the same resort; a negative multiple of 6 picks the first resort, and any other negative index has no resort |
| Equipment.SameGearIsIdEquality | AlpineShredder/AlpineShredder/Models/Equipment.swift:15-17 | gear equality is an equivalence that holds exactly when the ids agree and ignores name, brand and bonuses |
| Equipment.CatalogIdsDistinct | AlpineShredder/AlpineShredder/Models/Equipment.swift:22-161 | both catalogs hold six entries with pairwise distinct ids |
| Equipment.BoardsAreNotSkis | AlpineShredder/AlpineShredder/Models/Equipment.swift:22-161 | no board equals a ski, and every bonus of every entry is positive |
| Equipment.CurrentBoard | AlpineShredder/AlpineShredder/Models/Equipment.swift:179-181 | the current board is a catalog board; with nothing stored it is the first one, and every non-negative stored index gives one |
| Equipment.CurrentSki | AlpineShredder/AlpineShredder/Models/Equipment.swift:183-185 | the current ski is a catalog ski; with nothing stored it is the first one, and every non-negative stored index gives one |
| Equipment.CurrentEquipment | AlpineShredder/AlpineShredder/Models/Equipment.swift:187-192 | a snowboarder gets the current board and a skier the current ski; the gear given is a board exactly for the snowboarder |
| Equipment.SelectionsIndependent | AlpineShredder/AlpineShredder/Models/Equipment.swift:169-185 | storing a board index selects the wrapped board at it and leaves the current ski alone, and the other way round |
| Equipment.DefaultGear | AlpineShredder/AlpineShredder/Models/Equipment.swift:179-192 | with nothing stored each character gets the first entry of its catalog |
| Weather.FogMultiplierRange | AlpineShredder/AlpineShredder/Game/WeatherSystem.swift:34-42 | every condition's fog factor is positive, at least the blizzard's and at most the clear sky's 1.5, which only clear weather reaches |
| Weather.FogFor | AlpineShredder/AlpineShredder/Game/WeatherSystem.swift:98-102 | scaling the resort's fog by the condition's factor keeps the fog start before the fog end and never beyond 1.5 times the resort's values |
| Weather.ResortWeather | AlpineShredder/AlpineShredder/Game/WeatherSystem.swift:66-73 | heavy snow exactly from intensity 1.8 on, light snow exactly in [1.2, 1.8), clear exactly below 1.2 |
| Weather.ApplyResortWeather | AlpineShredder/AlpineShredder/Game/WeatherSystem.swift:66-76 | the condition becomes the classified one and the change timer is untouched |
| Weather.TransitionTo | AlpineShredder/AlpineShredder/Game/WeatherSystem.swift:87-92 | the drawn condition becomes current, and the scene is restyled exactly when it differs from the current one |
| Weather.Update | AlpineShredder/AlpineShredder/Game/WeatherSystem.swift:78-85 | the timer grows by the frame time; once it reaches the next change, the drawn condition takes over, the timer restarts at 0 and the next change is the new draw |
| Weather.InitialIsValid | AlpineShredder/AlpineShredder/Game/WeatherSystem.swift:57-59 | the initial state is valid: its timer of 0 is below its next change of 30, which lies in [20, 60] |
| Weather.UpdateKeepsValid | AlpineShredder/AlpineShredder/Game/WeatherSystem.swift:78-85 | every update with a non-negative time step keeps the timer below the next change, which lies in [20, 60] |
| Weather.SameDrawIsNoChange | AlpineShredder/AlpineShredder/Game/WeatherSystem.swift:87-91 | drawing the current condition restyles nothing and leaves the condition as it was |
| Weather.WeatherChangesOnlyOnTimer | AlpineShredder/AlpineShredder/Game/WeatherSystem.swift:78-91 | the condition changes only when the timer has run out and a different condition was drawn |
| Terrain.New | AlpineShredder/AlpineShredder/Game/TerrainGenerator.swift:8-26 | a new streamer has no chunks, its frontier at the start line, noise 0, and chunk width 20 times the resort's width multiplier (positive for a positive multiplier) |
| Terrain.AddChunk | AlpineShredder/AlpineShredder/Game/TerrainGenerator.swift:56-90 | the new chunk runs from the frontier one chunk length down, the frontier and noise advance by 30 and 0.3, and contiguity and the noise-frontier relation are kept |
| Terrain.AddChunks | AlpineShredder/AlpineShredder/Game/TerrainGenerator.swift:30-34 | n chunks extend the list with the chunks at consecutive 30-unit steps from the frontier, keeping the old chunks and both invariants |
| Terrain.Fill | AlpineShredder/AlpineShredder/Game/TerrainGenerator.swift:40-42 | afterwards the frontier is at or beyond 120 units ahead of the rider, never moved back, and overshoots by less than one chunk; already far enough, nothing changes; old chunks stay as a prefix |
| Terrain.Cleanup | AlpineShredder/AlpineShredder/Game/TerrainGenerator.swift:45-51 | exactly the chunks ending more than 30 units behind the rider are removed, with multiplicities kept |
| Terrain.Update | AlpineShredder/AlpineShredder/Game/TerrainGenerator.swift:38-52 | after a frame the frontier is at least 120 units ahead of the rider and has not moved back, every chunk kept is inside the cleanup window, and the chunks are the old ones still inside the window, in order, followed by the newly laid ones inside it |
| Terrain.CleanupDropsPrefix | AlpineShredder/AlpineShredder/Game/TerrainGenerator.swift:45-51 | on contiguous terrain cleanup drops a prefix of the chunk list and the rest stays contiguous |
| Terrain.FirstKeptIsPrefixBound | AlpineShredder/AlpineShredder/Game/TerrainGenerator.swift:45-51 | on contiguous terrain every chunk after a kept chunk is kept too |
| Terrain.Reset | AlpineShredder/AlpineShredder/Game/TerrainGenerator.swift:233-241 | a reset leaves exactly eight chunks covering [-230, 10] in 30-unit steps, frontier -230, noise 2.4, the width kept, contiguous |
| Terrain.ResetIdempotent | AlpineShredder/AlpineShredder/Game/TerrainGenerator.swift:233-241 | resetting twice is resetting once; the chunks start at the start line and end at the frontier |
| Terrain.UpdateKeepsInvariants | AlpineShredder/AlpineShredder/Game/TerrainGenerator.swift:38-90 | a new streamer (width multiplier 1) and every update keep the chunks contiguous and the noise phase at 0.3 per chunk length the frontier has moved |
| Terrain.ChunkWindow | AlpineShredder/AlpineShredder/Game/TerrainGenerator.swift:38-52 | the live chunks stay bounded: after a frame that lays chunks at most 6 remain (120 of look-ahead, one chunk of overshoot and 30 of cleanup, in chunk lengths of 30), after any other frame no more than before, so a streamer reset to its 8 initial chunks never holds more than 8 |
| Obstacles.DifficultyFactor | AlpineShredder/AlpineShredder/Game/ObstacleManager.swift:25 | the factor is 1 + abs(z)/500 below 1000 units and saturates at 3 from there, so it always lies in [1, 3] |
| Obstacles.DifficultyMonotone | AlpineShredder/AlpineShredder/Game/ObstacleManager.swift:25 | farther down the slope the difficulty never drops |
| Obstacles.RowCount | AlpineShredder/AlpineShredder/Game/ObstacleManager.swift:46 | a row holds at least 1 obstacle and at most min(3, Int(df) + 1): 2 below difficulty 2, 3 from there |
| Obstacles.RowCountCoversRange | AlpineShredder/AlpineShredder/Game/ObstacleManager.swift:46 | every count in that range is drawn by some roll |
| Obstacles.KindFor | AlpineShredder/AlpineShredder/Game/ObstacleManager.swift:71-84 | the kind is chosen by roll thresholds 0.4, 0.65, 0.8 and 0.9, each band exactly |
| Obstacles.IsJumpable | AlpineShredder/AlpineShredder/Models/Obstacle.swift:23-25 | a kind is jumpable exactly when every kind roll that draws it lies in the top tenth: only the ramp |
| Obstacles.KindForOrdered | AlpineShredder/AlpineShredder/Game/ObstacleManager.swift:71-84 | larger rolls never give an earlier kind, and every kind has a roll that draws it |
| Obstacles.HalfExtent | AlpineShredder/AlpineShredder/Game/ObstacleManager.swift:176-305 | every half-extent is positive; trees and rocks scale with their draws; snowman (0.5, 1, 0.5), cabin (1.5, 1.5, 1.25) and ramp (1.5, 0.4, 1) are fixed |
| Obstacles.LaneToX | AlpineShredder/AlpineShredder/Game/ObstacleManager.swift:86-90 | the x of a lane is the lane's center on the 20-unit terrain plus the jitter, within [-9, 9] for the five lanes |
| Obstacles.LanesKeepApart | AlpineShredder/AlpineShredder/Game/ObstacleManager.swift:86-90 | obstacles in different lanes are at least 2 units apart whatever the jitter |
| Obstacles.FreeLanes | AlpineShredder/AlpineShredder/Game/ObstacleManager.swift:53-58 | the lanes the redraw loop can end on are exactly the unblocked ones, and one exists while fewer than five are blocked |
| Obstacles.ChooseLanes | AlpineShredder/AlpineShredder/Game/ObstacleManager.swift:49-59 | the lane loop keeps the lanes already blocked and adds lanes until min(count, 4) are blocked; all lanes are distinct and in range, and every added lane is a free lane at its turn |
| Obstacles.Place | AlpineShredder/AlpineShredder/Game/ObstacleManager.swift:61-65 | an obstacle stands on the ground at the lane's x, its z jittered from the row's line, with its kind's half-extent |
| Obstacles.RowLanes | AlpineShredder/AlpineShredder/Game/ObstacleManager.swift:46-59 | a row's lanes are distinct and as many as its drawn count |
| Obstacles.SpawnRow | AlpineShredder/AlpineShredder/Game/ObstacleManager.swift:45-69 | one obstacle per chosen lane, in the order the lanes were chosen, each placed at its lane with its own draws |
| Obstacles.RowLeavesALaneFree | AlpineShredder/AlpineShredder/Game/ObstacleManager.swift:46-69 | lane fairness: 1 to 3 obstacles per row, some lane of the five left free, no two at the same x, all within the terrain and within 2 units of the row's line |
| Obstacles.Spacing | AlpineShredder/AlpineShredder/Game/ObstacleManager.swift:30 | the row spacing is positive and times difficulty and resort multiplier gives 12 |
| Obstacles.SpawnRows | AlpineShredder/AlpineShredder/Game/ObstacleManager.swift:28-31 | the frontier loop ends at or beyond its target, overshooting by less than one step, never moves the frontier back, keeps the old obstacles as a prefix and places new ones between the final frontier and the first |
| Obstacles.Cleanup | AlpineShredder/AlpineShredder/Game/ObstacleManager.swift:34-40 | exactly the obstacles more than 20 units behind the rider are removed, with multiplicities kept |
| Obstacles.CleanupKeepsOrder | AlpineShredder/AlpineShredder/Game/ObstacleManager.swift:34-40 | cleanup keeps the survivors in order: it filters each part of a split list on its own |
| Obstacles.Update | AlpineShredder/AlpineShredder/Game/ObstacleManager.swift:23-41 | after a frame the difficulty is the one for the rider's position, the frontier is at least 100 units ahead and has not moved back, every obstacle kept is inside the cleanup window, and the obstacles are the old ones still inside the window, in order, followed by the rows the spawn loop laid that are inside it |
| Obstacles.RemoveAll | AlpineShredder/AlpineShredder/Game/ObstacleManager.swift:310-317 | clearing gives the fresh spawner: no obstacles, frontier -30, difficulty 1 |
| Obstacles.RemoveAllIdempotent | AlpineShredder/AlpineShredder/Game/ObstacleManager.swift:310-317 | clearing twice is clearing once, and a cleared spawner runs its next frame like a new one |
| Collectibles.DisplayNamesDistinct | AlpineShredder/AlpineShredder/Models/Collectible.swift:21-28 | two kinds have the same display name exactly when they are the same kind |
| Collectibles.CoinLine | AlpineShredder/AlpineShredder/Game/CollectibleManager.swift:49-64 | a coin line holds the drawn number of coins, sharing one x, at coin height, 1.5 units apart down the slope, with consecutive fresh ids |
| Collectibles.PowerKind | AlpineShredder/AlpineShredder/Game/CollectibleManager.swift:66-75 | a power-up is never a coin: a speed boost below roll 0.5, a score multiplier in [0.5, 0.8), a shield from 0.8 on |
| Collectibles.SpawnAt | AlpineShredder/AlpineShredder/Game/CollectibleManager.swift:40-47 | a first roll below 0.7 spawns a coin line, otherwise one power-up at power-up height |
| Collectibles.SpawnAtShape | AlpineShredder/AlpineShredder/Game/CollectibleManager.swift:40-85 | one spawn step adds 1 to 7 collectibles with consecutive ids, inside the lane offsets and within 9 units below the frontier; they are coins exactly for a coin line |
| Collectibles.SpawnAll | AlpineShredder/AlpineShredder/Game/CollectibleManager.swift:18-21 | the loop moves the frontier by exactly 15 per step until it is no longer ahead of the target line; the old collectibles stay as a prefix, the new ones lie between the old frontier and 9 units below the new one, and the ids stay fresh and distinct |
| Collectibles.Bob | AlpineShredder/AlpineShredder/Game/CollectibleManager.swift:160-171 | bobbing moves a collectible only vertically, to within 0.15 of its kind's base height (1 for coins, 1.5 for power-ups) |
| Collectibles.Cleanup | AlpineShredder/AlpineShredder/Game/CollectibleManager.swift:29-35 | exactly the collectibles more than 15 units behind the rider are removed, with multiplicities kept |
| Collectibles.Update | AlpineShredder/AlpineShredder/Game/CollectibleManager.swift:16-36 | after a frame the frontier is at least 80 units ahead and has not moved back, every collectible kept is inside the cleanup window and at its bob height, the collectibles are the old ones still inside the window, in order, followed by the newly spawned ones inside it, all bobbed, and ids stay fresh and distinct |
| Collectibles.Collect | AlpineShredder/AlpineShredder/Game/CollectibleManager.swift:208-210 | the list shrinks by exactly one when an active collectible has the id, and nothing changes when none has; the spawn frontier and id counter are kept |
| Collectibles.CollectRemovesExactlyIt | AlpineShredder/AlpineShredder/Game/CollectibleManager.swift:208-212 | collecting an active collectible removes exactly it: the others stay in order, it is no longer active, the multiset loses one copy, the ids stay distinct |
| Collectibles.CollectAbsentIsNoOp | AlpineShredder/AlpineShredder/Game/CollectibleManager.swift:210-212 | collecting something not active changes nothing |
| Collectibles.RemoveAll | AlpineShredder/AlpineShredder/Game/CollectibleManager.swift:217-223 | clearing leaves no collectibles and the frontier at -20, without reusing ids |
| Player.StartTrick | AlpineShredder/AlpineShredder/Game/PlayerController.swift:188-193 | afterwards a trick is in progress; one already under way keeps its type, a new one has the requested type and rotation 0; nothing but the trick state changes; a real trick started in the air keeps the rider valid |
| Player.Jump | AlpineShredder/AlpineShredder/Game/PlayerController.swift:160-169 | a jump leaves the ground at jump force 10, keeps the steering, and starts a grab exactly when sideways speed exceeds 2 and no trick is in progress |
| Player.HandleSwipe | AlpineShredder/AlpineShredder/Game/PlayerController.swift:123-146 | left and right move the target 3 units, saturating at -8 and 8; up jumps only from the ground; down slams an airborne rider at -15 and changes nothing on the ground; the rider stays valid |
| Player.LeftRightRoundTrip | AlpineShredder/AlpineShredder/Game/PlayerController.swift:127-130 | away from the edges a left swipe and a right swipe undo each other |
| Player.SwipesSaturateAtEdge | AlpineShredder/AlpineShredder/Game/PlayerController.swift:127-130 | near the left edge a left swipe lands on -8, and at an edge a swipe outward changes nothing |
| Player.HandleTilt | AlpineShredder/AlpineShredder/Game/PlayerController.swift:148-156 | a tilt within the 0.05 deadzone changes nothing; otherwise only the target moves, to the current position plus 15 times the tilt, clamped to [-8, 8] |
| Player.HorizontalStep | AlpineShredder/AlpineShredder/Game/PlayerController.swift:204-216 | the gap to the target shrinks by the factor 1 - 8 dt, the velocity is 8 times the gap to the target whatever dt is, the move is that velocity over dt, and for 0 <= 8 dt <= 1 the rider never overshoots the target |
| Player.VerticalStep | AlpineShredder/AlpineShredder/Game/PlayerController.swift:218-236 | a grounded rider is unchanged; in the air gravity 25 acts on the velocity and the velocity on the height; at or below 0.3 the rider lands at 0.3 with no velocity and any trick ends |
| Player.TrickStep | AlpineShredder/AlpineShredder/Game/PlayerController.swift:238-255 | only the trick rotation changes; it advances at the trick's rate (a grab half as fast as a spin or flip), never turns back on a frame of non-negative length, stays put without a trick, and the rider stays valid |
| Player.ForwardStep | AlpineShredder/AlpineShredder/Game/PlayerController.swift:257-263 | the rider moves down the slope by speed/60 per frame whatever dt is, and only along z |
| Player.Update | AlpineShredder/AlpineShredder/Game/PlayerController.swift:197-202 | a frame keeps the rider valid and the target, puts the rider at its lane x, moves it speed/60 down, and never overshoots the target |
| Player.Reset | AlpineShredder/AlpineShredder/Game/PlayerController.swift:268-278 | a reset zeros all motion and trick state at the current position, which is valid |
| Player.ResetIsRest | AlpineShredder/AlpineShredder/Game/PlayerController.swift:123-169 | resetting is idempotent; a reset rider ignores a down swipe and can jump without starting a trick |
| Player.LandingEndsTrick | AlpineShredder/AlpineShredder/Game/PlayerController.swift:229-235 | the frame that reaches the ground leaves a rider in mid-trick grounded at 0.3 with the trick cleared |
| Player.TrickLastsUntilLanding | AlpineShredder/AlpineShredder/Game/PlayerController.swift:218-236 | a trick in progress keeps its type through every frame the rider stays in the air and ends on the frame that lands |
| Player.JumpLands | AlpineShredder/AlpineShredder/Game/PlayerController.swift:218-236 | with frames of one positive length a jump ends: within `LandingBound` frames (frames to stop rising, frames to fall from the highest reachable height, the landing frame) the rider is grounded with no trick |
| Player.ValidThroughout | AlpineShredder/AlpineShredder/Game/PlayerController.swift:123-236 | the rest state is valid and every swipe, tilt and frame keeps the rider valid: target in [-8, 8], a trick in progress exactly when a trick type is set and only in the air, no vertical velocity on the ground |
| Scene.FrameDelta | AlpineShredder/AlpineShredder/Game/GameScene.swift:156-161 | the first frame after a start lasts 1/60; later frames last the elapsed time capped at 1/30, never negative for a monotone clock |
| Scene.FrameDeltaKeepsSteeringStable | AlpineShredder/AlpineShredder/Game/GameScene.swift:156-161 | the cap keeps 8 dt <= 1, the condition under which steering never overshoots |
| Scene.Accelerate | AlpineShredder/AlpineShredder/Game/GameScene.swift:167 | the speed grows by 0.3 dt but never past the maximum 35 |
| Scene.Advance | AlpineShredder/AlpineShredder/Game/GameScene.swift:168 | the distance grows by speed times dt, never shrinking for non-negative speed and dt |
| Scene.FollowRider | AlpineShredder/AlpineShredder/Game/GameScene.swift:172-174 | terrain, obstacles and collectibles follow the rider: each is exactly its own update at the rider's position, so each frontier is at its look-ahead and everything kept is in its window; nothing else changes, and the invariants hold |
| Scene.Update | AlpineShredder/AlpineShredder/Game/GameScene.swift:153-178 | an inactive scene ignores the frame; an active one takes the time as its clock, the capped speed, the distance grown by it, the rider's step, and moves the terrain and both spawners by their own updates at the rider's new position, keeping the scene valid |
| Scene.FrameMovesForward | AlpineShredder/AlpineShredder/Game/GameScene.swift:153-168 | with a monotone clock and non-negative speed a frame never shortens the run; below the maximum speed never drops, above it (after a boost) it is clamped back |
| Scene.StartGame | AlpineShredder/AlpineShredder/Game/GameScene.swift:142-147 | starting activates the scene at speed 8, distance 0 and clock 0, leaving the world as it is |
| Scene.StopGame | AlpineShredder/AlpineShredder/Game/GameScene.swift:149-151 | stopping deactivates the scene and changes nothing else |
| Scene.FirstFrameIsNominal | AlpineShredder/AlpineShredder/Game/GameScene.swift:142-162 | the first frame after a start lasts 1/60 whatever the clock says |
| Scene.ResetScene | AlpineShredder/AlpineShredder/Game/GameScene.swift:230-240 | a reset gives speed 8, distance 0, clock 0, a rider at rest at the start, empty spawners, eight chunks, and a valid scene |
| Scene.ResetSceneIdempotent | AlpineShredder/AlpineShredder/Game/GameScene.swift:230-240 | resetting twice is resetting once |
| Scene.CheckCollisions | AlpineShredder/AlpineShredder/Game/GameScene.swift:196-226 | an obstacle is hit exactly when one overlaps the rider, and it is the first in list order; collectibles are tried only when no obstacle overlaps, the first overlapping one is the hit and is collected; with no overlap nothing changes |
| Scene.CollectedItemLeaves | AlpineShredder/AlpineShredder/Game/GameScene.swift:214-225 | a collected item was active, is active no more, is exactly one copy fewer, and nothing but the collectibles changes |
| Scene.CheckKeepsValid | AlpineShredder/AlpineShredder/Game/GameScene.swift:196-226 | the collision check keeps the scene valid |
| ScoreManager.SubmitScore | AlpineShredder/AlpineShredder/Game/ScoreManager.swift:51-69 | one more game played, the high score raised to the score if it beats it, the entry ranked into the top ten, and the totals untouched |
| ScoreManager.SubmitScoreKeepsOtherKeys | AlpineShredder/AlpineShredder/Game/ScoreManager.swift:51-69 | submitting writes only the statistics' keys |
| ScoreManager.AddCoins | AlpineShredder/AlpineShredder/Game/ScoreManager.swift:71-73 | the coin total grows by the count |
| ScoreManager.UpdateDistance | AlpineShredder/AlpineShredder/Game/ScoreManager.swift:75-80 | the distance total grows by the distance and the best distance becomes the larger of the two; coins and high score are untouched |
| ScoreManager.ResetAll | AlpineShredder/AlpineShredder/Game/ScoreManager.swift:88-95 | every counter reads 0 and the top list is empty |
| ScoreManager.UpdatesKeepOtherKeys | AlpineShredder/AlpineShredder/Game/ScoreManager.swift:71-95 | adding coins, updating the distance and resetting each write only their own keys |
| ScoreManager.IsHighScore | AlpineShredder/AlpineShredder/Game/ScoreManager.swift:82-84 | a score is a high score exactly when submitting it would raise the stored high score |
| ScoreManager.SubmittedScoreIsNeverHigh | AlpineShredder/AlpineShredder/Game/ScoreManager.swift:51-84 | right after a score is submitted it is never a high score: the high score already counts it |
| ScoreManager.HighScoreScenario | AlpineShredder/AlpineShredderTests/GameTests.swift:18-29 | after 100, 200, 150 the high score is 200 from three games; 201 beats it, 200 and 50 do not |
| ScoreManager.CoinScenario | AlpineShredder/AlpineShredderTests/GameTests.swift:46-55 | adding 10 then 5 coins to reset statistics gives 10 then 15 |
| ScoreManager.DistanceScenario | AlpineShredder/AlpineShredderTests/GameTests.swift:57-72 | distances 100, 50, 200 give best 100, 100, 200 and totals 100, 150, 350 |
| ScoreManager.SubmitToShortList | AlpineShredder/AlpineShredder/Game/ScoreManager.swift:58-64 | while the list has room, a submission keeps every entry, adds the new one and keeps the list ordered |
| ScoreManager.SubmitAll | AlpineShredder/AlpineShredder/Game/ScoreManager.swift:51-52 | n submitted games add n to the games played |
| ScoreManager.SubmitAllToShortList | AlpineShredder/AlpineShredder/Game/ScoreManager.swift:51-64 | while the list has room, a series of games leaves exactly the old entries and the games, ordered by score, and the high score is the highest of all |
| ScoreManager.EndsOfRanking | AlpineShredder/AlpineShredder/Game/ScoreManager.swift:61 | in an ordered list the first entry scores highest and the last lowest |
| ScoreManager.TopScoresScenario | AlpineShredder/AlpineShredderTests/GameTests.swift:32-44 | submitting 100, 200, 50, 300, 150 to reset statistics gives high score 300, five games, five entries, first 300 and last 50 |
| Ranking.Sort | AlpineShredder/AlpineShredder/Game/ScoreManager.swift:61 | sorting orders highest first and is a permutation |
| Ranking.TopN | AlpineShredder/AlpineShredder/Game/ScoreManager.swift:62-64 | cutting keeps the best n of the list in order, all of it when it fits, and nothing cut beats anything kept |
| Ranking.RankIn | AlpineShredder/AlpineShredder/Game/LeaderboardManager.swift:45-54 | append, sort and cut: the result is ordered, as long as the cap allows, drawn from the old list plus the entry, all of them while there is room, and nothing cut outranks anything kept |
| Ranking.RankedInTop | AlpineShredder/AlpineShredder/Game/LeaderboardManager.swift:45-54 | after ranking in, the first entry is at least the new entry and every old one |
| Ranking.FirstIndex | AlpineShredder/AlpineShredder/Game/CollectibleManager.swift:210 | `firstIndex(where:)`: no earlier element matches, and the index is a match unless it is the end |
| Leaderboard.KeysSeparate | AlpineShredder/AlpineShredder/Game/LeaderboardManager.swift:62 | distinct resorts are stored under distinct keys, none of them a statistics key |
| Leaderboard.GetRuns | AlpineShredder/AlpineShredder/Game/LeaderboardManager.swift:61-68 | a resort with nothing stored has no runs, and any runs returned are the list stored under the resort's key |
| Leaderboard.SavedRunsReadBack | AlpineShredder/AlpineShredder/Game/LeaderboardManager.swift:90-95 | what is saved under a resort's key reads back for that resort, and every other resort still reads its own list |
| Leaderboard.SubmitRun | AlpineShredder/AlpineShredder/Game/LeaderboardManager.swift:35-57 | the resort's list becomes the old list with the run ranked in by distance and cut to 20; no other resort's list changes |
| Leaderboard.GetTopRuns | AlpineShredder/AlpineShredder/Game/LeaderboardManager.swift:70-72 | the first min(limit, n) runs of the resort's list |
| Leaderboard.GetBestRun | AlpineShredder/AlpineShredder/Game/LeaderboardManager.swift:74-76 | none exactly when the list is empty, otherwise a run of the list |
| Leaderboard.TopRunsAreLongest | AlpineShredder/AlpineShredder/Game/LeaderboardManager.swift:70-76 | on an ordered list the top runs are at least as long as every run left out, and the best run is the longest |
| Leaderboard.BestRunAfterSubmit | AlpineShredder/AlpineShredder/Game/LeaderboardManager.swift:35-76 | after a submission the resort has a best run, as long as the new run and every old one |
| Leaderboard.GetAllResortBests | AlpineShredder/AlpineShredder/Game/LeaderboardManager.swift:78-86 | the map holds exactly the catalog resorts with a run, each with its best run |
| Leaderboard.ClearLeaderboard | AlpineShredder/AlpineShredder/Game/LeaderboardManager.swift:97-99 | the resort's list is empty and every other resort's list is unchanged |
| Leaderboard.ClearAll | AlpineShredder/AlpineShredder/Game/LeaderboardManager.swift:101-105 | every catalog resort's list is empty and lists of resorts outside the catalog are unchanged |
| Leaderboard.ScoresLeaveLeaderboards | AlpineShredder/AlpineShredder/Game/ScoreManager.swift:51-69 | submitting a score changes no resort's leaderboard |
| Leaderboard.RunsLeaveScores | AlpineShredder/AlpineShredder/Game/LeaderboardManager.swift:90-95 | submitting a run changes no score statistic |
| Leaderboard.FormattedTime | AlpineShredder/AlpineShredder/Game/LeaderboardManager.swift:19-24 | minutes times 60 plus seconds is the truncated run time, with seconds in [0, 60) and hundredths in [0, 100) for a non-negative time |
| Leaderboard.FormattedTimeExample | AlpineShredder/AlpineShredder/Game/LeaderboardManager.swift:19-24 | 125.5 seconds split into 2 minutes, 5 seconds, 50 hundredths |
| Session.New | AlpineShredder/AlpineShredder/Game/GameManager.swift:20-37 | the manager starts valid in the menu, without a scene, with nothing shown or reported, on the given statistics |
| Session.Configure | AlpineShredder/AlpineShredder/Game/GameManager.swift:39-41 | the manager drives the given scene; state, run, display and statistics are untouched; a valid scene that runs exactly when the state says keeps the manager valid, and one with a positive resort multiplier can run frames |
| Session.ConfigureThenStart | AlpineShredder/AlpineShredder/Game/GameManager.swift:45-63 | a new manager ignores `startGame`; after `configure` with a playable scene it starts a valid game whose scene runs |
| Session.StartGame | AlpineShredder/AlpineShredder/Game/GameManager.swift:45-63 | without a scene nothing happens; otherwise playing, score, coins, trick score and combo 0, multiplier 1, the scene reset and started, the display told 0, 0 and 1; for a positive resort multiplier the manager is valid |
| Session.PauseGame | AlpineShredder/AlpineShredder/Game/GameManager.swift:65-70 | only a playing game pauses, stopping its scene; any other state is a no-op |
| Session.ResumeGame | AlpineShredder/AlpineShredder/Game/GameManager.swift:72-77 | only a paused game resumes, reactivating its scene; any other state is a no-op |
| Session.PauseResumeRoundTrip | AlpineShredder/AlpineShredder/Game/GameManager.swift:65-77 | pausing then resuming a playing game, and resuming then pausing a paused one, give back the game as it was |
| Session.FinalScore | AlpineShredder/AlpineShredder/Game/GameManager.swift:185-187 | the final score is at least the score and equals it at multiplier 1 |
| Session.ReportedDistance | AlpineShredder/AlpineShredder/Game/GameManager.swift:91 | the reported distance is the truncated distance travelled, 0 without a scene |
| Session.EndGameAsWritten | AlpineShredder/AlpineShredder/Game/GameManager.swift:79-95 | from any state: game over, the scene stopped, the final score submitted, and the report's high-score flag always false |
| Session.EndGame | AlpineShredder/AlpineShredder/Game/GameManager.swift:79-95 | as above, with the flag set exactly when the final score beats the high score stored before the game, which is exactly when the submission raised it |
| Session.EndGameHighScoreExample | AlpineShredder/AlpineShredder/Game/GameManager.swift:83-93 | a first game of 100 points is a high score for the corrected end and not for the one as written, with the same statistics stored |
| Session.ReturnToMenu | AlpineShredder/AlpineShredder/Game/GameManager.swift:97-101 | from any state: the menu, with the scene stopped, and the manager stays valid |
| Session.BoostScene | AlpineShredder/AlpineShredder/Game/GameManager.swift:145-147 | only the scene's speed changes, by 5 and uncapped, so a scene within 5 of the maximum is pushed past it; the scene stays valid |
| Session.BoostClampedNextFrame | AlpineShredder/AlpineShredder/Game/GameScene.swift:157-167 | the frame after a boost brings the speed back within the maximum, and exactly to it when the boost overshot and the clock did not run backwards |
| Session.HandleCollision | AlpineShredder/AlpineShredder/Game/GameManager.swift:133-162 | an obstacle ends the game; a coin adds exactly one coin and shows it; a boost speeds the scene up; a shield changes nothing; a multiplier pickup raises the multiplier to min(m + 1, 5) and shows it; no hit changes nothing; the multiplier stays in [1, 5] |
| Session.ScoreFor | AlpineShredder/AlpineShredder/Game/GameManager.swift:115-116 | the score is half the distance truncated, plus the trick score, plus 10 per coin, never negative |
| Session.RefreshScore | AlpineShredder/AlpineShredder/Game/GameManager.swift:115-120 | the score becomes the formula's value; when it changes the display is shown score times multiplier, otherwise nothing changes |
| Session.UpdateTrickSystem | AlpineShredder/AlpineShredder/Game/GameManager.swift:166-176 | during a trick or without a combo nothing changes; otherwise the trick score grows by 50 per trick times the multiplier, is shown, and the combo is cleared |
| Session.RegisterTrickLanded | AlpineShredder/AlpineShredder/Game/GameManager.swift:178-181 | the combo grows by exactly one and nothing else changes |
| Session.RegisterTricks | AlpineShredder/AlpineShredder/Game/GameManager.swift:178-181 | n landed tricks grow the combo by n |
| Session.ComboPaysOut | AlpineShredder/AlpineShredder/Game/GameManager.swift:166-181 | a combo of n tricks pays 50 n times the multiplier once, then nothing more |
| Session.PlayedFrame | AlpineShredder/AlpineShredder/Game/GameManager.swift:108-111 | a frame of the scene and its collision check keep the scene valid and running |
| Session.FinishFrame | AlpineShredder/AlpineShredder/Game/GameManager.swift:114-128 | after the collision the score follows the formula, the combo is settled when no trick is in progress, and state, scene, store, coins and multiplier stay |
| Session.Update | AlpineShredder/AlpineShredder/Game/GameManager.swift:105-129 | nothing unless playing with a scene; otherwise the collision outcome stands, the score counts the distance, the coins and the trick score paid before this frame, a pending combo is paid at the new multiplier, and the manager stays valid |
| Session.HandleCollisionKeepsValid | AlpineShredder/AlpineShredder/Game/GameManager.swift:133-162 | every collision outcome keeps the multiplier in [1, 5], the counters non-negative and the scene valid |
| Session.ObstacleEndsRun | AlpineShredder/AlpineShredder/Game/GameManager.swift:105-120 | an obstacle hit ends the game with the scene stopped and submits and reports the previous frame's score times the multiplier; the report's high-score flag is the corrected one (see "## Findings") |
| Session.CollectMultipliers | AlpineShredder/AlpineShredder/Game/GameManager.swift:153-156 | multiplier pickups change no score, coins or state |
| Session.MultiplierSaturates | AlpineShredder/AlpineShredder/Game/GameManager.swift:153-156 | k multiplier pickups give min(m + k, 5) |

## Left out

- Rendering, cameras, particles, lights and materials: they have no effect on the game state. The tilt lean angle, the tuck animation and the spin of collectibles are left out for the same reason.
- Audio: every `AudioManager` call is a no-op in the model.
- The UIKit screens and views, the game view controller and the app delegate. The heads-up display and the game-over screen appear only as the values handed to them (`Session.HudEvent`, `Session.Report`).
- JSON encoding and decoding, and date and number formatting. A stored list that does not decode reads as empty, as in the source.
- `sin`, `sqrt`, vector length and distance. `Spatial.Normalized` takes the vector's length as an argument.
- Random draws, the clock and `CACurrentMediaTime` are arguments, as are the bob offset and the slope noise.
- IEEE float rounding: quantities are real numbers.
- Obstacles.ChooseLanes: the redraw loop, which draws lanes until it finds an unblocked one, is modelled as one pick among the free lanes. The set of possible lanes is the same. The number of draws is not modelled.
- Obstacles.Update, Scene.Update, Session.Update: these require a positive resort obstacle multiplier. With a negative one the row spacing is negative and the spawn loop of the source never ends. With a multiplier of exactly 0 the Swift float spacing is infinite, so the frontier jumps to minus infinity after one row; the model has no infinities and excludes 0 for that reason. Every catalog resort has a positive multiplier (`Resorts.CatalogResortsPlayable`).
- Session.HandleCollision, Session.Update: an obstacle hit ends the game through the corrected `Session.EndGame`, so a record-breaking crash is reported as a high score. The source reports false there, as `Session.EndGameAsWritten` shows (see "## Findings").
- Scene.Update: the scene's player controller is always present. The source's optional `playerController` is not modelled.
- Leaderboard.GetTopRuns: the limit is a natural number. A negative limit traps in Swift and is not modelled.
- Catalog.EntryAt: a negative stored index whose remainder is not 0 traps in Swift. The model returns no entry there. A negative multiple of the size has remainder 0 and picks the first entry, as in Swift.
- Equipment bonuses: the speed, turn and trick bonuses of boards and skis are defined in the catalogs, but no gameplay code reads them, so the model does not apply them.
- Weather: applying the snow emitter and the fog distances to the renderer is left out. The condition, the fog factor and the scaled fog distances (`Weather.FogFor`) are modelled. Blizzard and windy appear only as targets of a random transition.
- Ranking.Sort: Swift's `sort` puts entries with equal keys in no guaranteed order. The model fixes one such order; `Ranking.RankedIn` states only what holds for every order.
- Collectibles: the identity (`===`) of a collectible is modelled by a unique id.
- Trick landing: none of the source files cited here calls `registerTrickLanded`, so in play the combo stays at 0 and is never paid out. The combo operations are modelled on their own (`Session.RegisterTricks`, `Session.ComboPaysOut`).
- Character selection, tutorials and the cosmetic appearance catalogs: they have no gameplay effect.

## Findings

| source | as written | input that shows it | evidently intended | confidence | as-written member | corrected member |
|---|---|---|---|---|---|---|
| AlpineShredder/AlpineShredder/Game/GameManager.swift:83-93 | `endGame` submits the final score, which raises the stored high score to it, and then asks `isHighScore(finalScore)`, which is then always false | first game of 100 points on empty statistics: the game-over screen is told it is not a high score | ask whether the run beat the high score stored before the game | not executed | Session.EndGameAsWritten | Session.EndGame |

=== FILE: catalog.dfy ===
/** Lookup into a fixed catalog by a stored selection index, as both the
    resort and the equipment managers do it: `all[index % all.count]`. */
module Catalog {
  import opened Numerics
  import opened Optional

  /** The entry at `index` wrapped by Swift's `%`. A negative multiple of
      the size has remainder zero and picks the first entry. A negative
      index whose remainder is not zero indexes the array out of bounds,
      which traps; that is `None`. */
  function EntryAt<T>(catalog: seq<T>, index: int): (r: Option<T>)
    requires |catalog| > 0
    ensures index >= 0 ==> r == Some(catalog[index % |catalog|])
    ensures r.Some? ==> r == Some(catalog[index % |catalog|])
    ensures index < 0 && index % |catalog| == 0 ==> r == Some(catalog[0])
    ensures r.Some? <==> index >= 0 || index % |catalog| == 0
    ensures r.Some? ==> r.value in catalog
  {
    var i := WrappedIndex(index, |catalog|);
    if i >= 0 then Some(catalog[i]) else None
  }

  /** Lookup is periodic in the catalog size for non-negative indices. */
  lemma EntryAtPeriodic<T>(catalog: seq<T>, index: nat)
    requires |catalog| > 0
    ensures EntryAt(catalog, index + |catalog|) == EntryAt(catalog, index)
  {
    var n := |catalog|;
    EuclideanUnique(index + n, n, index / n + 1, index % n);
  }
}

=== FILE: collectibles.dfy ===
/** The collectible spawner (Game/CollectibleManager.swift,
    Models/Collectible.swift). Every fifteen units down the slope it lays
    either a line of coins or one power-up. Swift tells collectibles apart
    by object identity; here every collectible carries an id handed out
    from a counter, which plays that part. Random draws are oracle
    arguments with the ranges Swift's `random(in:)` draws from; the bobbing
    offset, a sine of the clock, is an oracle bounded like the sine. */
module Collectibles {
  import opened Numerics
  import opened Spatial
  import opened Ranking
  import C = Constants

  datatype Kind = Coin | SpeedBoost | Shield | ScoreMultiplier

  /** `displayName`. */
  function DisplayName(k: Kind): string {
    match k
    case Coin => "Coin"
    case SpeedBoost => "Speed Boost"
    case Shield => "Shield"
    case ScoreMultiplier => "Score Multiplier"
  }

  /** Different kinds have different names. */
  lemma DisplayNamesDistinct(a: Kind, b: Kind)
    ensures DisplayName(a) == DisplayName(b) <==> a == b
  {
    if a != b {
      assert DisplayName(a)[0] != DisplayName(b)[0] || |DisplayName(a)| != |DisplayName(b)|;
    }
  }

  datatype Collectible = Collectible(id: nat, position: Vec3, kind: Kind)

  datatype Field = Field(active: seq<Collectible>, nextSpawnZ: real, nextId: nat)

  /** A fresh spawner. */
  const New: Field := Field([], C.CollectibleStartZ, 0)

  /** Distinct collectibles have distinct ids, all below the counter: the
      counter stands in for object identity. */
  ghost predicate IdsFresh(f: Field) {
    && (forall i :: 0 <= i < |f.active| ==> f.active[i].id < f.nextId)
    && DistinctIds(f.active)
  }

  /** No two collectibles of the list carry the same id. */
  ghost predicate DistinctIds(s: seq<Collectible>) {
    forall i, j :: 0 <= i < j < |s| ==> s[i].id != s[j].id
  }

  /** The ranges of the draws. */
  type Unit = x: real | 0.0 <= x <= 1.0 witness 0.0
  type CoinCount = n: int | 3 <= n <= 7 witness 3
  type LineX = x: real | -C.MaxLaneOffset <= x <= C.MaxLaneOffset witness 0.0
  type BobOffset = x: real | -0.15 <= x <= 0.15 witness 0.0

  /** The draws one spawn step makes: whether to lay a coin line, the
      line's coin count and x, the power-up roll and x. */
  datatype SpawnDraw = SpawnDraw(lineRoll: Unit, coinCount: CoinCount, lineX: LineX, powerRoll: Unit, powerX: LineX)

  /** The gap between coins along a line. */
  const CoinGap: real := 1.5

  /** `spawnCoinLine(atZ:)`: `count` coins sharing one x, at coin height,
      stepping down the slope from `z`, numbered from `firstId`. */
  function CoinLine(z: real, count: nat, x: real, firstId: nat): (r: seq<Collectible>)
    ensures |r| == count
    ensures forall i :: 0 <= i < |r| ==>
      r[i] == Collectible(firstId + i, Vec3(x, C.CoinHeight, z - i as real * CoinGap), Coin)
  {
    seq(count, i requires 0 <= i < count => Collectible(firstId + i, Vec3(x, C.CoinHeight, z - i as real * CoinGap), Coin))
  }

  /** `spawnPowerUp(atZ:)`'s choice: half of the unit interval draws a speed
      boost, three tenths a score multiplier, the rest a shield. */
  function PowerKind(roll: Unit): (r: Kind)
    ensures r != Coin
    ensures r == SpeedBoost <==> roll < 0.5
    ensures r == ScoreMultiplier <==> 0.5 <= roll < 0.8
    ensures r == Shield <==> 0.8 <= roll
  {
    if roll < 0.5 then SpeedBoost
    else if roll < 0.8 then ScoreMultiplier
    else Shield
  }

  /** `spawnCollectibles(atZ:)`: a coin line on seven tenths of the roll,
      a power-up otherwise. */
  function SpawnAt(z: real, d: SpawnDraw, firstId: nat): (r: seq<Collectible>)
    ensures d.lineRoll < 0.7 ==> r == CoinLine(z, d.coinCount, d.lineX, firstId)
    ensures d.lineRoll >= 0.7 ==>
      r == [Collectible(firstId, Vec3(d.powerX, C.PowerUpHeight, z), PowerKind(d.powerRoll))]
  {
    if d.lineRoll < 0.7 then CoinLine(z, d.coinCount, d.lineX, firstId)
    else [Collectible(firstId, Vec3(d.powerX, C.PowerUpHeight, z), PowerKind(d.powerRoll))]
  }

  /** What one spawn step lays down: three to seven coins or one power-up,
      all within the lanes, at most six units below the spawn line, and
      numbered consecutively from `firstId`. */
  lemma SpawnAtShape(z: real, d: SpawnDraw, firstId: nat)
    ensures 1 <= |SpawnAt(z, d, firstId)| <= 7
    ensures forall i :: 0 <= i < |SpawnAt(z, d, firstId)| ==>
      && SpawnAt(z, d, firstId)[i].id == firstId + i
      && -C.MaxLaneOffset <= SpawnAt(z, d, firstId)[i].position.x <= C.MaxLaneOffset
      && z - 6.0 * CoinGap <= SpawnAt(z, d, firstId)[i].position.z <= z
    ensures forall c :: c in SpawnAt(z, d, firstId) ==> (c.kind == Coin <==> d.lineRoll < 0.7)
  {
  }

  /** What the frontier loop promises about its result `r` from `f`: the
      frontier has moved exactly one spacing for every spawn step needed to
      get it past `target`; the collectibles already there are kept, ahead
      of the new ones; the new ones lie between the old frontier and six
      coin gaps below the new one; and every collectible id is still fresh. */
  ghost predicate SpawnedFrom(f: Field, r: Field, target: real) {
    && r.nextSpawnZ == f.nextSpawnZ - C.CollectibleSpacing * StepsShort(f.nextSpawnZ, target, C.CollectibleSpacing) as real
    && r.nextSpawnZ <= target && r.nextSpawnZ <= f.nextSpawnZ
    && |r.active| >= |f.active| && r.active[..|f.active|] == f.active
    && (forall i :: |f.active| <= i < |r.active| ==>
          r.nextSpawnZ - 6.0 * CoinGap < r.active[i].position.z <= f.nextSpawnZ)
    && (IdsFresh(f) ==> IdsFresh(r))
  }

  /** The frontier loop of `update`: a spawn step at the frontier, then the
      frontier moves one spacing down, until it is no longer ahead of
      `target` (the player's position less `collectibleLookAhead`). Step `k`
      of this call uses the draws `draws(k)`. */
  function SpawnAll(f: Field, target: real, draws: nat -> SpawnDraw, k: nat): (r: Field)
    ensures SpawnedFrom(f, r, target)
    decreases StepsShort(f.nextSpawnZ, target, C.CollectibleSpacing)
  {
    if f.nextSpawnZ > target then
      var added := SpawnAt(f.nextSpawnZ, draws(k), f.nextId);
      SpawnAtShape(f.nextSpawnZ, draws(k), f.nextId);
      var next := Field(f.active + added, f.nextSpawnZ - C.CollectibleSpacing, f.nextId + |added|);
      StepsShortDecreases(f.nextSpawnZ, target, C.CollectibleSpacing);
      var r := SpawnAll(next, target, draws, k + 1);
      SpawnStep(f, added, target, r);
      r
    else f
  }

  /** One turn of the frontier loop keeps the loop's promise. */
  lemma SpawnStep(f: Field, added: seq<Collectible>, target: real, r: Field)
    requires f.nextSpawnZ > target
    requires forall i :: 0 <= i < |added| ==>
      added[i].id == f.nextId + i && f.nextSpawnZ - 6.0 * CoinGap <= added[i].position.z <= f.nextSpawnZ
    requires SpawnedFrom(Field(f.active + added, f.nextSpawnZ - C.CollectibleSpacing, f.nextId + |added|), r, target)
    ensures SpawnedFrom(f, r, target)
  {
    PrefixOfAppend(f.active, added, r.active);
    StepsShortDecreases(f.nextSpawnZ, target, C.CollectibleSpacing);
    if IdsFresh(f) {
      FreshAfterAppend(f, added);
    }
  }

  /** Appending collectibles numbered on from the counter, and moving the
      counter past them, keeps ids fresh. */
  lemma FreshAfterAppend(f: Field, added: seq<Collectible>)
    requires IdsFresh(f)
    requires forall i :: 0 <= i < |added| ==> added[i].id == f.nextId + i
    ensures IdsFresh(Field(f.active + added, f.nextSpawnZ - C.CollectibleSpacing, f.nextId + |added|))
  {
  }

  /** The height a collectible of this kind bobs around. */
  function BaseHeight(k: Kind): real {
    if k == Coin then C.CoinHeight else C.PowerUpHeight
  }

  /** `animateCollectible`: the height is reset to the kind's base height
      plus the bob offset; the spin is rendering. */
  function Bob(c: Collectible, offset: BobOffset): (r: Collectible)
    ensures r.id == c.id && r.kind == c.kind
    ensures r.position.x == c.position.x && r.position.z == c.position.z
    ensures BaseHeight(c.kind) - 0.15 <= r.position.y <= BaseHeight(c.kind) + 0.15
  {
    c.(position := c.position.(y := BaseHeight(c.kind) + offset))
  }

  /** Every active collectible bobs, with the offset the oracle gives for
      its id. */
  function BobAll(s: seq<Collectible>, bob: nat -> BobOffset): (r: seq<Collectible>)
    ensures |r| == |s|
    ensures forall i :: 0 <= i < |s| ==> r[i] == Bob(s[i], bob(s[i].id))
  {
    seq(|s|, i requires 0 <= i < |s| => Bob(s[i], bob(s[i].id)))
  }

  /** Bobbing and cleaning a list that extends `before` treats the part
      before and the added part each on its own. */
  lemma CleanupSplits(before: seq<Collectible>, s: seq<Collectible>, bob: nat -> BobOffset, playerZ: real)
    requires |before| <= |s| && s[..|before|] == before
    ensures Cleanup(BobAll(s, bob), playerZ) ==
      Filter(BobAll(before, bob), c => Kept(playerZ, c)) + Filter(BobAll(s[|before|..], bob), c => Kept(playerZ, c))
  {
    assert s == before + s[|before|..];
    BobAllAppend(before, s[|before|..], bob);
    FilterAppend(BobAll(before, bob), BobAll(s[|before|..], bob), c => Kept(playerZ, c));
  }

  /** Bobbing works element by element, so it distributes over
      concatenation. */
  lemma BobAllAppend(a: seq<Collectible>, b: seq<Collectible>, bob: nat -> BobOffset)
    ensures BobAll(a + b, bob) == BobAll(a, bob) + BobAll(b, bob)
  {
  }

  /** `removeAll` in `update`: a collectible is dropped once it is more than
      `collectibleCleanupDistance` behind the player. */
  predicate Kept(playerZ: real, c: Collectible) {
    c.position.z <= playerZ + C.CollectibleCleanupDistance
  }

  function Cleanup(s: seq<Collectible>, playerZ: real): (r: seq<Collectible>)
    ensures forall c :: multiset(r)[c] == if Kept(playerZ, c) then multiset(s)[c] else 0
  {
    Filter(s, c => Kept(playerZ, c))
  }

  /** `update(playerZ:speed:deltaTime:)`: spawn up to the look-ahead line,
      bob every collectible, then drop the ones left behind. The
      collectibles that remain are the old ones still inside the window, in
      their order, followed by the newly spawned ones inside it, each at its
      bob height. */
  function Update(f: Field, playerZ: real, draws: nat -> SpawnDraw, bob: nat -> BobOffset): (r: Field)
    ensures r.nextSpawnZ <= playerZ - C.CollectibleLookAhead && r.nextSpawnZ <= f.nextSpawnZ
    ensures forall c :: c in r.active ==> Kept(playerZ, c) && BaseHeight(c.kind) - 0.15 <= c.position.y <= BaseHeight(c.kind) + 0.15
    ensures r.active == Filter(BobAll(f.active, bob), c => Kept(playerZ, c)) +
      Filter(BobAll(SpawnAll(f, playerZ - C.CollectibleLookAhead, draws, 0).active[|f.active|..], bob),
             c => Kept(playerZ, c))
    ensures IdsFresh(f) ==> IdsFresh(r)
  {
    var spawned := SpawnAll(f, playerZ - C.CollectibleLookAhead, draws, 0);
    var bobbed := BobAll(spawned.active, bob);
    var kept := Cleanup(bobbed, playerZ);
    CleanupSplits(f.active, spawned.active, bob, playerZ);
    assert forall c :: c in kept ==> Kept(playerZ, c) && c in bobbed by {
      forall c | c in kept
        ensures Kept(playerZ, c) && c in bobbed
      {
        assert multiset(kept)[c] > 0;
      }
    }
    assert IdsFresh(f) ==> IdsFresh(spawned.(active := kept)) by {
      if IdsFresh(f) {
        CleanupKeepsFresh(spawned, bob, playerZ);
      }
    }
    spawned.(active := kept)
  }

  /** A list with distinct ids stays so when a collectible whose id none of
      them carries is put in front. */
  lemma ConsDistinct(c: Collectible, s: seq<Collectible>)
    requires DistinctIds(s) && forall x :: x in s ==> x.id != c.id
    ensures DistinctIds([c] + s)
  {
    var t := [c] + s;
    forall i, j | 0 <= i < j < |t|
      ensures t[i].id != t[j].id
    {
      if i == 0 {
        assert t[j] == s[j - 1];
      } else {
        assert t[i] == s[i - 1] && t[j] == s[j - 1];
      }
    }
  }

  /** Bobbing changes no id and cleanup only drops collectibles, so both
      keep ids fresh. */
  lemma CleanupKeepsFresh(f: Field, bob: nat -> BobOffset, playerZ: real)
    requires IdsFresh(f)
    ensures IdsFresh(f.(active := Cleanup(BobAll(f.active, bob), playerZ)))
  {
    var bobbed := BobAll(f.active, bob);
    var kept := Cleanup(bobbed, playerZ);
    assert DistinctIds(bobbed) by {
      assert forall i :: 0 <= i < |bobbed| ==> bobbed[i].id == f.active[i].id;
    }
    FilterKeepsDistinct(bobbed, c => Kept(playerZ, c));
    forall i | 0 <= i < |kept|
      ensures kept[i].id < f.nextId
    {
      assert multiset(kept)[kept[i]] > 0;
      var j :| 0 <= j < |bobbed| && bobbed[j] == kept[i];
    }
  }

  /** Filtering keeps ids distinct: the survivors are a sub-list of the
      original. */
  lemma {:induction false} FilterKeepsDistinct(s: seq<Collectible>, keep: Collectible -> bool)
    requires DistinctIds(s)
    ensures DistinctIds(Filter(s, keep))
  {
    if |s| > 0 {
      var rest := Filter(s[1..], keep);
      FilterKeepsDistinct(s[1..], keep);
      forall c | c in rest
        ensures c.id != s[0].id
      {
        assert multiset(rest)[c] > 0;
        var j :| 0 <= j < |s[1..]| && s[1..][j] == c;
        assert s[j + 1] == c;
      }
      ConsDistinct(s[0], rest);
    }
  }

  /** The test `collect` looks for: carrying the given id. */
  function HasId(id: nat): Collectible -> bool {
    (c: Collectible) => c.id == id
  }

  /** `collect`: the first collectible with the given id leaves the active
      list, the others stay in order; without one, nothing changes. */
  function RemoveId(s: seq<Collectible>, id: nat): (r: seq<Collectible>)
    ensures var k := FirstIndex(s, HasId(id)); r == if k == |s| then s else s[..k] + s[k + 1..]
  {
    var k := FirstIndex(s, HasId(id));
    if k == |s| then s else s[..k] + s[k + 1..]
  }

  function Collect(f: Field, id: nat): (r: Field)
    ensures r.nextSpawnZ == f.nextSpawnZ && r.nextId == f.nextId
    ensures (exists i :: 0 <= i < |f.active| && f.active[i].id == id) <==> |r.active| + 1 == |f.active|
    ensures (forall i :: 0 <= i < |f.active| ==> f.active[i].id != id) ==> r == f
  {
    f.(active := RemoveId(f.active, id))
  }

  /** With ids standing for identity, collecting removes exactly the
      collected item: one fewer of it, the same number of every other, the
      others in their order, and ids still fresh. */
  lemma CollectRemovesExactlyIt(f: Field, k: nat)
    requires IdsFresh(f) && k < |f.active|
    ensures Collect(f, f.active[k].id).active == f.active[..k] + f.active[k + 1..]
    ensures multiset(Collect(f, f.active[k].id).active) == multiset(f.active) - multiset{f.active[k]}
    ensures f.active[k] !in Collect(f, f.active[k].id).active
    ensures IdsFresh(Collect(f, f.active[k].id))
  {
    var s := f.active;
    assert FirstIndex(s, HasId(s[k].id)) == k;
    RemoveAtMultiset(s, k);
    RemoveAtKeepsFresh(f, k);
  }

  /** Taking out the entry at `k` takes one of it out of the multiset. */
  lemma RemoveAtMultiset<T>(s: seq<T>, k: nat)
    requires k < |s|
    ensures multiset(s[..k] + s[k + 1..]) == multiset(s) - multiset{s[k]}
  {
    assert s == s[..k] + [s[k]] + s[k + 1..];
  }

  /** Taking out the entry at `k` leaves the remaining ids fresh, none of
      them the removed one's. */
  lemma RemoveAtKeepsFresh(f: Field, k: nat)
    requires IdsFresh(f) && k < |f.active|
    ensures f.active[k] !in f.active[..k] + f.active[k + 1..]
    ensures IdsFresh(f.(active := f.active[..k] + f.active[k + 1..]))
  {
    var s := f.active;
    var t := s[..k] + s[k + 1..];
    assert forall i :: 0 <= i < |t| ==> t[i] == if i < k then s[i] else s[i + 1];
    assert forall i :: 0 <= i < |t| ==> t[i].id != s[k].id;
  }

  /** Collecting an id nobody carries changes nothing. */
  lemma CollectAbsentIsNoOp(f: Field, id: nat)
    requires forall i :: 0 <= i < |f.active| ==> f.active[i].id != id
    ensures Collect(f, id) == f
  {
  }

  /** `removeAll`: no collectibles and the frontier back at the start
      line; ids already handed out are not reused. */
  function RemoveAll(f: Field): (r: Field)
    ensures r.active == [] && r.nextSpawnZ == New.nextSpawnZ && r.nextId == f.nextId
    ensures IdsFresh(r)
  {
    Field([], C.CollectibleStartZ, f.nextId)
  }
}

=== FILE: constants.dfy ===
/** Tuning values of the game (Utils/Constants.swift), one constant each.
    Swift `Float` values are reals; Swift `Int` values are ints. */
module Constants {

  // Player
  const PlayerStartY: real := 0.3
  const PlayerHalfX: real := 0.3
  const PlayerHalfY: real := 0.6
  const PlayerHalfZ: real := 0.5
  const LateralSpeed: real := 8.0
  const LaneWidth: real := 3.0
  const MaxLaneOffset: real := 8.0
  const TiltSensitivity: real := 15.0

  // Movement
  const InitialSpeed: real := 8.0
  const MaxSpeed: real := 35.0
  const Acceleration: real := 0.3
  const Gravity: real := 25.0
  const JumpForce: real := 10.0
  const SlamDownSpeed: real := 15.0
  const SpeedBoostAmount: real := 5.0

  // Terrain
  const TerrainWidth: real := 20.0
  const TerrainChunkLength: real := 30.0
  const TerrainStartZ: real := 10.0
  const TerrainLookAhead: real := 120.0
  const TerrainCleanupDistance: real := 30.0
  const InitialChunkCount: nat := 8

  // Obstacles
  const ObstacleStartZ: real := -30.0
  const ObstacleLookAhead: real := 100.0
  const ObstacleCleanupDistance: real := 20.0
  const ObstacleSpacing: real := 12.0
  const LaneCount: nat := 5

  // Collectibles
  const CollectibleStartZ: real := -20.0
  const CollectibleLookAhead: real := 80.0
  const CollectibleCleanupDistance: real := 15.0
  const CollectibleSpacing: real := 15.0
  const CollectibleHalfExtent: real := 0.4
  const CoinHeight: real := 1.0
  const PowerUpHeight: real := 1.5

  // Scoring
  const CoinValue: int := 10
  const BaseTrickScore: int := 50
  const MaxMultiplier: int := 5

  // Tricks
  const TrickSpinSpeed: real := 8.0

  // Frame timing used by the scene loop and the player's forward step
  const NominalFrameTime: real := 1.0 / 60.0
  const MaxFrameTime: real := 1.0 / 30.0
}

=== FILE: equipment.dfy ===
/** Boards, skis and the selected-equipment lookup (Models/Equipment.swift).
    Colours and descriptions are dropped; the three bonus multipliers are
    kept although no gameplay code reads them. */
module Equipment {
  import opened Numerics
  import opened Optional
  import opened Store
  import opened Catalog

  datatype Gear = Gear(
    id: string,
    name: string,
    brand: string,
    speedBonus: real,
    turnBonus: real,
    trickBonus: real)

  /** `Equipment ==`: two pieces of gear are the same exactly when their
      ids are, whatever their other fields say. */
  predicate SameGear(a: Gear, b: Gear) {
    a.id == b.id
  }

  /** The equality is an equivalence, and it ignores every field but the id. */
  lemma SameGearIsIdEquality(a: Gear, b: Gear, c: Gear)
    ensures SameGear(a, a)
    ensures SameGear(a, b) ==> SameGear(b, a)
    ensures SameGear(a, b) && SameGear(b, c) ==> SameGear(a, c)
    ensures SameGear(a, a.(name := b.name, brand := b.brand, speedBonus := b.speedBonus,
                           turnBonus := b.turnBonus, trickBonus := b.trickBonus))
    ensures SameGear(a, b) <==> a.id == b.id
  {
  }

  /** `SnowboardCatalog.all`. */
  const Boards: seq<Gear> := [
    Gear("board_rookie", "Rookie Rider", "Alpine Co.", 1.0, 1.1, 1.0),
    Gear("board_velocity", "Velocity Pro", "ShredTech", 1.15, 0.95, 1.0),
    Gear("board_trickster", "Trickster 360", "FreeStyle Labs", 0.95, 1.05, 1.25),
    Gear("board_stealth", "Stealth Carbon", "Apex", 1.1, 1.1, 1.05),
    Gear("board_retro", "Retro Cruiser", "OldSchool", 1.0, 1.0, 1.1),
    Gear("board_powder", "Powder Surfer", "DeepSnow", 1.05, 1.15, 1.0)
  ]

  /** `SkiCatalog.all`. */
  const Skis: seq<Gear> := [
    Gear("ski_allround", "All-Mountain 88", "Alpine Co.", 1.0, 1.1, 1.0),
    Gear("ski_racer", "GS Racer", "SpeedLine", 1.2, 0.9, 0.9),
    Gear("ski_park", "Park Twin", "FreeStyle Labs", 0.95, 1.05, 1.3),
    Gear("ski_backcountry", "Backcountry 110", "WildPeak", 1.05, 1.15, 1.0),
    Gear("ski_slalom", "Slalom SL", "SpeedLine", 1.05, 1.25, 0.95),
    Gear("ski_powder", "Fat Boy 120", "DeepSnow", 1.0, 1.0, 1.1)
  ]

  /** Each catalog holds six boards or six skis with pairwise distinct
      ids, so no two entries of one catalog are `==`. */
  lemma CatalogIdsDistinct()
    ensures |Boards| == 6 && |Skis| == 6
    ensures forall i, j :: 0 <= i < j < |Boards| ==> !SameGear(Boards[i], Boards[j])
    ensures forall i, j :: 0 <= i < j < |Skis| ==> !SameGear(Skis[i], Skis[j])
  {
    forall i, j | 0 <= i < j < |Boards|
      ensures !SameGear(Boards[i], Boards[j])
    {
      assert Boards[i].id[6] != Boards[j].id[6] || Boards[i].id[7] != Boards[j].id[7];
    }
    forall i, j | 0 <= i < j < |Skis|
      ensures !SameGear(Skis[i], Skis[j])
    {
      assert Skis[i].id[4] != Skis[j].id[4] || Skis[i].id[5] != Skis[j].id[5];
    }
  }

  /** No board is `==` to a ski, and every bonus in either catalog is
      positive. */
  lemma BoardsAreNotSkis()
    ensures forall b, s :: b in Boards && s in Skis ==> !SameGear(b, s)
    ensures forall g :: g in Boards + Skis ==> g.speedBonus > 0.0 && g.turnBonus > 0.0 && g.trickBonus > 0.0
  {
    forall b, s | b in Boards && s in Skis
      ensures !SameGear(b, s)
    {
      assert b.id[0] == 'b' && s.id[0] == 's';
    }
  }

  /** `CharacterType`. */
  datatype CharacterType = Snowboarder | Skier

  const BoardKey: string := "equip_board"
  const SkiKey: string := "equip_ski"

  /** `currentBoard`: a board of the catalog, the first one when nothing
      is stored, and one for every non-negative stored index. */
  function CurrentBoard(d: Defaults): (r: Option<Gear>)
    ensures r.Some? ==> r.value in Boards
    ensures IntegerFor(d, BoardKey) >= 0 ==> r.Some?
    ensures BoardKey !in d ==> r == Some(Boards[0])
  {
    EntryAt(Boards, IntegerFor(d, BoardKey))
  }

  /** `currentSki`: the same for skis. */
  function CurrentSki(d: Defaults): (r: Option<Gear>)
    ensures r.Some? ==> r.value in Skis
    ensures IntegerFor(d, SkiKey) >= 0 ==> r.Some?
    ensures SkiKey !in d ==> r == Some(Skis[0])
  {
    EntryAt(Skis, IntegerFor(d, SkiKey))
  }

  /** `currentEquipment(for:)`: the board for a snowboarder, the ski for
      a skier. */
  function CurrentEquipment(d: Defaults, character: CharacterType): (r: Option<Gear>)
    ensures character == Snowboarder ==> r == CurrentBoard(d)
    ensures character == Skier ==> r == CurrentSki(d)
    ensures r.Some? ==> (r.value in Boards <==> character == Snowboarder)
  {
    BoardsAreNotSkis();
    match character
    case Snowboarder => CurrentBoard(d)
    case Skier => CurrentSki(d)
  }

  /** The two selectors are stored under different keys, so choosing a
      board leaves the chosen ski alone and the other way round. */
  lemma SelectionsIndependent(d: Defaults, index: int)
    ensures EntryAt(Boards, index) == CurrentBoard(d[BoardKey := IntValue(index)])
    ensures CurrentSki(d[BoardKey := IntValue(index)]) == CurrentSki(d)
    ensures EntryAt(Skis, index) == CurrentSki(d[SkiKey := IntValue(index)])
    ensures CurrentBoard(d[SkiKey := IntValue(index)]) == CurrentBoard(d)
  {
    IntegerForOtherKey(d, BoardKey, IntValue(index), SkiKey);
    IntegerForOtherKey(d, SkiKey, IntValue(index), BoardKey);
  }

  /** A fresh install rides the first board or the first ski. */
  lemma DefaultGear()
    ensures CurrentEquipment(Empty, Snowboarder) == Some(Boards[0])
    ensures CurrentEquipment(Empty, Skier) == Some(Skis[0])
  {
  }
}

=== FILE: leaderboard.dfy ===
/** Per-resort leaderboards of the longest runs (LeaderboardManager.swift),
    as functions over the same key-value store the score statistics use. */
module Leaderboard {
  import opened Numerics
  import opened Optional
  import opened Ranking
  import opened Store
  import Resorts
  import ScoreManager

  /** How many runs a resort's leaderboard keeps. */
  const RunCapacity: nat := 20

  /** How many runs `getTopRuns` returns when no limit is given. */
  const DefaultTopRuns: nat := 10

  const KeyPrefix: string := "leaderboard_"

  /** The store key of one resort's leaderboard. */
  function Key(resortId: string): string { KeyPrefix + resortId }

  /** Distinct resorts are stored under distinct keys, and no leaderboard
      key is one of the score statistics' keys. */
  lemma KeysSeparate(a: string, b: string)
    ensures Key(a) == Key(b) <==> a == b
    ensures Key(a) !in ScoreManager.Keys
  {
    if Key(a) == Key(b) {
      assert a == Key(a)[|KeyPrefix|..];
    }
    assert Key(a)[0] == 'l';
  }

  function DistanceOf(e: RunEntry): int { e.distance }

  /** `getRuns(forResort:)`: the stored list, or the empty list when
      nothing decodes. */
  function GetRuns(d: Defaults, resortId: string): (r: seq<RunEntry>)
    ensures Key(resortId) !in d ==> r == []
    ensures r != [] ==> Key(resortId) in d && d[Key(resortId)] == RunList(r)
  {
    var key := Key(resortId);
    if key in d && d[key].RunList? then d[key].runs else []
  }

  /** What `saveRuns` stores under a resort's key, `getRuns` reads back for
      that resort, and every other resort still reads its own list. */
  lemma SavedRunsReadBack(d: Defaults, resortId: string, runs: seq<RunEntry>, other: string)
    ensures GetRuns(d[Key(resortId) := RunList(runs)], resortId) == runs
    ensures other != resortId ==> GetRuns(d[Key(resortId) := RunList(runs)], other) == GetRuns(d, other)
  {
    if other != resortId {
      OtherResortKept(d, resortId, RunList(runs), other);
    }
  }

  /** `submitRun`: the run is ranked into its resort's list by distance,
      longest first, and the list is cut to twenty. The resort's new list is
      ordered, holds every old run plus the new one while there is room,
      never holds a run it did not have before, and nothing cut outran
      anything kept. No other resort's list changes. */
  function SubmitRun(d: Defaults, resortId: string, characterType: string, distance: int, score: int,
                     runTime: real, now: real): (r: Defaults)
    ensures RankedIn(GetRuns(d, resortId), RunEntry(resortId, characterType, distance, score, runTime, now),
                     DistanceOf, RunCapacity, GetRuns(r, resortId))
    ensures forall other :: other != resortId ==> GetRuns(r, other) == GetRuns(d, other)
  {
    var entry := RunEntry(resortId, characterType, distance, score, runTime, now);
    var runs := RankIn(GetRuns(d, resortId), entry, DistanceOf, RunCapacity);
    var r := d[Key(resortId) := RunList(runs)];
    assert GetRuns(r, resortId) == runs;
    forall other | other != resortId
      ensures GetRuns(r, other) == GetRuns(d, other)
    {
      OtherResortKept(d, resortId, RunList(runs), other);
    }
    r
  }

  /** Writing one resort's key leaves every other resort's list alone. */
  lemma OtherResortKept(d: Defaults, resortId: string, v: Value, other: string)
    requires other != resortId
    ensures GetRuns(d[Key(resortId) := v], other) == GetRuns(d, other)
  {
    KeysSeparate(resortId, other);
  }

  /** `getTopRuns(forResort:limit:)`: the first `limit` runs, or all of
      them when there are fewer. Swift's `prefix` traps on a negative
      limit, so the limit is a natural number. */
  function GetTopRuns(d: Defaults, resortId: string, limit: nat := DefaultTopRuns): (r: seq<RunEntry>)
    ensures |r| == MinInt(limit, |GetRuns(d, resortId)|)
    ensures r <= GetRuns(d, resortId)
  {
    var runs := GetRuns(d, resortId);
    runs[..MinInt(limit, |runs|)]
  }

  /** `getBestRun(forResort:)`: the first stored run, absent exactly when
      the list is empty. */
  function GetBestRun(d: Defaults, resortId: string): (r: Option<RunEntry>)
    ensures r.None? <==> GetRuns(d, resortId) == []
    ensures r.Some? ==> r.value in GetRuns(d, resortId)
  {
    var runs := GetRuns(d, resortId);
    if |runs| == 0 then None else Some(runs[0])
  }

  /** On a list ordered longest first, as `submitRun` leaves it, the top
      runs are the longest ones: every run shown outran every run not
      shown, and the best run outran them all. */
  lemma TopRunsAreLongest(d: Defaults, resortId: string, limit: nat)
    requires SortedDesc(GetRuns(d, resortId), DistanceOf)
    ensures var runs, top := GetRuns(d, resortId), GetTopRuns(d, resortId, limit);
      && (forall i, j :: 0 <= i < |top| <= j < |runs| ==> top[i].distance >= runs[j].distance)
      && (GetBestRun(d, resortId).Some? ==> forall x :: x in runs ==> GetBestRun(d, resortId).value.distance >= x.distance)
  {
    var runs, top := GetRuns(d, resortId), GetTopRuns(d, resortId, limit);
    forall i, j | 0 <= i < |top| <= j < |runs|
      ensures top[i].distance >= runs[j].distance
    {
      assert top[i] == runs[i];
      assert DistanceOf(runs[i]) >= DistanceOf(runs[j]);
    }
    forall x | x in runs
      ensures runs[0].distance >= x.distance
    {
      var j :| 0 <= j < |runs| && runs[j] == x;
      assert DistanceOf(runs[0]) >= DistanceOf(runs[j]);
    }
  }

  /** The best run after a submission is at least as long as the submitted
      run and as every run the resort had before. */
  lemma BestRunAfterSubmit(d: Defaults, resortId: string, characterType: string, distance: int, score: int,
                           runTime: real, now: real)
    ensures var r := SubmitRun(d, resortId, characterType, distance, score, runTime, now);
      && GetBestRun(r, resortId).Some?
      && GetBestRun(r, resortId).value.distance >= distance
      && (forall x :: x in GetRuns(d, resortId) ==> GetBestRun(r, resortId).value.distance >= x.distance)
  {
    var entry := RunEntry(resortId, characterType, distance, score, runTime, now);
    var r := SubmitRun(d, resortId, characterType, distance, score, runTime, now);
    RankedInTop(GetRuns(d, resortId), entry, DistanceOf, RunCapacity, GetRuns(r, resortId));
  }

  /** `getAllResortBests`: for every catalog resort with at least one run,
      its best run, keyed by resort id. */
  function GetAllResortBests(d: Defaults): (r: map<string, RunEntry>)
    ensures forall id :: id in r <==> id in Resorts.Ids() && GetBestRun(d, id).Some?
    ensures forall id :: id in r ==> Some(r[id]) == GetBestRun(d, id)
  {
    map id | id in Resorts.Ids() && GetRuns(d, id) != [] :: GetRuns(d, id)[0]
  }

  /** `clearLeaderboard(forResort:)`: that resort's list is empty
      afterwards, and no other resort's list changes. */
  function ClearLeaderboard(d: Defaults, resortId: string): (r: Defaults)
    ensures GetRuns(r, resortId) == []
    ensures forall other :: other != resortId ==> GetRuns(r, other) == GetRuns(d, other)
  {
    var r := d - {Key(resortId)};
    forall other | other != resortId
      ensures GetRuns(r, other) == GetRuns(d, other)
    {
      KeysSeparate(resortId, other);
    }
    r
  }

  /** Clears the listed resorts one after the other. */
  function ClearEach(d: Defaults, ids: seq<string>): (r: Defaults)
    ensures forall id :: id in ids ==> GetRuns(r, id) == []
    ensures forall id :: id !in ids ==> GetRuns(r, id) == GetRuns(d, id)
    decreases |ids|
  {
    if |ids| == 0 then d
    else
      var rest := ClearEach(ClearLeaderboard(d, ids[0]), ids[1..]);
      assert forall id :: id in ids ==> id == ids[0] || id in ids[1..];
      rest
  }

  /** `clearAll`: every catalog resort's list is empty afterwards; lists
      stored under other ids are kept. */
  function ClearAll(d: Defaults): (r: Defaults)
    ensures forall i :: 0 <= i < |Resorts.All| ==> GetRuns(r, Resorts.All[i].id) == []
    ensures forall id :: id !in Resorts.Ids() ==> GetRuns(r, id) == GetRuns(d, id)
  {
    var ids := Resorts.Ids();
    assert forall i :: 0 <= i < |Resorts.All| ==> Resorts.All[i].id in ids by {
      forall i | 0 <= i < |Resorts.All|
        ensures Resorts.All[i].id in ids
      {
        assert ids[i] == Resorts.All[i].id;
      }
    }
    ClearEach(d, ids)
  }

  /** Submitting a score leaves every leaderboard as it was: the score
      statistics and the leaderboards live under disjoint keys. */
  lemma ScoresLeaveLeaderboards(d: Defaults, score: int, now: real, id: string)
    ensures GetRuns(ScoreManager.SubmitScore(d, score, now), id) == GetRuns(d, id)
  {
    KeysSeparate(id, id);
    ScoreManager.SubmitScoreKeepsOtherKeys(d, score, now);
  }

  /** Submitting a run leaves every score statistic as it was. */
  lemma RunsLeaveScores(d: Defaults, resortId: string, characterType: string, distance: int, score: int,
                        runTime: real, now: real)
    ensures var r := SubmitRun(d, resortId, characterType, distance, score, runTime, now);
      && ScoreManager.HighScore(r) == ScoreManager.HighScore(d)
      && ScoreManager.TopScores(r) == ScoreManager.TopScores(d)
      && ScoreManager.GamesPlayed(r) == ScoreManager.GamesPlayed(d)
      && ScoreManager.TotalCoins(r) == ScoreManager.TotalCoins(d)
  {
    var key := Key(resortId);
    KeysSeparate(resortId, resortId);
    var entry := RunEntry(resortId, characterType, distance, score, runTime, now);
    var v := RunList(RankIn(GetRuns(d, resortId), entry, DistanceOf, RunCapacity));
    assert SubmitRun(d, resortId, characterType, distance, score, runTime, now) == d[key := v];
    IntegerForOtherKey(d, key, v, ScoreManager.HighScoreKey);
    IntegerForOtherKey(d, key, v, ScoreManager.GamesPlayedKey);
    IntegerForOtherKey(d, key, v, ScoreManager.TotalCoinsKey);
  }

  /** `RunEntry.formattedTime` splits a run time into whole minutes, the
      remaining whole seconds and the hundredths of the fractional second,
      each by Swift's truncating conversions. */
  datatype TimeParts = TimeParts(minutes: int, seconds: int, hundredths: int)

  function FormattedTime(runTime: real): (r: TimeParts)
    ensures r.minutes * 60 + r.seconds == Trunc(runTime)
    ensures runTime >= 0.0 ==> r.minutes >= 0 && 0 <= r.seconds < 60 && 0 <= r.hundredths < 100
  {
    var whole := Trunc(runTime);
    SwiftDivRem(whole, 60);
    TimeParts(SwiftDiv(whole, 60), SwiftRem(whole, 60), Trunc((runTime - whole as real) * 100.0))
  }

  /** The split of the unit tests' style: 125.5 seconds is 2:05.50. */
  lemma FormattedTimeExample()
    ensures FormattedTime(125.5) == TimeParts(2, 5, 50)
  {
  }
}

=== FILE: numerics.dfy ===
/** Scalar helpers shared by every component: min/max/abs on reals and
    the integer conversions of the Swift standard library, written out
    explicitly because Dafny's own division is Euclidean. */
module Numerics {

  function Min(a: real, b: real): real { if a <= b then a else b }

  function Max(a: real, b: real): real { if a >= b then a else b }

  function Abs(x: real): real { if x < 0.0 then -x else x }

  function MinInt(a: int, b: int): int { if a <= b then a else b }

  function MaxInt(a: int, b: int): int { if a >= b then a else b }

  /** Swift's `Int(x)` for a floating-point `x`: truncation toward zero. */
  function Trunc(x: real): (r: int)
    ensures x >= 0.0 ==> r >= 0 && r as real <= x < r as real + 1.0
    ensures x < 0.0 ==> r <= 0 && r as real - 1.0 < x <= r as real
  {
    if x >= 0.0 then x.Floor else -((-x).Floor)
  }

  /** Swift's `a / b` on `Int`: the quotient truncated toward zero. */
  function SwiftDiv(a: int, b: int): int
    requires b != 0
  {
    var q := (if a >= 0 then a else -a) / (if b >= 0 then b else -b);
    if (a >= 0) == (b >= 0) then q else -q
  }

  /** Swift's `a % b` on `Int`: the remainder takes the sign of `a`. */
  function SwiftRem(a: int, b: int): int
    requires b != 0
  {
    a - SwiftDiv(a, b) * b
  }

  /** Quotient and remainder of Swift's truncating division recombine to
      the dividend; the remainder is smaller than the divisor and carries
      the sign of the dividend. */
  lemma SwiftDivRem(a: int, b: int)
    requires b > 0
    ensures SwiftDiv(a, b) * b + SwiftRem(a, b) == a
    ensures a >= 0 ==> 0 <= SwiftRem(a, b) < b && SwiftDiv(a, b) == a / b
    ensures a < 0 ==> -b < SwiftRem(a, b) <= 0
  {
    if a < 0 {
      var q := (-a) / b;
      assert (-a) == q * b + (-a) % b;
      assert SwiftDiv(a, b) == -q;
      assert SwiftRem(a, b) == a + q * b == -((-a) % b);
    }
  }

  /** Shifting a real by one shifts its floor by one. */
  lemma FloorShift(x: real)
    ensures (x - 1.0).Floor == x.Floor - 1
  {
  }

  /** The least integer not below `x`. */
  function Ceiling(x: real): (r: int)
    ensures r as real - 1.0 < x <= r as real
  {
    -((-x).Floor)
  }

  /** How many steps of length `step` a spawn frontier at `frontier` has
      to take before it is no longer ahead of `target`: the least `n` with
      `frontier - n * step <= target`. */
  function StepsShort(frontier: real, target: real, step: real): (n: nat)
    requires step > 0.0
    ensures frontier - n as real * step <= target
    ensures n > 0 ==> frontier - (n - 1) as real * step > target
  {
    if frontier > target then
      var x := (frontier - target) / step;
      var n := Ceiling(x);
      QuotientBounds(frontier - target, step, n as real - 1.0);
      n
    else 0
  }

  lemma QuotientBounds(a: real, step: real, lo: real)
    requires step > 0.0 && lo < a / step <= lo + 1.0
    ensures lo * step < a <= (lo + 1.0) * step
  {
    QuotientAbove(a, step, lo);
    QuotientAtMost(a, step, lo + 1.0);
  }

  lemma QuotientAbove(a: real, step: real, lo: real)
    requires step > 0.0 && lo < a / step
    ensures lo * step < a
  {
    var q := a / step;
    assert q * step == a;
    MulPositive(q - lo, step);
    assert (q - lo) * step == q * step - lo * step;
  }

  lemma QuotientAtMost(a: real, step: real, hi: real)
    requires step > 0.0 && a / step <= hi
    ensures a <= hi * step
  {
    var q := a / step;
    assert q * step == a;
    MulNonNegative(hi - q, step);
    assert (hi - q) * step == hi * step - q * step;
  }

  lemma MulNonNegative(a: real, b: real)
    requires a >= 0.0 && b >= 0.0
    ensures a * b >= 0.0
  {
  }

  lemma MulPositive(a: real, b: real)
    requires a > 0.0 && b > 0.0
    ensures a * b > 0.0
  {
  }

  /** One step down the slope brings a frontier that is still ahead
      exactly one step closer. */
  lemma StepsShortDecreases(frontier: real, target: real, step: real)
    requires step > 0.0 && frontier > target
    ensures StepsShort(frontier - step, target, step) == StepsShort(frontier, target, step) - 1
  {
    var x := (frontier - target) / step;
    QuotientShift(frontier - target, step);
    assert Ceiling(x - 1.0) == Ceiling(x) - 1 by {
      assert -(x - 1.0) == -x + 1.0;
      FloorShift(-x + 1.0);
    }
  }

  lemma QuotientShift(a: real, step: real)
    requires step > 0.0
    ensures (a - step) / step == a / step - 1.0
  {
    var q := a / step;
    assert q * step == a;
    assert (a - step) / step * step == a - step;
    var d := (a - step) / step - (q - 1.0);
    assert d * step == 0.0;
    if d > 0.0 {
      assert false;
    } else if d < 0.0 {
      assert false;
    }
  }

  /** `index % count` as Swift computes it when it indexes a catalog of
      `count` entries: the remainder of truncating division. It is a valid
      index exactly when it is not negative, which holds for every
      non-negative `index` and, among negative ones, only for multiples of
      `count`. */
  function WrappedIndex(index: int, count: int): (r: int)
    requires count > 0
    ensures -count < r < count
    ensures index >= 0 ==> r == index % count
    ensures r >= 0 <==> index >= 0 || index % count == 0
  {
    NegativeRemainder(index, count);
    SwiftRem(index, count)
  }

  /** For a negative dividend, Swift's remainder is zero exactly when the
      Euclidean one is. */
  lemma NegativeRemainder(index: int, count: int)
    requires count > 0
    ensures -count < SwiftRem(index, count) < count
    ensures index >= 0 ==> SwiftRem(index, count) == index % count
    ensures SwiftRem(index, count) >= 0 <==> index >= 0 || index % count == 0
  {
    SwiftDivRem(index, count);
    if index < 0 {
      var q, m := (-index) / count, (-index) % count;
      assert SwiftRem(index, count) == -m;
      if m == 0 {
        EuclideanUnique(index, count, -q, 0);
      } else {
        EuclideanUnique(index, count, -q - 1, count - m);
      }
    }
  }

  /** Euclidean division is unique: a quotient and a remainder in
      `[0, c)` that recombine to `n` are Dafny's. */
  lemma EuclideanUnique(n: int, c: int, a: int, b: int)
    requires c > 0 && 0 <= b < c && n == a * c + b
    ensures n % c == b
  {
    var q, r := n / c, n % c;
    assert (a - q) * c == r - b;
    OnlyZeroMultipleBelow(a - q, c);
  }

  /** The only multiple of `c` strictly between `-c` and `c` is zero. */
  lemma OnlyZeroMultipleBelow(k: int, c: int)
    requires c > 0 && -c < k * c < c
    ensures k == 0
  {
    if k > 0 {
      ProductNonNegative(k - 1, c);
    } else if k < 0 {
      ProductNonNegative(-k - 1, c);
    }
  }

  lemma ProductNonNegative(x: int, y: int)
    requires x >= 0 && y >= 0
    ensures x * y >= 0
  {
  }
}

=== FILE: obstacles.dfy ===
/** The obstacle spawner (Game/ObstacleManager.swift, Models/Obstacle.swift).
    Obstacles are laid in rows down the slope from a spawn frontier; a row
    places one to three obstacles in distinct lanes and never blocks every
    lane. Every random draw is an oracle argument with the range Swift's
    `random(in:)` would draw from; the meshes are rendering and are not
    modelled, only the position, the kind and the collision half-extent. */
module Obstacles {
  import opened Numerics
  import opened Spatial
  import opened Ranking
  import C = Constants

  datatype Kind = PineTree | Rock | Snowman | Cabin | JumpRamp

  /** `isJumpable`: only the ramp can be jumped, which makes the jumpable
      kind exactly the one drawn only from the top tenth of the kind roll. */
  predicate IsJumpable(k: Kind)
    ensures IsJumpable(k) <==> forall roll: Unit :: KindFor(roll) == k ==> 0.9 <= roll
  {
    assert KindFor(0.0) == PineTree && KindFor(0.5) == Rock && KindFor(0.7) == Snowman && KindFor(0.85) == Cabin;
    k == JumpRamp
  }

  datatype Obstacle = Obstacle(position: Vec3, kind: Kind, halfExtent: Vec3)

  /** The difficulty factor lies between 1 and 3. */
  type DifficultyLevel = x: real | 1.0 <= x <= 3.0 witness 1.0

  /** The ranges of the draws `spawnObstacleRow` makes for one obstacle. */
  type Unit = x: real | 0.0 <= x <= 1.0 witness 0.0
  type XJitter = x: real | -1.0 <= x <= 1.0 witness 0.0
  type ZJitter = x: real | -2.0 <= x <= 2.0 witness 0.0
  type TreeScale = x: real | 0.7 <= x <= 1.3 witness 1.0
  type RockSize = x: real | 0.5 <= x <= 1.5 witness 1.0

  /** The draws for one obstacle: which free lane (as an index into the
      free lanes, reduced modulo their number), the sideways and
      along-slope jitter, the kind roll, and the size of a tree or rock. */
  datatype Placement = Placement(
    laneRoll: nat,
    xJitter: XJitter,
    zJitter: ZJitter,
    kindRoll: Unit,
    treeScale: TreeScale,
    rockSize: RockSize)

  /** The draws for one row: the obstacle count (reduced into the allowed
      range) and the placements, one per obstacle. */
  datatype RowDraw = RowDraw(countRoll: nat, placements: nat -> Placement)

  datatype Field = Field(
    active: seq<Obstacle>,
    nextSpawnZ: real,
    difficultyFactor: DifficultyLevel,
    resortMultiplier: real)

  /** A fresh spawner for a resort with the given obstacle multiplier. */
  function New(resortMultiplier: real): Field {
    Field([], C.ObstacleStartZ, 1.0, resortMultiplier)
  }

  /** The difficulty grows with the distance down the slope, 1 at the
      start, and saturates at 3 from 1000 units on. */
  function DifficultyFactor(playerZ: real): (r: DifficultyLevel)
    ensures r == 3.0 <==> Abs(playerZ) >= 1000.0
    ensures Abs(playerZ) < 1000.0 ==> r * 500.0 == 500.0 + Abs(playerZ)
  {
    Min(1.0 + Abs(playerZ) / 500.0, 3.0)
  }

  /** Farther from the start is never easier. */
  lemma DifficultyMonotone(z1: real, z2: real)
    requires Abs(z1) <= Abs(z2)
    ensures DifficultyFactor(z1) <= DifficultyFactor(z2)
  {
  }

  /** The upper bound of `Int.random(in: 1...min(3, Int(df) + 1))`. */
  function MaxCount(df: DifficultyLevel): (r: int)
    ensures r == if df < 2.0 then 2 else 3
  {
    MinInt(3, Trunc(df) + 1)
  }

  /** The obstacle count of a row with the drawn count roll. */
  function RowCount(df: DifficultyLevel, countRoll: nat): (r: nat)
    ensures 1 <= r <= MaxCount(df) <= 3
  {
    1 + countRoll % MaxCount(df)
  }

  /** Every count the range allows is drawn by some roll. */
  lemma RowCountCoversRange(df: DifficultyLevel, count: nat)
    requires 1 <= count <= MaxCount(df)
    ensures RowCount(df, count - 1) == count
  {
  }

  /** `randomObstacleType`: pine trees on 40% of the unit interval, rocks on
      25%, snowmen on 15%, cabins and ramps on 10% each. */
  function KindFor(roll: Unit): (r: Kind)
    ensures r == PineTree <==> roll < 0.4
    ensures r == Rock <==> 0.4 <= roll < 0.65
    ensures r == Snowman <==> 0.65 <= roll < 0.8
    ensures r == Cabin <==> 0.8 <= roll < 0.9
    ensures r == JumpRamp <==> 0.9 <= roll
  {
    if roll < 0.4 then PineTree
    else if roll < 0.65 then Rock
    else if roll < 0.8 then Snowman
    else if roll < 0.9 then Cabin
    else JumpRamp
  }

  function KindRank(k: Kind): nat {
    match k
    case PineTree => 0
    case Rock => 1
    case Snowman => 2
    case Cabin => 3
    case JumpRamp => 4
  }

  /** The kinds are laid out along the roll in order, and every kind has a
      roll that draws it. */
  lemma KindForOrdered(a: Unit, b: Unit)
    requires a <= b
    ensures KindRank(KindFor(a)) <= KindRank(KindFor(b))
    ensures KindFor(0.0) == PineTree && KindFor(0.5) == Rock && KindFor(0.7) == Snowman
    ensures KindFor(0.85) == Cabin && KindFor(1.0) == JumpRamp
  {
  }

  /** The half-extent each `create*` helper returns. Trees and rocks scale
      with their drawn size; the other kinds have fixed boxes. */
  function HalfExtent(k: Kind, treeScale: TreeScale, rockSize: RockSize): (r: Vec3)
    ensures r.x > 0.0 && r.y > 0.0 && r.z > 0.0
    ensures k == PineTree ==> 0.56 <= r.x <= 1.04 && 1.75 <= r.y <= 3.25 && r.z == r.x
    ensures k == Rock ==> 0.4 <= r.x <= 1.2 && 0.25 <= r.y <= 0.75 && r.z == r.x
    ensures k == Snowman ==> r == Vec3(0.5, 1.0, 0.5)
    ensures k == Cabin ==> r == Vec3(1.5, 1.5, 1.25)
    ensures k == JumpRamp ==> r == Vec3(1.5, 0.4, 1.0)
  {
    match k
    case PineTree => Vec3(0.8 * treeScale, 2.5 * treeScale, 0.8 * treeScale)
    case Rock => Vec3(rockSize * 0.8, rockSize * 0.5, rockSize * 0.8)
    case Snowman => Vec3(0.5, 1.0, 0.5)
    case Cabin => Vec3(1.5, 1.5, 1.25)
    case JumpRamp => Vec3(1.5, 0.4, 1.0)
  }

  /** The lanes split the terrain width evenly. */
  const LaneSpan: real := C.TerrainWidth / C.LaneCount as real

  /** `laneToX`: the lane's center plus the sideways jitter. */
  function LaneToX(lane: nat, jitter: XJitter): (r: real)
    ensures r - jitter == -C.TerrainWidth / 2.0 + LaneSpan / 2.0 + lane as real * LaneSpan
    ensures lane < C.LaneCount ==> -9.0 <= r <= 9.0
  {
    -C.TerrainWidth / 2.0 + LaneSpan / 2.0 + lane as real * LaneSpan + jitter
  }

  /** Jitter never lets an obstacle stray into a neighbouring lane's
      range: obstacles of a lower lane are at least two units to the left
      of those of a higher one. */
  lemma LanesKeepApart(a: nat, ja: XJitter, b: nat, jb: XJitter)
    requires a < b
    ensures LaneToX(a, ja) + 2.0 <= LaneToX(b, jb)
  {
  }

  /** The elements of a sequence, as a set. */
  function SetOf(s: seq<nat>): set<nat> { set x | x in s }

  lemma {:induction false} SetOfSize(s: seq<nat>)
    ensures |SetOf(s)| <= |s|
  {
    if |s| > 0 {
      SetOfSize(s[1..]);
      assert SetOf(s) == SetOf(s[1..]) + {s[0]};
    }
  }

  lemma SubsetSize(a: set<nat>, b: set<nat>)
    requires a <= b
    ensures |a| <= |b|
  {
    assert b == a + (b - a);
  }

  /** Pigeonhole: fewer blocked lanes than lanes leaves one lane free. */
  lemma FreeLaneExists(blocked: seq<nat>)
    requires |blocked| < C.LaneCount
    ensures |FreeLanesFrom(blocked, 0)| > 0
  {
    var all: set<nat> := {0, 1, 2, 3, 4};
    if all <= SetOf(blocked) {
      SetOfSize(blocked);
      SubsetSize(all, SetOf(blocked));
      assert false;
    }
    var l :| l in all && l !in SetOf(blocked);
    assert l in FreeLanesFrom(blocked, 0);
  }

  /** The lanes from `from` on that are not blocked, in increasing order. */
  function FreeLanesFrom(blocked: seq<nat>, from: nat): (r: seq<nat>)
    ensures forall l :: l in r <==> from <= l < C.LaneCount && l !in blocked
    decreases C.LaneCount - from
  {
    if from >= C.LaneCount then []
    else if from in blocked then FreeLanesFrom(blocked, from + 1)
    else [from] + FreeLanesFrom(blocked, from + 1)
  }

  /** The lanes a new obstacle may take: lane `l` is free exactly when it
      is on the terrain and not blocked, and while fewer lanes than there
      are lanes are blocked, some lane is free. */
  function FreeLanes(blocked: seq<nat>): (r: seq<nat>)
    ensures forall l :: l in r <==> 0 <= l < C.LaneCount && l !in blocked
    ensures |blocked| < C.LaneCount ==> |r| > 0
  {
    if |blocked| < C.LaneCount then
      FreeLaneExists(blocked);
      FreeLanesFrom(blocked, 0)
    else FreeLanesFrom(blocked, 0)
  }

  /** The lanes are distinct and on the terrain. */
  ghost predicate DistinctLanes(lanes: seq<nat>) {
    && (forall i :: 0 <= i < |lanes| ==> lanes[i] < C.LaneCount)
    && (forall i, j :: 0 <= i < j < |lanes| ==> lanes[i] != lanes[j])
  }

  /** Lane `i` of `lanes` is the one its draw picks among the lanes still
      free after the first `i`. */
  ghost predicate PickedFree(lanes: seq<nat>, placements: nat -> Placement, i: nat)
    requires i < |lanes|
  {
    var free := FreeLanes(lanes[..i]);
    |free| > 0 && lanes[i] == Pick(free, placements(i).laneRoll)
  }

  /** The free lane a lane roll picks: the rolls cycle through the free
      lanes. */
  function Pick(free: seq<nat>, roll: nat): (r: nat)
    requires |free| > 0
    ensures r in free
  {
    free[roll % |free|]
  }

  /** The lane loop of `spawnObstacleRow`, from the lanes already
      `blocked`: it stops after `count` obstacles, or as soon as all but
      one lane are blocked, and otherwise takes the free lane the draw
      picks. The rejection loop that redraws a blocked lane is modelled as a
      direct pick among the free lanes. */
  function ChooseLanes(count: nat, placements: nat -> Placement, blocked: seq<nat>): (r: seq<nat>)
    requires DistinctLanes(blocked) && |blocked| < C.LaneCount
    ensures ChoseFrom(blocked, count, placements, r)
    decreases count - |blocked|
  {
    if |blocked| >= count || |blocked| >= C.LaneCount - 1 then blocked
    else
      var lane := Pick(FreeLanes(blocked), placements(|blocked|).laneRoll);
      AddFreeLane(blocked, lane);
      var r := ChooseLanes(count, placements, blocked + [lane]);
      ChooseStep(blocked, count, placements, lane, r);
      r
  }

  /** What the lane loop promises from the lanes already `blocked`: the
      lanes stay distinct and leave one free, the loop runs to `count` or
      until one lane is left, the blocked lanes come first, and every later
      lane is the draw's pick among the lanes then free. */
  ghost predicate ChoseFrom(blocked: seq<nat>, count: nat, placements: nat -> Placement, r: seq<nat>) {
    && DistinctLanes(r) && |r| < C.LaneCount
    && |r| == MaxInt(|blocked|, MinInt(count, C.LaneCount - 1))
    && |blocked| <= |r| && r[..|blocked|] == blocked
    && forall i :: |blocked| <= i < |r| ==> PickedFree(r, placements, i)
  }

  /** One turn of the lane loop: if the rest of the loop keeps its promise
      after blocking the picked lane, the whole loop keeps it. */
  lemma ChooseStep(blocked: seq<nat>, count: nat, placements: nat -> Placement, lane: nat, r: seq<nat>)
    requires |blocked| < count && |blocked| < C.LaneCount - 1
    requires lane == Pick(FreeLanes(blocked), placements(|blocked|).laneRoll)
    requires ChoseFrom(blocked + [lane], count, placements, r)
    ensures ChoseFrom(blocked, count, placements, r)
  {
    var n := |blocked|;
    assert |r| >= n + 1 && r[..n + 1] == blocked + [lane];
    PrefixOfAppend(blocked, [lane], r);
    assert r[n] == lane;
    assert PickedFree(r, placements, n);
    assert forall i :: n + 1 <= i < |r| ==> PickedFree(r, placements, i);
  }

  /** Blocking a free lane keeps the blocked lanes distinct. */
  lemma AddFreeLane(blocked: seq<nat>, lane: nat)
    requires DistinctLanes(blocked) && lane < C.LaneCount && lane !in blocked
    ensures DistinctLanes(blocked + [lane])
  {
  }

  /** One obstacle placed in `lane` of the row at `z`. */
  function Place(lane: nat, p: Placement, z: real): (r: Obstacle)
    ensures r.position.y == 0.0 && r.position.z - z == p.zJitter
    ensures r.position.x == LaneToX(lane, p.xJitter)
    ensures r.halfExtent == HalfExtent(r.kind, p.treeScale, p.rockSize)
  {
    var kind := KindFor(p.kindRoll);
    Obstacle(Vec3(LaneToX(lane, p.xJitter), 0.0, z + p.zJitter), kind, HalfExtent(kind, p.treeScale, p.rockSize))
  }

  /** The lanes a row at difficulty `df` blocks. */
  function RowLanes(df: DifficultyLevel, row: RowDraw): (r: seq<nat>)
    ensures DistinctLanes(r) && |r| == RowCount(df, row.countRoll)
  {
    ChooseLanes(RowCount(df, row.countRoll), row.placements, [])
  }

  /** `spawnObstacleRow(atZ:)`: one obstacle per chosen lane, in the order
      the lanes were chosen. */
  function SpawnRow(df: DifficultyLevel, z: real, row: RowDraw): (r: seq<Obstacle>)
    ensures |r| == |RowLanes(df, row)|
    ensures forall i :: 0 <= i < |r| ==> r[i] == Place(RowLanes(df, row)[i], row.placements(i), z)
  {
    PlaceFrom(RowLanes(df, row), row.placements, z, 0)
  }

  /** The obstacles for `lanes[from..]`, the `i`-th with the `i`-th draw. */
  function PlaceFrom(lanes: seq<nat>, placements: nat -> Placement, z: real, from: nat): (r: seq<Obstacle>)
    requires from <= |lanes|
    ensures |r| == |lanes| - from
    ensures forall i :: 0 <= i < |r| ==> r[i] == Place(lanes[from + i], placements(from + i), z)
    decreases |lanes| - from
  {
    if from == |lanes| then []
    else [Place(lanes[from], placements(from), z)] + PlaceFrom(lanes, placements, z, from + 1)
  }

  /** Lane fairness: a row holds between one and three obstacles, never
      two in one lane, so at least one of the five lanes is always left
      free; and every obstacle lies on the terrain within two units of the
      row's line. */
  lemma RowLeavesALaneFree(df: DifficultyLevel, z: real, row: RowDraw)
    ensures 1 <= |SpawnRow(df, z, row)| <= 3
    ensures exists l: nat :: l < C.LaneCount && l !in RowLanes(df, row)
    ensures forall i, j :: 0 <= i < j < |SpawnRow(df, z, row)| ==>
      SpawnRow(df, z, row)[i].position.x != SpawnRow(df, z, row)[j].position.x
    ensures forall o :: o in SpawnRow(df, z, row) ==>
      -9.0 <= o.position.x <= 9.0 && z - 2.0 <= o.position.z <= z + 2.0
  {
    var lanes := RowLanes(df, row);
    assert FreeLanes(lanes)[0] !in lanes;
    RowInDistinctColumns(df, z, row);
  }

  /** The obstacles of a row stand in distinct lanes, so no two share an x. */
  lemma RowInDistinctColumns(df: DifficultyLevel, z: real, row: RowDraw)
    ensures forall i, j :: 0 <= i < j < |SpawnRow(df, z, row)| ==>
      SpawnRow(df, z, row)[i].position.x != SpawnRow(df, z, row)[j].position.x
  {
    var lanes := RowLanes(df, row);
    assert SpawnRow(df, z, row) == PlaceFrom(lanes, row.placements, z, 0);
    PlacedInDistinctColumns(lanes, row.placements, z);
  }

  /** Obstacles placed in distinct lanes have distinct x's. */
  lemma PlacedInDistinctColumns(lanes: seq<nat>, placements: nat -> Placement, z: real)
    requires DistinctLanes(lanes)
    ensures var obstacles := PlaceFrom(lanes, placements, z, 0);
      forall i, j :: 0 <= i < j < |obstacles| ==> obstacles[i].position.x != obstacles[j].position.x
  {
    var obstacles := PlaceFrom(lanes, placements, z, 0);
    forall i, j | 0 <= i < j < |obstacles|
      ensures obstacles[i].position.x != obstacles[j].position.x
    {
      assert obstacles[i] == Place(lanes[i], placements(i), z);
      assert obstacles[j] == Place(lanes[j], placements(j), z);
      PlacedApart(lanes[i], placements(i), lanes[j], placements(j), z);
    }
  }

  /** Obstacles placed in two different lanes never share an x. */
  lemma PlacedApart(a: nat, pa: Placement, b: nat, pb: Placement, z: real)
    requires a != b
    ensures Place(a, pa, z).position.x != Place(b, pb, z).position.x
  {
    if a < b {
      LanesKeepApart(a, pa.xJitter, b, pb.xJitter);
    } else {
      LanesKeepApart(b, pb.xJitter, a, pa.xJitter);
    }
  }

  /** The along-slope gap between rows at this difficulty. */
  function Spacing(df: DifficultyLevel, resortMultiplier: real): (r: real)
    requires resortMultiplier > 0.0
    ensures r > 0.0
    ensures r * df * resortMultiplier == C.ObstacleSpacing
  {
    C.ObstacleSpacing / (df * resortMultiplier)
  }

  /** What the frontier loop promises about its result `r` from `f`: the
      frontier ends at or past `target`, less than one step beyond it if it
      had to move at all, and never moves back up; nothing happens when it
      was already past; the obstacles already there are kept, ahead of the
      new ones; and every new one lies between the old and the new
      frontier, up to its along-slope jitter. */
  ghost predicate SpawnedFrom(f: Field, r: Field, target: real, step: real) {
    && r.nextSpawnZ <= target && r.nextSpawnZ <= f.nextSpawnZ
    && (f.nextSpawnZ > target ==> r.nextSpawnZ > target - step)
    && (f.nextSpawnZ <= target ==> r == f)
    && r.difficultyFactor == f.difficultyFactor && r.resortMultiplier == f.resortMultiplier
    && |r.active| >= |f.active| && r.active[..|f.active|] == f.active
    && (forall i :: |f.active| <= i < |r.active| ==>
          r.nextSpawnZ - 2.0 < r.active[i].position.z <= f.nextSpawnZ + 2.0)
  }

  /** The frontier loop of `update`: rows are spawned at the frontier and
      the frontier moves `step` down the slope, until it is no longer ahead
      of `target` (the player's position less `obstacleLookAhead`). Row `k`
      of this call uses the draws `rows(k)`. */
  function SpawnRows(f: Field, target: real, step: real, rows: nat -> RowDraw, k: nat): (r: Field)
    requires step > 0.0
    ensures SpawnedFrom(f, r, target, step)
    decreases StepsShort(f.nextSpawnZ, target, step)
  {
    if f.nextSpawnZ > target then
      var next := SpawnAtFrontier(f, rows(k), step);
      StepsShortDecreases(f.nextSpawnZ, target, step);
      var r := SpawnRows(next, target, step, rows, k + 1);
      SpawnStep(f, rows(k), target, step, r);
      r
    else f
  }

  /** One turn of the frontier loop: the row at the frontier is spawned
      and the frontier moves `step` down the slope. */
  function SpawnAtFrontier(f: Field, draw: RowDraw, step: real): Field {
    f.(active := f.active + SpawnRow(f.difficultyFactor, f.nextSpawnZ, draw),
       nextSpawnZ := f.nextSpawnZ - step)
  }

  /** One turn of the frontier loop: if the rest of the loop keeps its
      promise from the state after spawning the row at the frontier, the
      whole loop keeps it from the state before. */
  lemma SpawnStep(f: Field, draw: RowDraw, target: real, step: real, r: Field)
    requires step > 0.0 && f.nextSpawnZ > target
    requires SpawnedFrom(SpawnAtFrontier(f, draw, step), r, target, step)
    ensures SpawnedFrom(f, r, target, step)
  {
    var row := SpawnRow(f.difficultyFactor, f.nextSpawnZ, draw);
    RowNearLine(f.difficultyFactor, f.nextSpawnZ, draw);
    PrefixOfAppend(f.active, row, r.active);
  }

  /** Every obstacle of a row is within two units of the row's line. */
  lemma RowNearLine(df: DifficultyLevel, z: real, row: RowDraw)
    ensures forall i :: 0 <= i < |SpawnRow(df, z, row)| ==>
      z - 2.0 <= SpawnRow(df, z, row)[i].position.z <= z + 2.0
  {
  }

  /** `removeAll` in `update`: an obstacle is dropped once it is more than
      `obstacleCleanupDistance` behind the player. */
  predicate Kept(playerZ: real, o: Obstacle) {
    o.position.z <= playerZ + C.ObstacleCleanupDistance
  }

  function Cleanup(f: Field, playerZ: real): (r: Field)
    ensures forall o :: multiset(r.active)[o] == if Kept(playerZ, o) then multiset(f.active)[o] else 0
    ensures r.nextSpawnZ == f.nextSpawnZ && r.difficultyFactor == f.difficultyFactor
    ensures r.resortMultiplier == f.resortMultiplier
  {
    f.(active := Filter(f.active, o => Kept(playerZ, o)))
  }

  /** Cleanup keeps the survivors in their order: cleaning a list made of
      two parts cleans each part on its own. */
  lemma CleanupKeepsOrder(f: Field, front: seq<Obstacle>, back: seq<Obstacle>, playerZ: real)
    requires f.active == front + back
    ensures Cleanup(f, playerZ).active ==
      Filter(front, o => Kept(playerZ, o)) + Filter(back, o => Kept(playerZ, o))
  {
    FilterAppend(front, back, o => Kept(playerZ, o));
  }

  /** The spawning half of `update`: the difficulty is set from the
      player's position, then rows are spawned up to the look-ahead line at
      the spacing for that difficulty. */
  function SpawnAhead(f: Field, playerZ: real, rows: nat -> RowDraw): (r: Field)
    requires f.resortMultiplier > 0.0
    ensures SpawnedFrom(f.(difficultyFactor := DifficultyFactor(playerZ)), r, playerZ - C.ObstacleLookAhead,
                        Spacing(DifficultyFactor(playerZ), f.resortMultiplier))
  {
    var df := DifficultyFactor(playerZ);
    SpawnRows(f.(difficultyFactor := df), playerZ - C.ObstacleLookAhead, Spacing(df, f.resortMultiplier), rows, 0)
  }

  /** `update(playerZ:speed:deltaTime:)`: set the difficulty from the
      player's position, spawn rows up to the look-ahead line, then drop the
      obstacles left behind. Afterwards every obstacle is within the cleanup
      window behind the player, the frontier is past the look-ahead line,
      and the obstacles are the old ones still inside the window, in their
      order, followed by the newly spawned ones inside it. */
  function Update(f: Field, playerZ: real, rows: nat -> RowDraw): (r: Field)
    requires f.resortMultiplier > 0.0
    ensures r.difficultyFactor == DifficultyFactor(playerZ)
    ensures r.nextSpawnZ <= playerZ - C.ObstacleLookAhead && r.nextSpawnZ <= f.nextSpawnZ
    ensures r.resortMultiplier == f.resortMultiplier
    ensures forall o :: o in r.active ==> Kept(playerZ, o)
    ensures r.active == Filter(f.active, o => Kept(playerZ, o)) +
      Filter(SpawnAhead(f, playerZ, rows).active[|f.active|..], o => Kept(playerZ, o))
  {
    var spawned := SpawnAhead(f, playerZ, rows);
    var r := Cleanup(spawned, playerZ);
    assert forall o :: o in r.active ==> Kept(playerZ, o) by {
      forall o | o in r.active
        ensures Kept(playerZ, o)
      {
        assert multiset(r.active)[o] > 0;
      }
    }
    assert spawned.active == f.active + spawned.active[|f.active|..];
    CleanupKeepsOrder(spawned, f.active, spawned.active[|f.active|..], playerZ);
    r
  }

  /** `removeAll`: no obstacles, the frontier back at the start line and
      the difficulty back at 1. */
  function RemoveAll(f: Field): (r: Field)
    ensures r == New(f.resortMultiplier)
  {
    Field([], C.ObstacleStartZ, 1.0, f.resortMultiplier)
  }

  /** Removing everything twice is removing it once, and a cleared field
      behaves like a fresh one: it spawns exactly what a fresh spawner for
      the same resort spawns. */
  lemma RemoveAllIdempotent(f: Field, playerZ: real, rows: nat -> RowDraw)
    requires f.resortMultiplier > 0.0
    ensures RemoveAll(RemoveAll(f)) == RemoveAll(f)
    ensures RemoveAll(f).active == [] && RemoveAll(f).nextSpawnZ == -30.0
    ensures Update(RemoveAll(f), playerZ, rows) == Update(New(f.resortMultiplier), playerZ, rows)
  {
  }
}

=== FILE: optional.dfy ===
/** Swift's optional values (`T?`). */
module Optional {

  datatype Option<T> = None | Some(value: T)
}

=== FILE: player.dfy ===
/** The rider's locomotion (Game/PlayerController.swift): steering towards
    a target lane position, a grounded/jumping state machine under gravity,
    the grab trick a jump can start, and the fixed forward step. The node
    hierarchy, the lean and wobble angles and the tuck animation are
    rendering and are not modelled; the rider node is its position. */
module Player {
  import opened Numerics
  import opened Spatial
  import C = Constants

  datatype Swipe = NoSwipe | Left | Right | Up | Down

  datatype Trick = NoTrick | Spin | Flip | Grab

  datatype Player = Player(
    position: Vec3,
    targetLaneX: real,
    currentLaneX: real,
    horizontalVelocity: real,
    isJumping: bool,
    jumpVelocity: real,
    currentY: real,
    isPerformingTrick: bool,
    trickRotation: real,
    trickType: Trick)

  /** The controller as it is created and as `reset` leaves it, at a given
      node position. */
  function Rest(position: Vec3): Player {
    Player(position, 0.0, 0.0, 0.0, false, 0.0, 0.0, false, 0.0, NoTrick)
  }

  /** What every operation keeps: the steering target stays within the
      lane offsets, a trick is in progress exactly when a trick type is
      set, tricks happen only in the air, and a grounded rider has no
      vertical velocity. */
  ghost predicate Valid(p: Player) {
    && -C.MaxLaneOffset <= p.targetLaneX <= C.MaxLaneOffset
    && (p.isPerformingTrick <==> p.trickType != NoTrick)
    && (p.isPerformingTrick ==> p.isJumping)
    && (!p.isJumping ==> p.jumpVelocity == 0.0)
  }

  /** `startTrick`: ignored while a trick is in progress; otherwise the
      trick starts from rotation zero. Either way a trick is in progress
      afterwards, one already under way is never replaced, only the trick
      state changes, and a real trick started in the air keeps the
      controller valid. */
  function StartTrick(p: Player, t: Trick): (r: Player)
    ensures r.isPerformingTrick
    ensures r.trickType == (if p.isPerformingTrick then p.trickType else t)
    ensures r == p.(isPerformingTrick := r.isPerformingTrick, trickType := r.trickType,
                    trickRotation := r.trickRotation)
    ensures !p.isPerformingTrick ==> r.trickRotation == 0.0
    ensures Valid(p) && p.isJumping && t != NoTrick ==> Valid(r)
  {
    if p.isPerformingTrick then p
    else p.(isPerformingTrick := true, trickType := t, trickRotation := 0.0)
  }

  /** `jump`: the rider leaves the ground with the jump force from the
      node's current height, and a fast sideways motion turns the jump into
      a grab. */
  function Jump(p: Player): (r: Player)
    ensures r.isJumping && r.jumpVelocity == C.JumpForce && r.currentY == p.position.y
    ensures r.targetLaneX == p.targetLaneX && r.currentLaneX == p.currentLaneX && r.position == p.position
    ensures r.isPerformingTrick != p.isPerformingTrick <==> Abs(p.horizontalVelocity) > 2.0 && !p.isPerformingTrick
    ensures r.isPerformingTrick != p.isPerformingTrick ==> r.trickType == Grab && r.trickRotation == 0.0
    ensures r.isPerformingTrick == p.isPerformingTrick ==> r.trickType == p.trickType
  {
    var up := p.(isJumping := true, jumpVelocity := C.JumpForce, currentY := p.position.y);
    if Abs(p.horizontalVelocity) > 2.0 then StartTrick(up, Grab) else up
  }

  /** `handleSwipe`. Left and right move the target one lane width, never
      past the outermost offset; up jumps unless already airborne; down
      slams an airborne rider towards the ground and otherwise only tucks,
      which changes no motion state. */
  function HandleSwipe(p: Player, d: Swipe): (r: Player)
    ensures d == Left ==> r == p.(targetLaneX := Max(p.targetLaneX - C.LaneWidth, -C.MaxLaneOffset))
    ensures d == Right ==> r == p.(targetLaneX := Min(p.targetLaneX + C.LaneWidth, C.MaxLaneOffset))
    ensures d == Up && p.isJumping ==> r == p
    ensures d == Up && !p.isJumping ==> r == Jump(p)
    ensures d == Down && p.isJumping ==> r == p.(jumpVelocity := -C.SlamDownSpeed)
    ensures d == Down && !p.isJumping ==> r == p
    ensures d == NoSwipe ==> r == p
    ensures Valid(p) ==> Valid(r)
  {
    match d
    case Left => p.(targetLaneX := Max(p.targetLaneX - C.LaneWidth, -C.MaxLaneOffset))
    case Right => p.(targetLaneX := Min(p.targetLaneX + C.LaneWidth, C.MaxLaneOffset))
    case Up => if p.isJumping then p else Jump(p)
    case Down => if p.isJumping then p.(jumpVelocity := -C.SlamDownSpeed) else p
    case NoSwipe => p
  }

  /** A swipe left undone by a swipe right brings the target back, as long
      as the left swipe was not cut short at the edge; and the other way
      round. */
  lemma LeftRightRoundTrip(p: Player)
    ensures -C.MaxLaneOffset + C.LaneWidth <= p.targetLaneX <= C.MaxLaneOffset ==>
      HandleSwipe(HandleSwipe(p, Left), Right) == p
    ensures -C.MaxLaneOffset <= p.targetLaneX <= C.MaxLaneOffset - C.LaneWidth ==>
      HandleSwipe(HandleSwipe(p, Right), Left) == p
  {
  }

  /** Repeated swipes in one direction end at the edge and stay there. */
  lemma SwipesSaturateAtEdge(p: Player)
    requires Valid(p)
    ensures p.targetLaneX <= -C.MaxLaneOffset + C.LaneWidth ==>
      HandleSwipe(p, Left).targetLaneX == -C.MaxLaneOffset
    ensures p.targetLaneX == C.MaxLaneOffset ==> HandleSwipe(p, Right) == p
    ensures p.targetLaneX == -C.MaxLaneOffset ==> HandleSwipe(p, Left) == p
  {
  }

  /** The dead zone of the tilt steering. */
  const TiltDeadzone: real := 0.05

  /** `handleTilt`: a tilt inside the dead zone is ignored; otherwise the
      target becomes the rider's current position moved by the scaled tilt,
      clamped to the outermost offsets. */
  function HandleTilt(p: Player, tilt: real): (r: Player)
    ensures Abs(tilt) <= TiltDeadzone ==> r == p
    ensures Abs(tilt) > TiltDeadzone ==>
      && r == p.(targetLaneX := r.targetLaneX)
      && -C.MaxLaneOffset <= r.targetLaneX <= C.MaxLaneOffset
      && (-C.MaxLaneOffset <= p.currentLaneX + tilt * C.TiltSensitivity <= C.MaxLaneOffset ==>
            r.targetLaneX == p.currentLaneX + tilt * C.TiltSensitivity)
      && (p.currentLaneX + tilt * C.TiltSensitivity < -C.MaxLaneOffset ==> r.targetLaneX == -C.MaxLaneOffset)
      && (p.currentLaneX + tilt * C.TiltSensitivity > C.MaxLaneOffset ==> r.targetLaneX == C.MaxLaneOffset)
    ensures Valid(p) ==> Valid(r)
  {
    if Abs(tilt) > TiltDeadzone then
      p.(targetLaneX := Max(-C.MaxLaneOffset, Min(C.MaxLaneOffset, p.currentLaneX + tilt * C.TiltSensitivity)))
    else p
  }

  /** `updateHorizontalMovement`: the rider moves towards the target at a
      velocity proportional to the remaining gap, and the node follows.
      The gap shrinks by the factor `1 - lateralSpeed·dt`, so for a step no
      longer than `1/lateralSpeed` (the frame-time cap guarantees it) the
      rider ends between where it was and the target: it never overshoots. */
  function HorizontalStep(p: Player, dt: real): (r: Player)
    ensures r.targetLaneX - r.currentLaneX == (p.targetLaneX - p.currentLaneX) * (1.0 - C.LateralSpeed * dt)
    ensures r.horizontalVelocity == C.LateralSpeed * (p.targetLaneX - p.currentLaneX)
    ensures r.horizontalVelocity * dt == r.currentLaneX - p.currentLaneX
    ensures 0.0 <= dt && C.LateralSpeed * dt <= 1.0 ==>
      Min(p.currentLaneX, p.targetLaneX) <= r.currentLaneX <= Max(p.currentLaneX, p.targetLaneX)
    ensures r.position == p.position.(x := r.currentLaneX)
    ensures r == p.(currentLaneX := r.currentLaneX, horizontalVelocity := r.horizontalVelocity, position := r.position)
  {
    var v := (p.targetLaneX - p.currentLaneX) * C.LateralSpeed;
    var x := p.currentLaneX + v * dt;
    LerpBetween(p.currentLaneX, p.targetLaneX, C.LateralSpeed * dt);
    p.(horizontalVelocity := v, currentLaneX := x, position := p.position.(x := x))
  }

  /** `updateVerticalMovement`: in the air, gravity slows the rise and the
      height follows the velocity; on reaching the starting height the rider
      lands there, the jump ends with no vertical velocity, and any trick in
      progress is abandoned. On the ground nothing changes. */
  function VerticalStep(p: Player, dt: real): (r: Player)
    ensures !p.isJumping ==> r == p
    ensures p.isJumping ==>
      var v := p.jumpVelocity - C.Gravity * dt;
      var y := p.currentY + v * dt;
      if y <= C.PlayerStartY then
        && r.currentY == C.PlayerStartY && !r.isJumping && r.jumpVelocity == 0.0
        && !r.isPerformingTrick && r.trickRotation == p.trickRotation
        && r.trickType == (if p.isPerformingTrick then NoTrick else p.trickType)
      else
        r == p.(jumpVelocity := v, currentY := y, position := p.position.(y := y))
    ensures p.isJumping ==> r.position == p.position.(y := r.currentY) && r.currentY >= C.PlayerStartY
    ensures r.targetLaneX == p.targetLaneX && r.currentLaneX == p.currentLaneX
    ensures Valid(p) ==> Valid(r)
  {
    if p.isJumping then
      var v := p.jumpVelocity - C.Gravity * dt;
      var y := p.currentY + v * dt;
      if y <= C.PlayerStartY then
        var landed := p.(currentY := C.PlayerStartY, isJumping := false, jumpVelocity := 0.0,
                         position := p.position.(y := C.PlayerStartY));
        if landed.isPerformingTrick then landed.(isPerformingTrick := false, trickType := NoTrick)
        else landed
      else p.(jumpVelocity := v, currentY := y, position := p.position.(y := y))
    else p
  }

  /** The grab's rotation rate; spins and flips turn at the trick spin
      speed. */
  const GrabRate: real := 4.0

  /** The rotation rate of each trick, in radians per second. */
  function TrickRate(t: Trick): (r: real)
    ensures t != NoTrick ==> r > 0.0
    ensures t == Grab ==> r * 2.0 == C.TrickSpinSpeed
  {
    match t
    case NoTrick => 0.0
    case Grab => GrabRate
    case _ => C.TrickSpinSpeed
  }

  /** `updateTricks`: the rotation of a trick in progress advances at its
      type's rate. Only the rotation changes; it never turns back on a
      frame of non-negative length, a grab turns half as fast as a spin or
      a flip, and the controller stays valid. */
  function TrickStep(p: Player, dt: real): (r: Player)
    ensures r == p.(trickRotation := r.trickRotation)
    ensures 0.0 <= dt ==> p.trickRotation <= r.trickRotation
    ensures !p.isPerformingTrick || p.trickType == NoTrick ==> r.trickRotation == p.trickRotation
    ensures p.isPerformingTrick && p.trickType != NoTrick ==>
      r.trickRotation - p.trickRotation == TrickRate(p.trickType) * dt
    ensures Valid(p) ==> Valid(r)
  {
    if !p.isPerformingTrick then p
    else
      match p.trickType
      case Spin => p.(trickRotation := p.trickRotation + C.TrickSpinSpeed * dt)
      case Flip => p.(trickRotation := p.trickRotation + C.TrickSpinSpeed * dt)
      case Grab => p.(trickRotation := p.trickRotation + GrabRate * dt)
      case NoTrick => p
  }

  /** The forward step of `updateVisuals`: the rider moves down the slope
      by one nominal frame's worth of speed, whatever the real frame time. */
  function ForwardStep(p: Player, speed: real): (r: Player)
    ensures r.position.z + speed * C.NominalFrameTime == p.position.z
    ensures speed >= 0.0 ==> r.position.z <= p.position.z
    ensures r == p.(position := r.position) && r.position == p.position.(z := r.position.z)
  {
    p.(position := p.position.(z := p.position.z - speed * C.NominalFrameTime))
  }

  /** `update(deltaTime:speed:)`: steer, fall, turn the trick, then move
      forward. */
  function Update(p: Player, dt: real, speed: real): (r: Player)
    ensures Valid(p) ==> Valid(r)
    ensures r.targetLaneX == p.targetLaneX
    ensures r.position.x == r.currentLaneX
    ensures r.position.z + speed * C.NominalFrameTime == p.position.z
    ensures 0.0 <= dt && C.LateralSpeed * dt <= 1.0 ==>
      Min(p.currentLaneX, p.targetLaneX) <= r.currentLaneX <= Max(p.currentLaneX, p.targetLaneX)
  {
    ForwardStep(TrickStep(VerticalStep(HorizontalStep(p, dt), dt), dt), speed)
  }

  /** `reset`: the motion and trick state return to rest; the node's
      position is the scene's to set. */
  function Reset(p: Player): (r: Player)
    ensures r == Rest(p.position)
    ensures Valid(r) && r.targetLaneX == 0.0 && !r.isJumping && !r.isPerformingTrick
  {
    p.(targetLaneX := 0.0, currentLaneX := 0.0, horizontalVelocity := 0.0, isJumping := false,
       jumpVelocity := 0.0, currentY := 0.0, isPerformingTrick := false, trickRotation := 0.0,
       trickType := NoTrick)
  }

  /** Resetting twice is resetting once, and a reset rider is grounded:
      a swipe down then changes nothing, and a swipe up starts a jump with
      no trick, since a rider at rest has no sideways velocity. */
  lemma ResetIsRest(p: Player)
    ensures Reset(Reset(p)) == Reset(p)
    ensures HandleSwipe(Reset(p), Down) == Reset(p)
    ensures HandleSwipe(Reset(p), Up).isJumping && !HandleSwipe(Reset(p), Up).isPerformingTrick
  {
  }

  /** The frame that reaches the ground ends the jump: a trick in progress
      is cleared and the rider stands at the starting height. */
  lemma LandingEndsTrick(p: Player, dt: real)
    requires Valid(p) && p.isJumping && p.isPerformingTrick
    requires p.currentY + (p.jumpVelocity - C.Gravity * dt) * dt <= C.PlayerStartY
    ensures var r := VerticalStep(p, dt);
      !r.isJumping && !r.isPerformingTrick && r.trickType == NoTrick && r.position.y == C.PlayerStartY
  {
  }

  /** A trick in progress lasts through every frame the rider stays in
      the air, keeping its type, and ends on the frame that lands. */
  lemma TrickLastsUntilLanding(p: Player, dt: real, speed: real)
    requires Valid(p) && p.isPerformingTrick
    ensures var r := Update(p, dt, speed);
      && (r.isJumping ==> r.isPerformingTrick && r.trickType == p.trickType)
      && (!r.isJumping ==> !r.isPerformingTrick && r.trickType == NoTrick)
  {
  }

  /** The rider's vertical state: in the air or not, the vertical velocity
      and the height. A frame's vertical motion depends on it alone. */
  datatype Flight = Flight(inAir: bool, velocity: real, height: real)

  function FlightOf(p: Player): Flight {
    Flight(p.isJumping, p.jumpVelocity, p.currentY)
  }

  /** One frame of `updateVerticalMovement` on the vertical state. */
  function Fly(f: Flight, dt: real): Flight {
    if !f.inAir then f
    else
      var v := f.velocity - C.Gravity * dt;
      var y := f.height + v * dt;
      if y <= C.PlayerStartY then Flight(false, 0.0, C.PlayerStartY) else Flight(true, v, y)
  }

  /** A whole frame moves the rider vertically as `Fly` does: steering,
      the trick and the forward step leave the vertical state alone. */
  lemma UpdateFollowsFlight(p: Player, dt: real, speed: real)
    ensures FlightOf(Update(p, dt, speed)) == Fly(FlightOf(p), dt)
  {
  }

  /** `n` frames of the same length and speed. */
  function Frames(p: Player, dt: real, speed: real, n: nat): (r: Player)
    ensures Valid(p) ==> Valid(r)
    decreases n
  {
    if n == 0 then p else Frames(Update(p, dt, speed), dt, speed, n - 1)
  }

  /** `n` frames of vertical motion. */
  function FlyFrames(f: Flight, dt: real, n: nat): (r: Flight)
    ensures !f.inAir ==> r == f
    decreases n
  {
    if n == 0 then f else FlyFrames(Fly(f, dt), dt, n - 1)
  }

  lemma {:induction false} FramesFollowFlight(p: Player, dt: real, speed: real, n: nat)
    ensures FlightOf(Frames(p, dt, speed, n)) == FlyFrames(FlightOf(p), dt, n)
    decreases n
  {
    if n > 0 {
      UpdateFollowsFlight(p, dt, speed);
      FramesFollowFlight(Update(p, dt, speed), dt, speed, n - 1);
    }
  }

  lemma {:induction false} FlyFramesSplit(f: Flight, dt: real, a: nat, b: nat)
    ensures FlyFrames(f, dt, a + b) == FlyFrames(FlyFrames(f, dt, a), dt, b)
    decreases a
  {
    if a > 0 {
      FlyFramesSplit(Fly(f, dt), dt, a - 1, b);
    }
  }

  /** `n` steps of length `x` laid end to end. */
  function Times(n: nat, x: real): real {
    if n == 0 then 0.0 else Times(n - 1, x) + x
  }

  /** Laying steps end to end is multiplying. */
  lemma {:induction false} TimesIsProduct(n: nat, x: real)
    ensures Times(n, x) == n as real * x
  {
    if n > 0 {
      TimesIsProduct(n - 1, x);
    }
  }

  /** The smallest whole number of steps of size `step` that covers `x`
      (zero when `x` is not positive). */
  function StepsToCover(x: real, step: real): (n: nat)
    requires step > 0.0
    ensures x <= Times(n, step)
  {
    if x <= 0.0 then 0
    else
      var q := x / step;
      assert q * step == x;
      var n := q.Floor + 1;
      assert q < n as real;
      assert (n as real - q) * step > 0.0;
      TimesIsProduct(n, step);
      n
  }

  /** Rising: while the vertical velocity is positive it drops by
      `gravity·dt` each frame, so after `j` frames with
      `velocity <= j·gravity·dt` the rider has landed or is falling, never
      having climbed more than `climb` in one frame. */
  lemma {:induction false} RiseEnds(f: Flight, dt: real, j: nat, climb: real)
    requires f.inAir && dt > 0.0 && f.velocity * dt <= climb
    requires f.velocity <= Times(j, C.Gravity * dt)
    ensures var g := FlyFrames(f, dt, j);
      g.inAir ==> g.velocity <= 0.0 && g.height <= f.height + Times(j, climb)
    decreases j
  {
    if j > 0 {
      var g := Fly(f, dt);
      if g.inAir {
        ScaleMonotone(g.velocity, f.velocity, dt);
        RiseEnds(g, dt, j - 1, climb);
      }
    }
  }

  /** Multiplying by a non-negative factor keeps the order. */
  lemma ScaleMonotone(a: real, b: real, k: real)
    requires a <= b && 0.0 <= k
    ensures a * k <= b * k
  {
    assert (b - a) * k >= 0.0;
  }

  /** The least a falling rider drops in one frame of length `dt`. */
  function FrameDrop(dt: real): (d: real)
    requires dt > 0.0
    ensures d > 0.0
    ensures d == C.Gravity * dt * dt
  {
    var perFrame := C.Gravity * dt;
    assert perFrame > 0.0;
    assert perFrame * dt > 0.0;
    perFrame * dt
  }

  /** Falling: with a velocity that is not positive the rider drops at
      least `gravity·dt²` in every frame, so a rider at most `k` such drops
      above the starting height has landed after `k + 1` frames. */
  lemma {:induction false} FallEnds(f: Flight, dt: real, k: nat)
    requires f.inAir && f.velocity <= 0.0 && dt > 0.0
    requires f.height - C.PlayerStartY <= Times(k, FrameDrop(dt))
    ensures !FlyFrames(f, dt, k + 1).inAir
    decreases k
  {
    var g := Fly(f, dt);
    if g.inAir {
      var drop := FrameDrop(dt);
      assert f.velocity * dt <= 0.0;
      assert g.height <= f.height - drop;
      assert k > 0;
      FallEnds(g, dt, k - 1);
    }
  }

  /** The frames a rising rider needs to stop rising. */
  function RiseFrames(p: Player, dt: real): nat
    requires dt > 0.0
  {
    StepsToCover(p.jumpVelocity, C.Gravity * dt)
  }

  /** The highest the rider can be once it has stopped rising. */
  function Peak(p: Player, dt: real): real
    requires dt > 0.0
  {
    p.currentY + Times(RiseFrames(p, dt), Climb(p, dt))
  }

  /** The most a rising frame can lift the rider. */
  function Climb(p: Player, dt: real): real {
    Max(p.jumpVelocity, 0.0) * dt
  }

  /** How many frames of length `dt` a jump can last at most: the frames
      to stop rising, then the frames to fall from the highest height those
      could reach, then the landing frame. */
  function LandingBound(p: Player, dt: real): (n: nat)
    requires dt > 0.0
    ensures n > RiseFrames(p, dt)
  {
    RiseFrames(p, dt) + StepsToCover(Peak(p, dt) - C.PlayerStartY, FrameDrop(dt)) + 1
  }

  /** No frame of the rise lifts the rider by more than `Climb`. */
  lemma ClimbCovers(p: Player, dt: real)
    requires dt > 0.0
    ensures p.jumpVelocity * dt <= Climb(p, dt)
  {
    ScaleMonotone(p.jumpVelocity, Max(p.jumpVelocity, 0.0), dt);
  }

  /** After `RiseFrames` frames a rider still in the air is falling, from
      no higher than `Peak`. */
  lemma ReachesPeak(p: Player, dt: real)
    requires p.isJumping && dt > 0.0
    ensures var g := FlyFrames(FlightOf(p), dt, RiseFrames(p, dt));
      g.inAir ==> g.velocity <= 0.0 && g.height <= Peak(p, dt)
  {
    ClimbCovers(p, dt);
    RiseEnds(FlightOf(p), dt, RiseFrames(p, dt), Climb(p, dt));
  }

  /** The vertical motion alone comes down within `LandingBound` frames. */
  lemma FlightLands(p: Player, dt: real)
    requires p.isJumping && dt > 0.0
    ensures !FlyFrames(FlightOf(p), dt, LandingBound(p, dt)).inAir
  {
    var rise := RiseFrames(p, dt);
    var fall := StepsToCover(Peak(p, dt) - C.PlayerStartY, FrameDrop(dt));
    ReachesPeak(p, dt);
    var g := FlyFrames(FlightOf(p), dt, rise);
    FlyFramesSplit(FlightOf(p), dt, rise, fall + 1);
    if g.inAir {
      FallEnds(g, dt, fall);
    }
  }

  /** A jump ends: with frames of any one positive length, the rider is
      back on the ground within `LandingBound` frames, and any trick started
      on the jump is over by then. */
  lemma JumpLands(p: Player, dt: real, speed: real)
    requires Valid(p) && p.isJumping && dt > 0.0
    ensures var r := Frames(p, dt, speed, LandingBound(p, dt));
      !r.isJumping && !r.isPerformingTrick && r.trickType == NoTrick
  {
    FlightLands(p, dt);
    FramesFollowFlight(p, dt, speed, LandingBound(p, dt));
    assert Valid(Frames(p, dt, speed, LandingBound(p, dt)));
  }

  /** Every input and every frame keeps the controller valid, starting from
      rest. */
  lemma ValidThroughout(p: Player, d: Swipe, tilt: real, dt: real, speed: real)
    requires Valid(p)
    ensures Valid(Rest(p.position))
    ensures Valid(HandleSwipe(p, d)) && Valid(HandleTilt(p, tilt)) && Valid(Update(p, dt, speed))
  {
  }
}

=== FILE: ranking.dfy ===
/** Ranking by an integer key, highest first, and order-preserving
    filtering. Both score stores sort their entries with Swift's
    `sort { $0.key > $1.key }` and then keep a prefix; both spawners and
    the world streamer remove entities with `removeAll(where:)`. */
module Ranking {

  /** `s` is ordered by `key`, highest first. The relative order of equal
      keys is left open, as it is for Swift's `sort`. */
  ghost predicate SortedDesc<T>(s: seq<T>, key: T -> int) {
    forall i, j :: 0 <= i < j < |s| ==> key(s[i]) >= key(s[j])
  }

  /** Inserts `x` into a list already ordered highest first. */
  function Insert<T>(x: T, s: seq<T>, key: T -> int): (r: seq<T>)
    requires SortedDesc(s, key)
    ensures SortedDesc(r, key)
    ensures multiset(r) == multiset(s) + multiset{x}
    ensures |r| == |s| + 1
  {
    if |s| == 0 then [x]
    else if key(x) >= key(s[0]) then
      assert SortedDesc([x] + s, key) by { ConsSorted(x, s, key); }
      [x] + s
    else
      assert s == [s[0]] + s[1..];
      var tail := Insert(x, s[1..], key);
      assert SortedDesc([s[0]] + tail, key) by { InsertStep(x, s, tail, key); }
      [s[0]] + tail
  }

  /** Prepending an entry that ranks at least as high as the rest keeps
      the list ordered. */
  lemma ConsSorted<T>(h: T, t: seq<T>, key: T -> int)
    requires SortedDesc(t, key)
    requires forall i :: 0 <= i < |t| ==> key(t[i]) <= key(h)
    ensures SortedDesc([h] + t, key)
  {
    var r := [h] + t;
    forall i, j | 0 <= i < j < |r|
      ensures key(r[i]) >= key(r[j])
    {
      if i > 0 {
        assert r[i] == t[i - 1] && r[j] == t[j - 1];
      } else {
        assert r[j] == t[j - 1];
      }
    }
  }

  lemma InsertStep<T>(x: T, s: seq<T>, tail: seq<T>, key: T -> int)
    requires SortedDesc(s, key) && |s| > 0 && key(x) < key(s[0])
    requires SortedDesc(tail, key)
    requires multiset(tail) == multiset(s[1..]) + multiset{x}
    ensures SortedDesc([s[0]] + tail, key)
  {
    forall i | 0 <= i < |tail|
      ensures key(tail[i]) <= key(s[0])
    {
      assert tail[i] in multiset(tail);
      if tail[i] != x {
        assert tail[i] in multiset(s[1..]);
        var j :| 0 <= j < |s[1..]| && s[1..][j] == tail[i];
        assert s[j + 1] == tail[i];
      }
    }
    ConsSorted(s[0], tail, key);
  }

  /** Orders `s` highest first: the result is a permutation of `s`. */
  function Sort<T>(s: seq<T>, key: T -> int): (r: seq<T>)
    ensures SortedDesc(r, key)
    ensures multiset(r) == multiset(s)
    ensures |r| == |s|
  {
    if |s| == 0 then []
    else
      assert s == [s[0]] + s[1..];
      Insert(s[0], Sort(s[1..], key), key)
  }

  /** The `n` best entries of `s`: sort, then keep the first `n`. */
  function TopN<T>(s: seq<T>, key: T -> int, n: nat): (r: seq<T>)
    ensures SortedDesc(r, key)
    ensures |r| == if |s| <= n then |s| else n
    ensures multiset(r) <= multiset(s)
    ensures |s| <= n ==> multiset(r) == multiset(s)
    ensures forall x, y :: x in r && y in multiset(s) - multiset(r) ==> key(x) >= key(y)
  {
    var sorted := Sort(s, key);
    var k := if |s| <= n then |s| else n;
    PrefixOfSorted(sorted, key, k);
    assert k == |s| ==> sorted[..k] == sorted;
    sorted[..k]
  }

  /** `r` is `s` with `x` ranked in and cut to `n`: it is ordered, holds
      `n` entries or everything when that is fewer, is drawn from the old
      list and `x`, keeps everything while there is room, and no entry
      left out outranks one that was kept. */
  ghost predicate RankedIn<T>(s: seq<T>, x: T, key: T -> int, n: nat, r: seq<T>) {
    && SortedDesc(r, key)
    && |r| == (if |s| + 1 <= n then |s| + 1 else n)
    && multiset(r) <= multiset(s) + multiset{x}
    && (|s| < n ==> multiset(r) == multiset(s) + multiset{x})
    && (forall y, z :: y in r && z in multiset(s) + multiset{x} - multiset(r) ==> key(y) >= key(z))
  }

  /** Appends `x`, orders highest first and keeps the best `n`: what both
      score stores do on every submission. */
  function RankIn<T>(s: seq<T>, x: T, key: T -> int, n: nat): (r: seq<T>)
    ensures RankedIn(s, x, key, n, r)
  {
    var all := s + [x];
    assert multiset(all) == multiset(s) + multiset{x};
    TopN(all, key, n)
  }

  /** After ranking `x` into a list that keeps at least one entry, the top
      entry ranks at least as high as `x` and as everything in the old list. */
  lemma RankedInTop<T>(s: seq<T>, x: T, key: T -> int, n: nat, r: seq<T>)
    requires RankedIn(s, x, key, n, r) && n > 0
    ensures |r| > 0 && key(r[0]) >= key(x)
    ensures forall y :: y in s ==> key(r[0]) >= key(y)
  {
    forall y | y in s + [x]
      ensures key(r[0]) >= key(y)
    {
      assert multiset(s + [x]) == multiset(s) + multiset{x};
      assert y in multiset(s) + multiset{x};
      if y in multiset(r) {
        var i :| 0 <= i < |r| && r[i] == y;
        assert key(r[0]) >= key(r[i]);
      } else {
        assert y in multiset(s) + multiset{x} - multiset(r);
      }
    }
    assert x in s + [x];
    forall y | y in s
      ensures key(r[0]) >= key(y)
    {
      assert y in s + [x];
    }
  }

  /** A prefix of an ordered list is ordered, and everything cut off ranks
      no higher than anything kept. */
  lemma PrefixOfSorted<T>(s: seq<T>, key: T -> int, k: nat)
    requires SortedDesc(s, key) && k <= |s|
    ensures SortedDesc(s[..k], key)
    ensures multiset(s[..k]) <= multiset(s)
    ensures forall x, y :: x in s[..k] && y in multiset(s) - multiset(s[..k]) ==> key(x) >= key(y)
  {
    var r := s[..k];
    assert s == r + s[k..];
    assert multiset(s) == multiset(r) + multiset(s[k..]);
    forall x, y | x in r && y in multiset(s) - multiset(r)
      ensures key(x) >= key(y)
    {
      assert y in multiset(s[k..]);
      assert y in s[k..];
      var i :| 0 <= i < k && r[i] == x;
      var j :| 0 <= j < |s| - k && s[k..][j] == y;
      assert s[i] == x && s[k + j] == y;
    }
  }

  /** `removeAll(where:)` seen from the other side: the entries that
      satisfy `keep`, in their original order. */
  function Filter<T(!new)>(s: seq<T>, keep: T -> bool): (r: seq<T>)
    ensures |r| <= |s|
    ensures forall x :: multiset(r)[x] == if keep(x) then multiset(s)[x] else 0
  {
    if |s| == 0 then []
    else
      assert s == [s[0]] + s[1..];
      var rest := Filter(s[1..], keep);
      if keep(s[0]) then [s[0]] + rest else rest
  }

  /** Filtering distributes over concatenation, so the survivors keep the
      order they had. */
  lemma {:induction false} FilterAppend<T(!new)>(a: seq<T>, b: seq<T>, keep: T -> bool)
    ensures Filter(a + b, keep) == Filter(a, keep) + Filter(b, keep)
  {
    if |a| == 0 {
      assert a + b == b;
    } else {
      assert (a + b)[0] == a[0];
      assert (a + b)[1..] == a[1..] + b;
      FilterAppend(a[1..], b, keep);
    }
  }

  /** When the entries that fail `keep` all come first, filtering drops
      exactly that prefix. */
  lemma {:induction false} FilterDropsPrefix<T(!new)>(s: seq<T>, keep: T -> bool, k: nat)
    requires k <= |s|
    requires forall i :: 0 <= i < k ==> !keep(s[i])
    requires forall i :: k <= i < |s| ==> keep(s[i])
    ensures Filter(s, keep) == s[k..]
  {
    if |s| == 0 {
    } else if k == 0 {
      FilterAll(s, keep);
    } else {
      FilterDropsPrefix(s[1..], keep, k - 1);
      assert s[1..][k - 1..] == s[k..];
    }
  }

  lemma {:induction false} FilterAll<T(!new)>(s: seq<T>, keep: T -> bool)
    requires forall i :: 0 <= i < |s| ==> keep(s[i])
    ensures Filter(s, keep) == s
  {
    if |s| > 0 {
      FilterAll(s[1..], keep);
      assert s == [s[0]] + s[1..];
    }
  }

  /** `firstIndex(where:)`: the index of the first entry that satisfies
      `p`, or the length of the list when none does. */
  function FirstIndex<T>(s: seq<T>, p: T -> bool): (k: nat)
    ensures k <= |s|
    ensures forall i :: 0 <= i < k ==> !p(s[i])
    ensures k < |s| ==> p(s[k])
  {
    if |s| == 0 then 0
    else if p(s[0]) then 0
    else 1 + FirstIndex(s[1..], p)
  }

  /** A list that starts with `a + b` starts with `a`, and continues with
      `b`. */
  lemma PrefixOfAppend<T>(a: seq<T>, b: seq<T>, r: seq<T>)
    requires |r| >= |a + b| && r[..|a + b|] == a + b
    ensures r[..|a|] == a
    ensures forall i :: |a| <= i < |a| + |b| ==> r[i] == b[i - |a|]
  {
    assert r[..|a|] == r[..|a + b|][..|a|];
    forall i | |a| <= i < |a| + |b|
      ensures r[i] == b[i - |a|]
    {
      assert r[i] == r[..|a + b|][i];
    }
  }

  /** The entries of a non-empty list are its head and those of its tail. */
  lemma MultisetOfCons<T>(s: seq<T>)
    requires |s| > 0
    ensures multiset(s) == multiset{s[0]} + multiset(s[1..])
  {
    assert s == [s[0]] + s[1..];
  }
}

=== FILE: resorts.dfy ===
/** The resort catalog and the selected-resort lookup (Models/Resort.swift).
    Only the fields that reach gameplay are kept: the multipliers, the fog
    distances, the snow intensity and the slope length; colours,
    descriptions and the other cosmetic fields are dropped. */
module Resorts {
  import opened Numerics
  import opened Optional
  import opened Store
  import opened Catalog

  datatype Difficulty = Green | Blue | Black | DoubleBlack

  /** The SF Symbol name a difficulty is drawn with. */
  function Symbol(d: Difficulty): string {
    match d
    case Green => "circle.fill"
    case Blue => "square.fill"
    case Black => "diamond.fill"
    case DoubleBlack => "diamond.fill"
  }

  /** Black and double black share the diamond; every other pair of
      difficulties is told apart by its symbol. */
  lemma SymbolsIdentifyAllButBlack(a: Difficulty, b: Difficulty)
    ensures Symbol(a) == Symbol(b) <==> a == b || ((a.Black? || a.DoubleBlack?) && (b.Black? || b.DoubleBlack?))
  {
    assert "circle.fill"[0] != "square.fill"[0] && "square.fill"[0] != "diamond.fill"[0];
    assert "circle.fill"[0] != "diamond.fill"[0];
  }

  datatype Resort = Resort(
    id: string,
    name: string,
    difficulty: Difficulty,
    slopeLength: int,
    fogStart: real,
    fogEnd: real,
    snowIntensity: real,
    speedMultiplier: real,
    obstacleMultiplier: real,
    widthMultiplier: real)

  /** `ResortCatalog.all`, in catalog order. */
  const All: seq<Resort> := [
    Resort("alpine_meadows", "Alpine Meadows", Green, 0, 100.0, 180.0, 0.8, 0.85, 0.7, 1.3),
    Resort("pine_valley", "Pine Valley", Blue, 0, 80.0, 150.0, 1.0, 1.0, 1.0, 1.0),
    Resort("summit_peak", "Summit Peak", Blue, 0, 90.0, 170.0, 1.2, 1.05, 1.0, 1.1),
    Resort("thunder_bowl", "Thunder Bowl", Black, 0, 60.0, 120.0, 1.5, 1.15, 1.3, 0.85),
    Resort("glacier_extreme", "Glacier Extreme", DoubleBlack, 0, 40.0, 90.0, 2.0, 1.3, 1.6, 0.75),
    Resort("sakura_slopes", "Sakura Slopes", Blue, 0, 70.0, 140.0, 1.8, 0.95, 0.9, 1.05)
  ]

  /** The ids of the catalog, in order. */
  function Ids(): (r: seq<string>)
    ensures |r| == |All| && forall i :: 0 <= i < |All| ==> r[i] == All[i].id
  {
    seq(|All|, i requires 0 <= i < |All| => All[i].id)
  }

  /** A resort with positive gameplay multipliers: obstacle spacing divides
      by the obstacle multiplier and the terrain width scales with the
      width multiplier, so both must be positive for those to make sense. */
  predicate PlayableResort(r: Resort) {
    r.speedMultiplier > 0.0 && r.obstacleMultiplier > 0.0 && r.widthMultiplier > 0.0
  }

  /** Every catalog resort is playable, endless (slope length 0) and fogs
      in before it fogs out. */
  lemma CatalogResortsPlayable()
    ensures |All| == 6
    ensures forall r :: r in All ==> PlayableResort(r) && r.slopeLength == 0 && r.fogStart < r.fogEnd
  {
  }

  /** The six catalog ids are pairwise distinct. */
  lemma CatalogIdsDistinct()
    ensures forall i, j :: 0 <= i < j < |All| ==> All[i].id != All[j].id
  {
    forall i, j | 0 <= i < j < |All|
      ensures All[i].id != All[j].id
    {
      assert All[i].id[0] != All[j].id[0] || All[i].id[1] != All[j].id[1];
    }
  }

  const SelectedResortKey: string := "resort_selected"

  function SelectedResortIndex(d: Defaults): int { IntegerFor(d, SelectedResortKey) }

  /** `ResortManager.currentResort`: the catalog entry at the stored
      index, wrapped; `None` where Swift would trap on a negative
      remainder. */
  function CurrentResort(d: Defaults): (r: Option<Resort>)
    ensures r.Some? ==> r.value in All
    ensures SelectedResortIndex(d) >= 0 ==> r.Some?
    ensures SelectedResortKey !in d ==> r == Some(All[0])
  {
    EntryAt(All, SelectedResortIndex(d))
  }

  /** `selectedResortIndex`'s setter. */
  function SelectResort(d: Defaults, index: int): (r: Defaults)
    ensures SelectedResortIndex(r) == index
    ensures CurrentResort(r) == EntryAt(All, index)
  {
    d[SelectedResortKey := IntValue(index)]
  }

  /** A fresh install selects the first resort; any non-negative
      selection wraps around the six resorts, a negative multiple of six
      selects the first resort, and any other negative selection has no
      resort. */
  lemma CurrentResortWraps(d: Defaults, index: int)
    ensures CurrentResort(Empty) == Some(All[0])
    ensures index >= 0 ==> CurrentResort(SelectResort(d, index)) == Some(All[index % 6])
    ensures index >= 0 ==> CurrentResort(SelectResort(d, index + 6)) == CurrentResort(SelectResort(d, index))
    ensures index < 0 && index % 6 != 0 ==> CurrentResort(SelectResort(d, index)) == None
    ensures index < 0 && index % 6 == 0 ==> CurrentResort(SelectResort(d, index)) == Some(All[0])
  {
    if index >= 0 {
      EntryAtPeriodic(All, index);
    }
  }
}

=== FILE: scene.dfy ===
/** The game world's frame step and collision resolution
    (Game/GameScene.swift): the speed and distance of the run, the frame
    clock, and the four subsystems it drives. Camera, lights, fog and
    particles are rendering and are not modelled; the random draws the
    spawners make during a frame are a parameter. */
module Scene {
  import opened Numerics
  import opened Spatial
  import opened Ranking
  import P = Player
  import T = Terrain
  import O = Obstacles
  import K = Collectibles
  import C = Constants

  /** `playerStartPosition`. */
  const PlayerStart: Vec3 := Vec3(0.0, C.PlayerStartY, 0.0)

  /** `playerHalfExtent` and `collectibleHalfExtent`. */
  const PlayerHalfExtent: Vec3 := Vec3(C.PlayerHalfX, C.PlayerHalfY, C.PlayerHalfZ)
  const CollectibleHalfExtent: Vec3 := Vec3(C.CollectibleHalfExtent, C.CollectibleHalfExtent, C.CollectibleHalfExtent)

  datatype Scene = Scene(
    speed: real,
    distance: real,
    lastUpdateTime: real,
    active: bool,
    player: P.Player,
    terrain: T.Terrain,
    obstacles: O.Field,
    collectibles: K.Field)

  /** The random draws one frame's spawners make. */
  datatype FrameDraws = FrameDraws(rows: nat -> O.RowDraw, spawns: nat -> K.SpawnDraw, bob: nat -> K.BobOffset)

  /** What the scene keeps between frames: a positive resort multiplier
      (the obstacle spacing divides by it), a valid rider, a terrain whose
      chunks tile the slope, and collectible ids that identify. */
  ghost predicate Valid(s: Scene) {
    && s.obstacles.resortMultiplier > 0.0
    && P.Valid(s.player)
    && T.Contiguous(s.terrain) && T.NoiseTracksFrontier(s.terrain)
    && K.IdsFresh(s.collectibles)
  }

  /** The frame time of `update(atTime:)`: a nominal frame right after the
      clock was reset to zero, otherwise the time since the last frame, but
      never more than the cap. */
  function FrameDelta(lastUpdateTime: real, time: real): (dt: real)
    ensures lastUpdateTime == 0.0 ==> dt == C.NominalFrameTime
    ensures lastUpdateTime != 0.0 ==> dt <= C.MaxFrameTime
    ensures lastUpdateTime != 0.0 && time - lastUpdateTime <= C.MaxFrameTime ==> dt == time - lastUpdateTime
    ensures lastUpdateTime != 0.0 && time - lastUpdateTime > C.MaxFrameTime ==> dt == C.MaxFrameTime
    ensures lastUpdateTime == 0.0 || time >= lastUpdateTime ==> 0.0 <= dt
  {
    if lastUpdateTime == 0.0 then C.NominalFrameTime else Min(time - lastUpdateTime, C.MaxFrameTime)
  }

  /** The cap keeps every frame short enough for the rider's steering not
      to overshoot its target. */
  lemma FrameDeltaKeepsSteeringStable(lastUpdateTime: real, time: real)
    ensures C.LateralSpeed * FrameDelta(lastUpdateTime, time) <= 1.0
  {
  }

  /** The distance after a frame at `speed` lasting `dt`; it never goes
      back while both are non-negative. */
  function Advance(distance: real, speed: real, dt: real): (r: real)
    ensures r - distance == speed * dt
    ensures 0.0 <= speed && 0.0 <= dt ==> distance <= r
  {
    assert 0.0 <= speed && 0.0 <= dt ==> 0.0 <= speed * dt by {
      if 0.0 <= speed && 0.0 <= dt {
        MulNonNegative(speed, dt);
      }
    }
    distance + speed * dt
  }

  /** The speed after a frame: the acceleration over the frame, clamped
      to the maximum. */
  function Accelerate(speed: real, dt: real): (r: real)
    ensures r <= C.MaxSpeed
    ensures speed + C.Acceleration * dt <= C.MaxSpeed ==> r == speed + C.Acceleration * dt
    ensures speed + C.Acceleration * dt > C.MaxSpeed ==> r == C.MaxSpeed
  {
    Min(speed + C.Acceleration * dt, C.MaxSpeed)
  }

  /** The terrain and both spawners follow the rider to `playerZ`. */
  function FollowRider(s: Scene, playerZ: real, draws: FrameDraws): (r: Scene)
    requires s.obstacles.resortMultiplier > 0.0
    ensures r.terrain.nextChunkZ <= playerZ - C.TerrainLookAhead
    ensures r.obstacles.nextSpawnZ <= playerZ - C.ObstacleLookAhead
    ensures r.collectibles.nextSpawnZ <= playerZ - C.CollectibleLookAhead
    ensures forall o :: o in r.obstacles.active ==> O.Kept(playerZ, o)
    ensures forall c :: c in r.collectibles.active ==> K.Kept(playerZ, c)
    ensures r == s.(terrain := r.terrain, obstacles := r.obstacles, collectibles := r.collectibles)
    ensures r.terrain == T.Update(s.terrain, playerZ)
    ensures r.obstacles == O.Update(s.obstacles, playerZ, draws.rows)
    ensures r.collectibles == K.Update(s.collectibles, playerZ, draws.spawns, draws.bob)
    ensures r.obstacles.resortMultiplier == s.obstacles.resortMultiplier
    ensures T.Contiguous(s.terrain) && T.NoiseTracksFrontier(s.terrain) ==>
      T.Contiguous(r.terrain) && T.NoiseTracksFrontier(r.terrain)
    ensures K.IdsFresh(s.collectibles) ==> K.IdsFresh(r.collectibles)
  {
    assert T.Contiguous(s.terrain) && T.NoiseTracksFrontier(s.terrain) ==>
      T.Contiguous(T.Update(s.terrain, playerZ)) && T.NoiseTracksFrontier(T.Update(s.terrain, playerZ)) by {
      if T.Contiguous(s.terrain) && T.NoiseTracksFrontier(s.terrain) {
        T.UpdateKeepsInvariants(s.terrain, playerZ);
      }
    }
    s.(terrain := T.Update(s.terrain, playerZ),
       obstacles := O.Update(s.obstacles, playerZ, draws.rows),
       collectibles := K.Update(s.collectibles, playerZ, draws.spawns, draws.bob))
  }

  /** `update(atTime:)`. An inactive scene ignores the frame. Otherwise the
      clock advances to `time`, the speed grows by the acceleration but is
      clamped to the maximum, the distance grows by the new speed over the
      frame, the rider moves, and the terrain and both spawners follow the
      rider's new position. */
  function Update(s: Scene, time: real, draws: FrameDraws): (r: Scene)
    requires s.obstacles.resortMultiplier > 0.0
    ensures !s.active ==> r == s
    ensures s.active ==>
      var dt := FrameDelta(s.lastUpdateTime, time);
      && r.active && r.lastUpdateTime == time
      && r.speed == Accelerate(s.speed, dt)
      && r.distance == Advance(s.distance, r.speed, dt)
      && r.player == P.Update(s.player, dt, r.speed)
      && r.terrain.nextChunkZ <= r.player.position.z - C.TerrainLookAhead
      && r.obstacles.nextSpawnZ <= r.player.position.z - C.ObstacleLookAhead
      && r.collectibles.nextSpawnZ <= r.player.position.z - C.CollectibleLookAhead
      && (forall o :: o in r.obstacles.active ==> O.Kept(r.player.position.z, o))
      && (forall c :: c in r.collectibles.active ==> K.Kept(r.player.position.z, c))
      && r.terrain == T.Update(s.terrain, r.player.position.z)
      && r.obstacles == O.Update(s.obstacles, r.player.position.z, draws.rows)
      && r.collectibles == K.Update(s.collectibles, r.player.position.z, draws.spawns, draws.bob)
    ensures Valid(s) ==> Valid(r)
  {
    if !s.active then s
    else
      var dt := FrameDelta(s.lastUpdateTime, time);
      var speed := Accelerate(s.speed, dt);
      var player := P.Update(s.player, dt, speed);
      FollowRider(s.(speed := speed, distance := Advance(s.distance, speed, dt), lastUpdateTime := time, player := player),
                  player.position.z, draws)
  }

  /** With a clock that does not run backwards and a non-negative speed,
      a frame never shortens the run; and below the maximum the speed never
      drops. A speed boost can leave the speed above the maximum, and then
      the next frame's clamp brings it back down. */
  lemma FrameMovesForward(s: Scene, time: real, draws: FrameDraws)
    requires s.obstacles.resortMultiplier > 0.0 && s.active
    requires s.lastUpdateTime == 0.0 || time >= s.lastUpdateTime
    requires 0.0 <= s.speed
    ensures s.distance <= Update(s, time, draws).distance
    ensures s.speed <= C.MaxSpeed ==> s.speed <= Update(s, time, draws).speed
    ensures s.speed > C.MaxSpeed ==> Update(s, time, draws).speed == C.MaxSpeed
  {
    var dt := FrameDelta(s.lastUpdateTime, time);
    MulNonNegative(C.Acceleration, dt);
  }

  /** `startGame`: the scene becomes active with the initial speed, no
      distance, and the clock reset so the first frame is a nominal one. */
  function StartGame(s: Scene): (r: Scene)
    ensures r.active && r.speed == C.InitialSpeed && r.distance == 0.0 && r.lastUpdateTime == 0.0
    ensures r.player == s.player && r.terrain == s.terrain
    ensures r.obstacles == s.obstacles && r.collectibles == s.collectibles
  {
    s.(active := true, speed := C.InitialSpeed, distance := 0.0, lastUpdateTime := 0.0)
  }

  /** `stopGame`: only the activity flag changes. */
  function StopGame(s: Scene): (r: Scene)
    ensures !r.active && r == s.(active := r.active)
  {
    s.(active := false)
  }

  /** The first frame after a start runs with the nominal frame time,
      whatever the clock says: the run starts at the initial speed plus one
      nominal frame of acceleration. */
  lemma FirstFrameIsNominal(s: Scene, time: real, draws: FrameDraws)
    requires s.obstacles.resortMultiplier > 0.0
    ensures var r := Update(StartGame(s), time, draws);
      && r.speed == C.InitialSpeed + C.Acceleration / 60.0
      && r.distance == r.speed / 60.0
      && r.lastUpdateTime == time
  {
    var started := StartGame(s);
    assert started.active && started.lastUpdateTime == 0.0 && started.speed == C.InitialSpeed;
    var dt := FrameDelta(0.0, time);
    assert dt == C.NominalFrameTime;
    var speed := Accelerate(C.InitialSpeed, dt);
    assert speed == C.InitialSpeed + C.Acceleration / 60.0;
    assert Advance(0.0, speed, dt) == speed / 60.0;
  }

  /** `resetScene`: both spawners are emptied, the terrain is laid again,
      the rider is put back at the start position and at rest, and the run's
      speed, distance and clock return to their initial values. Whether the
      scene is active is left as it was. */
  function ResetScene(s: Scene): (r: Scene)
    ensures r.active == s.active
    ensures r.speed == C.InitialSpeed && r.distance == 0.0 && r.lastUpdateTime == 0.0
    ensures r.player == P.Rest(PlayerStart)
    ensures r.obstacles.active == [] && r.collectibles.active == [] && |r.terrain.chunks| == C.InitialChunkCount
    ensures r.obstacles.resortMultiplier == s.obstacles.resortMultiplier
    ensures s.obstacles.resortMultiplier > 0.0 ==> Valid(r)
  {
    Scene(C.InitialSpeed, 0.0, 0.0, s.active,
          P.Reset(s.player.(position := PlayerStart)),
          T.Reset(s.terrain),
          O.RemoveAll(s.obstacles),
          K.RemoveAll(s.collectibles))
  }

  /** Resetting twice is resetting once. */
  lemma ResetSceneIdempotent(s: Scene)
    ensures ResetScene(ResetScene(s)) == ResetScene(s)
  {
    T.ResetIdempotent(s.terrain);
  }

  /** The outcome of a collision check. */
  datatype Hit = NoHit | ObstacleHit(obstacle: O.Obstacle) | CollectibleHit(collectible: K.Collectible)

  datatype Collision = Collision(hit: Hit, scene: Scene)

  function PlayerBox(s: Scene): BoundingBox {
    BoundingBox(s.player.position, PlayerHalfExtent)
  }

  function ObstacleBox(o: O.Obstacle): BoundingBox {
    BoundingBox(o.position, o.halfExtent)
  }

  function CollectibleBox(c: K.Collectible): BoundingBox {
    BoundingBox(c.position, CollectibleHalfExtent)
  }

  /** Whether an obstacle, or a collectible, overlaps the rider. */
  function HitsObstacle(s: Scene): O.Obstacle -> bool {
    (o: O.Obstacle) => Intersects(PlayerBox(s), ObstacleBox(o))
  }

  function HitsCollectible(s: Scene): K.Collectible -> bool {
    (c: K.Collectible) => Intersects(PlayerBox(s), CollectibleBox(c))
  }

  /** `checkCollisions`. The obstacles are tried in list order and the
      first one overlapping the rider is the result, with nothing changed.
      Only when no obstacle overlaps are the collectibles tried, in list
      order; the first one overlapping is collected, leaving the active
      list, and is the result. When nothing overlaps, nothing changes. */
  function CheckCollisions(s: Scene): (r: Collision)
    ensures r.hit.ObstacleHit? <==> exists i :: 0 <= i < |s.obstacles.active| && HitsObstacle(s)(s.obstacles.active[i])
    ensures r.hit.ObstacleHit? ==>
      && r.scene == s
      && exists k :: 0 <= k < |s.obstacles.active| && r.hit.obstacle == s.obstacles.active[k]
           && HitsObstacle(s)(s.obstacles.active[k])
           && forall i :: 0 <= i < k ==> !HitsObstacle(s)(s.obstacles.active[i])
    ensures r.hit.CollectibleHit? ==>
      && (forall i :: 0 <= i < |s.obstacles.active| ==> !HitsObstacle(s)(s.obstacles.active[i]))
      && r.scene == s.(collectibles := K.Collect(s.collectibles, r.hit.collectible.id))
      && exists k :: 0 <= k < |s.collectibles.active| && r.hit.collectible == s.collectibles.active[k]
           && HitsCollectible(s)(s.collectibles.active[k])
           && forall i :: 0 <= i < k ==> !HitsCollectible(s)(s.collectibles.active[i])
    ensures r.hit.NoHit? <==>
      && (forall i :: 0 <= i < |s.obstacles.active| ==> !HitsObstacle(s)(s.obstacles.active[i]))
      && (forall i :: 0 <= i < |s.collectibles.active| ==> !HitsCollectible(s)(s.collectibles.active[i]))
    ensures r.hit.NoHit? ==> r.scene == s
  {
    var obstacles := s.obstacles.active;
    var k := FirstIndex(obstacles, HitsObstacle(s));
    if k < |obstacles| then Collision(ObstacleHit(obstacles[k]), s)
    else
      var collectibles := s.collectibles.active;
      var j := FirstIndex(collectibles, HitsCollectible(s));
      if j < |collectibles| then
        Collision(CollectibleHit(collectibles[j]),
                  s.(collectibles := K.Collect(s.collectibles, collectibles[j].id)))
      else Collision(NoHit, s)
  }

  /** A collected item leaves the scene: exactly that one collectible is
      gone from the active list, every other stays in its order, the ids
      still identify, and nothing but the collectibles changes. */
  lemma CollectedItemLeaves(s: Scene)
    requires Valid(s) && CheckCollisions(s).hit.CollectibleHit?
    ensures var r := CheckCollisions(s); var c := r.hit.collectible;
      && c in s.collectibles.active && c !in r.scene.collectibles.active
      && multiset(r.scene.collectibles.active) == multiset(s.collectibles.active) - multiset{c}
      && Valid(r.scene)
      && r.scene == s.(collectibles := r.scene.collectibles)
  {
    var r := CheckCollisions(s);
    var k :| 0 <= k < |s.collectibles.active| && r.hit.collectible == s.collectibles.active[k]
             && HitsCollectible(s)(s.collectibles.active[k])
             && forall i :: 0 <= i < k ==> !HitsCollectible(s)(s.collectibles.active[i]);
    K.CollectRemovesExactlyIt(s.collectibles, k);
  }

  /** The check keeps the scene valid whatever it finds. */
  lemma CheckKeepsValid(s: Scene)
    requires Valid(s)
    ensures Valid(CheckCollisions(s).scene)
  {
    if CheckCollisions(s).hit.CollectibleHit? {
      CollectedItemLeaves(s);
    }
  }
}

=== FILE: score_manager.dfy ===
/** High score, top-ten list and lifetime totals (ScoreManager.swift),
    as functions over the key-value store. */
module ScoreManager {
  import opened Numerics
  import opened Ranking
  import opened Store

  const HighScoreKey: string := "alpine_highScore"
  const HighScoresKey: string := "alpine_highScores"
  const TotalCoinsKey: string := "alpine_totalCoins"
  const TotalDistanceKey: string := "alpine_totalDistance"
  const GamesPlayedKey: string := "alpine_gamesPlayed"
  const BestDistanceKey: string := "alpine_bestDistance"

  const Keys: set<string> :=
    {HighScoreKey, HighScoresKey, TotalCoinsKey, TotalDistanceKey, GamesPlayedKey, BestDistanceKey}

  /** How many entries the top-score list keeps. */
  const TopScoreCount: nat := 10

  function HighScore(d: Defaults): int { IntegerFor(d, HighScoreKey) }
  function TotalCoins(d: Defaults): int { IntegerFor(d, TotalCoinsKey) }
  function TotalDistance(d: Defaults): int { IntegerFor(d, TotalDistanceKey) }
  function GamesPlayed(d: Defaults): int { IntegerFor(d, GamesPlayedKey) }
  function BestDistance(d: Defaults): int { IntegerFor(d, BestDistanceKey) }

  /** The stored top-score list, or the empty list when none decodes. */
  function TopScores(d: Defaults): seq<ScoreEntry> {
    if HighScoresKey in d && d[HighScoresKey].ScoreList? then d[HighScoresKey].scores else []
  }

  function ScoreOf(e: ScoreEntry): int { e.score }

  /** Records a finished game: one more game played, the high score raised
      to `score` if it beats it, and the entry ranked into the top ten.
      The lifetime totals are untouched. */
  function SubmitScore(d: Defaults, score: int, now: real): (r: Defaults)
    ensures GamesPlayed(r) == GamesPlayed(d) + 1
    ensures HighScore(r) == MaxInt(HighScore(d), score)
    ensures TopScores(r) == RankIn(TopScores(d), ScoreEntry(score, now), ScoreOf, TopScoreCount)
    ensures TotalCoins(r) == TotalCoins(d) && TotalDistance(r) == TotalDistance(d)
    ensures BestDistance(r) == BestDistance(d)
  {
    var played := d[GamesPlayedKey := IntValue(GamesPlayed(d) + 1)];
    var raised := if score > HighScore(d) then played[HighScoreKey := IntValue(score)] else played;
    var ranked := RankIn(TopScores(d), ScoreEntry(score, now), ScoreOf, TopScoreCount);
    var r := raised[HighScoresKey := ScoreList(ranked)];
    SubmitScoreReads(d, played, raised, ScoreList(ranked), r, score);
    r
  }

  /** What the three writes of `SubmitScore` do to the six counters. */
  lemma SubmitScoreReads(d: Defaults, played: Defaults, raised: Defaults, v: Value, r: Defaults, score: int)
    requires played == d[GamesPlayedKey := IntValue(GamesPlayed(d) + 1)]
    requires raised == if score > HighScore(d) then played[HighScoreKey := IntValue(score)] else played
    requires r == raised[HighScoresKey := v]
    ensures GamesPlayed(r) == GamesPlayed(d) + 1
    ensures HighScore(r) == MaxInt(HighScore(d), score)
    ensures TotalCoins(r) == TotalCoins(d) && TotalDistance(r) == TotalDistance(d)
    ensures BestDistance(r) == BestDistance(d)
  {
    forall key | key in {TotalCoinsKey, TotalDistanceKey, BestDistanceKey}
      ensures IntegerFor(r, key) == IntegerFor(d, key)
    {
      IntegerForOtherKey(d, GamesPlayedKey, IntValue(GamesPlayed(d) + 1), key);
      IntegerForOtherKey(played, HighScoreKey, IntValue(score), key);
      IntegerForOtherKey(raised, HighScoresKey, v, key);
    }
    IntegerForOtherKey(d, GamesPlayedKey, IntValue(GamesPlayed(d) + 1), HighScoreKey);
    IntegerForOtherKey(raised, HighScoresKey, v, HighScoreKey);
    IntegerForOtherKey(played, HighScoreKey, IntValue(score), GamesPlayedKey);
    IntegerForOtherKey(raised, HighScoresKey, v, GamesPlayedKey);
  }

  /** Submitting a score writes only the statistics keys; every other
      entry of the store, such as the leaderboards, is kept. */
  lemma SubmitScoreKeepsOtherKeys(d: Defaults, score: int, now: real)
    ensures AgreeOutside(d, SubmitScore(d, score, now), Keys)
  {
    var played := d[GamesPlayedKey := IntValue(GamesPlayed(d) + 1)];
    var raised := if score > HighScore(d) then played[HighScoreKey := IntValue(score)] else played;
    var ranked := RankIn(TopScores(d), ScoreEntry(score, now), ScoreOf, TopScoreCount);
    AgreeOutsideRefl(d, Keys);
    AgreeOutsideUpdate(d, d, GamesPlayedKey, IntValue(GamesPlayed(d) + 1), Keys);
    if score > HighScore(d) {
      AgreeOutsideUpdate(d, played, HighScoreKey, IntValue(score), Keys);
    }
    AgreeOutsideUpdate(d, raised, HighScoresKey, ScoreList(ranked), Keys);
  }

  /** Adds `count` coins to the lifetime total and changes nothing else. */
  function AddCoins(d: Defaults, count: int): (r: Defaults)
    ensures TotalCoins(r) == TotalCoins(d) + count
  {
    d[TotalCoinsKey := IntValue(TotalCoins(d) + count)]
  }

  /** Adds a run's distance to the lifetime total and raises the best
      distance to it if it is longer; nothing else changes. */
  function UpdateDistance(d: Defaults, distance: int): (r: Defaults)
    ensures TotalDistance(r) == TotalDistance(d) + distance
    ensures BestDistance(r) == MaxInt(BestDistance(d), distance)
    ensures TotalCoins(r) == TotalCoins(d) && HighScore(r) == HighScore(d)
  {
    var added := d[TotalDistanceKey := IntValue(TotalDistance(d) + distance)];
    if distance > BestDistance(added) then added[BestDistanceKey := IntValue(distance)] else added
  }

  /** A score is a new high score only when it strictly beats the stored
      one, that is, exactly when submitting it would raise the stored high
      score. */
  predicate IsHighScore(d: Defaults, score: int)
    ensures IsHighScore(d, score) <==> forall now :: HighScore(SubmitScore(d, score, now)) > HighScore(d)
  {
    assert HighScore(SubmitScore(d, score, 0.0)) == MaxInt(HighScore(d), score);
    score > HighScore(d)
  }

  /** Forgets every statistic: all counters read 0 and the top-score list
      is empty; keys of other stores are kept. */
  function ResetAll(d: Defaults): (r: Defaults)
    ensures HighScore(r) == 0 && TotalCoins(r) == 0 && TotalDistance(r) == 0
    ensures GamesPlayed(r) == 0 && BestDistance(r) == 0
    ensures TopScores(r) == []
  {
    d - Keys
  }

  /** Adding coins, adding a distance and resetting the statistics each
      leave every key outside the ones they own as it was. */
  lemma UpdatesKeepOtherKeys(d: Defaults, count: int, distance: int)
    ensures AgreeOutside(d, AddCoins(d, count), {TotalCoinsKey})
    ensures AgreeOutside(d, UpdateDistance(d, distance), {TotalDistanceKey, BestDistanceKey})
    ensures AgreeOutside(d, ResetAll(d), Keys)
  {
  }

  /** After a score has been submitted it is never reported as a new high
      score: submission already raised the stored high score to it. */
  lemma SubmittedScoreIsNeverHigh(d: Defaults, score: int, now: real)
    ensures !IsHighScore(SubmitScore(d, score, now), score)
  {
  }

  /** The high-score tracking of the unit tests: after 100, 200 and 150 the
      high score is 200, and only a strictly larger score beats it. */
  lemma HighScoreScenario(d: Defaults, t1: real, t2: real, t3: real)
    ensures var s := SubmitScore(SubmitScore(SubmitScore(ResetAll(d), 100, t1), 200, t2), 150, t3);
      && HighScore(s) == 200 && GamesPlayed(s) == 3
      && IsHighScore(s, 201) && !IsHighScore(s, 200) && !IsHighScore(s, 50)
  {
  }

  /** The coin accumulation of the unit tests: 10 then 5 gives 15. */
  lemma CoinScenario(d: Defaults)
    ensures TotalCoins(AddCoins(ResetAll(d), 10)) == 10
    ensures TotalCoins(AddCoins(AddCoins(ResetAll(d), 10), 5)) == 15
  {
  }

  /** The distance tracking of the unit tests: runs of 100, 50 and 200
      give best distances 100, 100, 200 and a total of 350. */
  lemma DistanceScenario(d: Defaults)
    ensures var s1 := UpdateDistance(ResetAll(d), 100);
      var s2 := UpdateDistance(s1, 50);
      var s3 := UpdateDistance(s2, 200);
      && BestDistance(s1) == 100 && TotalDistance(s1) == 100
      && BestDistance(s2) == 100 && TotalDistance(s2) == 150
      && BestDistance(s3) == 200 && TotalDistance(s3) == 350
  {
  }

  /** Submitting to a list shorter than ten keeps every old entry and adds
      the new one. */
  lemma SubmitToShortList(d: Defaults, score: int, now: real)
    requires |TopScores(d)| < TopScoreCount
    ensures var top := TopScores(SubmitScore(d, score, now));
      && SortedDesc(top, ScoreOf)
      && |top| == |TopScores(d)| + 1
      && multiset(top) == multiset(TopScores(d)) + multiset{ScoreEntry(score, now)}
  {
  }

  /** A sequence of finished games submitted in order. */
  function SubmitAll(d: Defaults, games: seq<ScoreEntry>): (r: Defaults)
    ensures GamesPlayed(r) == GamesPlayed(d) + |games|
    decreases |games|
  {
    if |games| == 0 then d
    else SubmitAll(SubmitScore(d, games[0].score, games[0].date), games[1..])
  }

  /** The larger of `h` and every score in `games`. */
  function Highest(h: int, games: seq<ScoreEntry>): int
    decreases |games|
  {
    if |games| == 0 then h else Highest(MaxInt(h, games[0].score), games[1..])
  }

  /** While the list has room, submitting games keeps every one of them:
      the list then holds exactly the old entries and the new games,
      ordered by score, and the high score is the highest of them all. */
  lemma SubmitAllToShortList(d: Defaults, games: seq<ScoreEntry>)
    requires |TopScores(d)| + |games| <= TopScoreCount
    ensures var r := SubmitAll(d, games);
      && multiset(TopScores(r)) == multiset(TopScores(d)) + multiset(games)
      && |TopScores(r)| == |TopScores(d)| + |games|
      && (|games| > 0 ==> SortedDesc(TopScores(r), ScoreOf))
      && HighScore(r) == Highest(HighScore(d), games)
  {
    SubmitAllKeepsEvery(d, games);
    SubmitAllHighest(d, games);
  }

  /** The list half of the lemma above. */
  lemma {:induction false} SubmitAllKeepsEvery(d: Defaults, games: seq<ScoreEntry>)
    requires |TopScores(d)| + |games| <= TopScoreCount
    ensures var r := SubmitAll(d, games);
      && multiset(TopScores(r)) == multiset(TopScores(d)) + multiset(games)
      && |TopScores(r)| == |TopScores(d)| + |games|
      && (|games| > 0 ==> SortedDesc(TopScores(r), ScoreOf))
    decreases |games|
  {
    if |games| > 0 {
      var next := SubmitScore(d, games[0].score, games[0].date);
      SubmitAllStep(d, games);
      MultisetOfCons(games);
      SubmitToShortList(d, games[0].score, games[0].date);
      SubmitAllKeepsEvery(next, games[1..]);
    }
  }

  /** The high-score half: after any sequence of games the stored high
      score is the highest of the old one and every game's score. */
  lemma {:induction false} SubmitAllHighest(d: Defaults, games: seq<ScoreEntry>)
    ensures HighScore(SubmitAll(d, games)) == Highest(HighScore(d), games)
    decreases |games|
  {
    if |games| > 0 {
      SubmitAllStep(d, games);
      SubmitAllHighest(SubmitScore(d, games[0].score, games[0].date), games[1..]);
    }
  }

  /** Submitting a non-empty list is submitting its first game and then
      the rest. */
  lemma SubmitAllStep(d: Defaults, games: seq<ScoreEntry>)
    requires |games| > 0
    ensures var next := SubmitScore(d, games[0].score, games[0].date);
      && SubmitAll(d, games) == SubmitAll(next, games[1..])
      && Highest(HighScore(d), games) == Highest(HighScore(next), games[1..])
  {
  }

  /** In a list ordered highest first, the first entry has the largest
      score and the last the smallest. */
  lemma EndsOfRanking(top: seq<ScoreEntry>)
    requires SortedDesc(top, ScoreOf) && |top| > 0
    ensures forall x :: x in multiset(top) ==> top[0].score >= x.score >= top[|top| - 1].score
  {
    forall x | x in multiset(top)
      ensures top[0].score >= x.score >= top[|top| - 1].score
    {
      var i :| 0 <= i < |top| && top[i] == x;
      assert ScoreOf(top[0]) >= ScoreOf(top[i]) >= ScoreOf(top[|top| - 1]);
    }
  }

  /** The five scores of the unit tests, in the order they are submitted. */
  function ScenarioGames(t1: real, t2: real, t3: real, t4: real, t5: real): seq<ScoreEntry> {
    [ScoreEntry(100, t1), ScoreEntry(200, t2), ScoreEntry(50, t3), ScoreEntry(300, t4), ScoreEntry(150, t5)]
  }

  lemma ScenarioHighest(t1: real, t2: real, t3: real, t4: real, t5: real)
    ensures Highest(0, ScenarioGames(t1, t2, t3, t4, t5)) == 300
  {
    var games := ScenarioGames(t1, t2, t3, t4, t5);
    var g1, g2, g3, g4 := games[1..], games[2..], games[3..], games[4..];
    assert g1[1..] == g2 && g2[1..] == g3 && g3[1..] == g4 && g4[1..] == [];
    assert Highest(300, g4) == 300;
    assert Highest(300, g3) == 300;
    assert Highest(200, g2) == 300;
  }

  lemma ScenarioRanking(top: seq<ScoreEntry>, t1: real, t2: real, t3: real, t4: real, t5: real)
    requires SortedDesc(top, ScoreOf)
    requires multiset(top) == multiset(ScenarioGames(t1, t2, t3, t4, t5))
    ensures |top| == 5 && top[0].score == 300 && top[4].score == 50
  {
    var games := ScenarioGames(t1, t2, t3, t4, t5);
    assert |top| == |multiset(top)| == 5;
    EndsOfRanking(top);
    assert top[0] in multiset(top) && top[4] in multiset(top);
    assert games[3] in multiset(top) && games[2] in multiset(top);
  }

  /** The top-score list of the unit tests: submitting 100, 200, 50, 300
      and 150 to an empty store lists all five, from 300 down to 50. */
  lemma TopScoresScenario(d: Defaults, t1: real, t2: real, t3: real, t4: real, t5: real)
    ensures var s := SubmitAll(ResetAll(d), ScenarioGames(t1, t2, t3, t4, t5));
      && HighScore(s) == 300 && GamesPlayed(s) == 5
      && |TopScores(s)| == 5
      && TopScores(s)[0].score == 300 && TopScores(s)[4].score == 50
  {
    var games := ScenarioGames(t1, t2, t3, t4, t5);
    SubmitAllToShortList(ResetAll(d), games);
    ScenarioHighest(t1, t2, t3, t4, t5);
    ScenarioRanking(TopScores(SubmitAll(ResetAll(d), games)), t1, t2, t3, t4, t5);
  }
}

=== FILE: session.dfy ===
/** The session orchestrator (Game/GameManager.swift): the game's state
    machine, the run's score, coins, multiplier and trick combo, collision
    outcomes, and the hand-over of the final score to the score statistics.
    The heads-up display and the game-over screen are the outputs: every
    value the manager hands them is recorded. Audio is left out. */
module Session {
  import opened Numerics
  import opened Optional
  import opened Store
  import S = Scene
  import K = Collectibles
  import ScoreManager
  import C = Constants

  datatype GameState = Menu | Playing | Paused | GameOver

  /** One value handed to the heads-up display. */
  datatype HudEvent =
    | ScoreShown(score: int)
    | CoinsShown(coins: int)
    | MultiplierShown(multiplier: int)
    | SpeedShown(speed: real)
    | TrickPointsShown(points: int)

  /** What the game-over screen is told. */
  datatype Report = Report(score: int, distance: int, coins: int, isHighScore: bool)

  /** The manager's state, the scene it drives once configured, the
      heads-up display's log, the last game-over report, and the stored
      statistics it submits to. */
  datatype Session = Session(
    state: GameState,
    scene: Option<S.Scene>,
    score: int,
    coins: int,
    trickScore: int,
    multiplier: int,
    consecutiveTricks: int,
    hud: seq<HudEvent>,
    report: Option<Report>,
    store: Defaults)

  /** The manager as it starts: in the menu, no scene, multiplier 1. It is
      valid, has shown nothing and reported nothing, and reads the stored
      statistics it was given. */
  function New(store: Defaults): (r: Session)
    ensures Valid(r) && r.state == Menu && r.scene.None?
    ensures r.score == 0 && r.coins == 0 && r.hud == [] && r.report.None? && r.store == store
  {
    Session(Menu, None, 0, 0, 0, 1, 0, [], None, store)
  }

  /** `configure(with:)`: the manager drives the given scene from now on;
      the game state, the run, the display and the statistics are untouched.
      A valid scene that runs exactly when the state says so keeps the
      manager valid, and a scene with a positive resort multiplier can run
      frames. */
  function Configure(g: Session, scene: S.Scene): (r: Session)
    ensures r.scene == Some(scene)
    ensures r.state == g.state && r.score == g.score && r.coins == g.coins && r.multiplier == g.multiplier
    ensures r.trickScore == g.trickScore && r.consecutiveTricks == g.consecutiveTricks
    ensures r.hud == g.hud && r.report == g.report && r.store == g.store
    ensures Valid(g) && S.Valid(scene) && (g.state == Playing ==> scene.active) && (g.state == Paused ==> !scene.active)
      ==> Valid(r)
    ensures scene.obstacles.resortMultiplier > 0.0 ==> SceneReady(r)
  {
    g.(scene := Some(scene))
  }

  /** What the manager keeps: the multiplier within `[1, maxMultiplier]`,
      no negative counters, a valid scene, and a scene that runs exactly
      while the game is being played or is over before the next start
      (a paused scene is stopped, a playing one is running). */
  ghost predicate Valid(g: Session) {
    && 1 <= g.multiplier <= C.MaxMultiplier
    && 0 <= g.coins && 0 <= g.consecutiveTricks && 0 <= g.trickScore
    && (g.scene.Some? ==> S.Valid(g.scene.value))
    && (g.scene.Some? && g.state == Playing ==> g.scene.value.active)
    && (g.scene.Some? && g.state == Paused ==> !g.scene.value.active)
  }

  /** `gameScene?.stopGame()`: stops the scene if there is one. */
  function StopScene(scene: Option<S.Scene>): (r: Option<S.Scene>)
    ensures r.Some? <==> scene.Some?
    ensures r.Some? ==> r.value == scene.value.(active := false)
  {
    match scene
    case None => None
    case Some(s) => Some(S.StopGame(s))
  }

  /** `startGame`. Without a scene nothing happens. Otherwise the game is
      playing with a fresh run: score, coins, trick score and combo at zero,
      multiplier 1, the scene reset and started, and the display told the
      new score, coins and multiplier. */
  function StartGame(g: Session): (r: Session)
    ensures g.scene.None? ==> r == g
    ensures g.scene.Some? ==>
      && r.state == Playing && r.scene.Some?
      && r.score == 0 && r.coins == 0 && r.trickScore == 0 && r.multiplier == 1 && r.consecutiveTricks == 0
      && r.scene.value == S.StartGame(S.ResetScene(g.scene.value))
      && r.hud == g.hud + [ScoreShown(0), CoinsShown(0), MultiplierShown(1)]
      && r.report == g.report && r.store == g.store
    ensures g.scene.Some? && g.scene.value.obstacles.resortMultiplier > 0.0 ==> Valid(r)
  {
    match g.scene
    case None => g
    case Some(s) =>
      Session(Playing, Some(S.StartGame(S.ResetScene(s))), 0, 0, 0, 1, 0,
              g.hud + [ScoreShown(0), CoinsShown(0), MultiplierShown(1)], g.report, g.store)
  }

  /** Starting needs a scene: a new manager ignores `startGame`, while one
      configured with a scene of a positive resort multiplier starts a
      valid game whose scene runs and can run frames. */
  lemma ConfigureThenStart(store: Defaults, g: Session, scene: S.Scene)
    requires scene.obstacles.resortMultiplier > 0.0
    ensures StartGame(New(store)) == New(store)
    ensures var r := StartGame(Configure(g, scene));
      r.state == Playing && Valid(r) && SceneReady(r) && r.scene.Some? && r.scene.value.active
  {
  }

  /** `pauseGame`: only a game being played pauses, and its scene stops. */
  function PauseGame(g: Session): (r: Session)
    ensures g.state != Playing ==> r == g
    ensures g.state == Playing ==> r == g.(state := Paused, scene := StopScene(g.scene))
    ensures Valid(g) ==> Valid(r)
  {
    if g.state != Playing then g else g.(state := Paused, scene := StopScene(g.scene))
  }

  /** `resumeGame`: only a paused game resumes, and its scene runs again. */
  function ResumeGame(g: Session): (r: Session)
    ensures g.state != Paused ==> r == g
    ensures g.state == Paused ==> r.state == Playing && r == g.(state := Playing, scene := r.scene)
    ensures g.state == Paused ==> (r.scene.Some? <==> g.scene.Some?)
    ensures g.state == Paused && g.scene.Some? ==> r.scene.value == g.scene.value.(active := true)
    ensures Valid(g) ==> Valid(r)
  {
    if g.state != Paused then g
    else
      match g.scene
      case None => g.(state := Playing)
      case Some(s) => g.(state := Playing, scene := Some(s.(active := true)))
  }

  /** Pausing and resuming gives back the game as it was, and so does
      resuming and pausing. */
  lemma PauseResumeRoundTrip(g: Session)
    requires Valid(g)
    ensures g.state == Playing ==> ResumeGame(PauseGame(g)) == g
    ensures g.state == Paused ==> PauseGame(ResumeGame(g)) == g
  {
  }

  /** `calculateFinalScore`: the score times the multiplier. */
  function FinalScore(g: Session): (r: int)
    ensures g.score >= 0 && g.multiplier >= 1 ==> r >= g.score
    ensures g.multiplier == 1 ==> r == g.score
  {
    assert g.score >= 0 && g.multiplier >= 1 ==> g.score * (g.multiplier - 1) >= 0 by {
      if g.score >= 0 && g.multiplier >= 1 { ProductNonNegative(g.score, g.multiplier - 1); }
    }
    g.score * g.multiplier
  }

  /** The distance the game-over screen shows: the scene's distance
      truncated, or 0 without a scene. */
  function ReportedDistance(scene: Option<S.Scene>): (r: int)
    ensures scene.Some? && scene.value.distance >= 0.0 ==> 0 <= r && r as real <= scene.value.distance
    ensures scene.None? ==> r == 0
  {
    match scene
    case None => 0
    case Some(s) => Trunc(s.distance)
  }

  /** `endGame` as the source writes it: the game is over, the scene stops,
      the final score is submitted, and only then is the game-over screen
      told whether that score is a high score. By then the submission has
      raised the stored high score to it, so the flag is always false. */
  function EndGameAsWritten(g: Session, now: real): (r: Session)
    ensures r.state == GameOver && r.scene == StopScene(g.scene)
    ensures r.store == ScoreManager.SubmitScore(g.store, FinalScore(g), now)
    ensures r.report == Some(Report(FinalScore(g), ReportedDistance(g.scene), g.coins, false))
    ensures r == g.(state := GameOver, scene := r.scene, store := r.store, report := r.report)
  {
    var final := FinalScore(g);
    var store := ScoreManager.SubmitScore(g.store, final, now);
    ScoreManager.SubmittedScoreIsNeverHigh(g.store, final, now);
    g.(state := GameOver, scene := StopScene(g.scene), store := store,
       report := Some(Report(final, ReportedDistance(g.scene), g.coins, ScoreManager.IsHighScore(store, final))))
  }

  /** `endGame` with the high-score question asked of the statistics as
      they were before the submission: the flag then says whether the run
      beat the previous best. */
  function EndGame(g: Session, now: real): (r: Session)
    ensures r.state == GameOver && r.scene == StopScene(g.scene)
    ensures r.store == ScoreManager.SubmitScore(g.store, FinalScore(g), now)
    ensures r.report.Some? && r.report.value.score == FinalScore(g)
    ensures r.report.value.isHighScore <==> FinalScore(g) > ScoreManager.HighScore(g.store)
    ensures r.report.value.isHighScore <==> ScoreManager.HighScore(r.store) > ScoreManager.HighScore(g.store)
    ensures r == g.(state := GameOver, scene := r.scene, store := r.store, report := r.report)
  {
    var final := FinalScore(g);
    g.(state := GameOver, scene := StopScene(g.scene), store := ScoreManager.SubmitScore(g.store, final, now),
       report := Some(Report(final, ReportedDistance(g.scene), g.coins, ScoreManager.IsHighScore(g.store, final))))
  }

  /** The two versions differ exactly on a record-breaking run: a first
      game of 100 points on empty statistics is a new high score, and only
      the corrected version says so. */
  lemma EndGameHighScoreExample(g: Session, now: real)
    requires g.score == 100 && g.multiplier == 1 && ScoreManager.HighScore(g.store) == 0
    ensures EndGame(g, now).report.value.isHighScore
    ensures !EndGameAsWritten(g, now).report.value.isHighScore
    ensures EndGame(g, now).store == EndGameAsWritten(g, now).store
  {
  }

  /** `returnToMenu`: from any state, and the scene stops. */
  function ReturnToMenu(g: Session): (r: Session)
    ensures r == g.(state := Menu, scene := StopScene(g.scene))
    ensures Valid(g) ==> Valid(r)
  {
    g.(state := Menu, scene := StopScene(g.scene))
  }

  /** A speed boost adds to the scene's speed and changes nothing else.
      The sum is not capped, so a scene already near the maximum speed is
      pushed past it; the scene stays valid. */
  function BoostScene(scene: Option<S.Scene>): (r: Option<S.Scene>)
    ensures r.Some? <==> scene.Some?
    ensures r.Some? ==> r.value == scene.value.(speed := r.value.speed)
    ensures r.Some? ==> r.value.speed - scene.value.speed == C.SpeedBoostAmount
    ensures scene.Some? && scene.value.speed > C.MaxSpeed - C.SpeedBoostAmount ==> r.value.speed > C.MaxSpeed
    ensures scene.Some? && S.Valid(scene.value) ==> S.Valid(r.value)
  {
    match scene
    case None => None
    case Some(s) => Some(s.(speed := s.speed + C.SpeedBoostAmount))
  }

  /** The overspeed lasts until the next frame: the next frame's speed is
      back within the maximum, and it is exactly the maximum when the boost
      overshot and the clock did not run backwards. */
  lemma BoostClampedNextFrame(s: S.Scene, time: real, draws: S.FrameDraws)
    requires s.obstacles.resortMultiplier > 0.0 && s.active
    ensures var boosted := BoostScene(Some(s)).value;
      S.Update(boosted, time, draws).speed <= C.MaxSpeed
    ensures var boosted := BoostScene(Some(s)).value;
      s.speed > C.MaxSpeed - C.SpeedBoostAmount && S.FrameDelta(s.lastUpdateTime, time) >= 0.0 ==>
      S.Update(boosted, time, draws).speed == C.MaxSpeed
  {
  }

  /** `handleCollision`. Hitting an obstacle ends the game. A coin adds one
      coin, a speed boost adds to the scene's speed, a score multiplier
      raises the multiplier by one up to the maximum, and a shield does
      nothing yet; nothing hit changes nothing. */
  function HandleCollision(g: Session, hit: S.Hit, now: real): (r: Session)
    ensures hit.NoHit? ==> r == g
    ensures hit.ObstacleHit? ==> r == EndGame(g, now)
    ensures hit.CollectibleHit? && hit.collectible.kind == K.Coin ==>
      r == g.(coins := g.coins + 1, hud := g.hud + [CoinsShown(g.coins + 1)])
    ensures hit.CollectibleHit? && hit.collectible.kind == K.SpeedBoost ==> r == g.(scene := BoostScene(g.scene))
    ensures hit.CollectibleHit? && hit.collectible.kind == K.Shield ==> r == g
    ensures hit.CollectibleHit? && hit.collectible.kind == K.ScoreMultiplier ==>
      && r == g.(multiplier := r.multiplier, hud := g.hud + [MultiplierShown(r.multiplier)])
      && r.multiplier == MinInt(g.multiplier + 1, C.MaxMultiplier)
    ensures !hit.ObstacleHit? ==> r.score == g.score && r.state == g.state
    ensures r.trickScore == g.trickScore && r.consecutiveTricks == g.consecutiveTricks
    ensures r.scene.Some? <==> g.scene.Some?
    ensures Valid(g) ==> 1 <= r.multiplier <= C.MaxMultiplier && 0 <= r.coins
  {
    match hit
    case NoHit => g
    case ObstacleHit(_) => EndGame(g, now)
    case CollectibleHit(c) =>
      match c.kind
      case Coin => g.(coins := g.coins + 1, hud := g.hud + [CoinsShown(g.coins + 1)])
      case SpeedBoost => g.(scene := BoostScene(g.scene))
      case Shield => g
      case ScoreMultiplier =>
        var m := MinInt(g.multiplier + 1, C.MaxMultiplier);
        g.(multiplier := m, hud := g.hud + [MultiplierShown(m)])
  }

  /** The score formula of `update`: half the distance, truncated, plus the
      trick score plus the coins at their value. */
  function ScoreFor(distance: real, trickScore: int, coins: int): (r: int)
    ensures distance >= 0.0 && trickScore >= 0 && coins >= 0 ==> r >= 0
    ensures var fromDistance := r - trickScore - coins * C.CoinValue;
      distance >= 0.0 ==> fromDistance as real <= distance * 0.5 < fromDistance as real + 1.0
  {
    Trunc(distance * 0.5) + trickScore + coins * C.CoinValue
  }

  /** The score refresh of `update`: the score is recomputed from the
      scene's distance and, when it changed, the display is shown the score
      times the multiplier. */
  function RefreshScore(g: Session, distance: real): (r: Session)
    ensures r.score == ScoreFor(distance, g.trickScore, g.coins)
    ensures r.score != g.score ==> r.hud == g.hud + [ScoreShown(r.score * g.multiplier)]
    ensures r.score == g.score ==> r == g
    ensures r == g.(score := r.score, hud := r.hud)
  {
    var newScore := ScoreFor(distance, g.trickScore, g.coins);
    if newScore != g.score then g.(score := newScore, hud := g.hud + [ScoreShown(newScore * g.multiplier)])
    else g
  }

  /** `updateTrickSystem`: while a trick is in progress nothing happens;
      once none is, a pending combo is paid out at the base trick score per
      trick times the multiplier, shown on the display, and cleared. */
  function UpdateTrickSystem(g: Session, performingTrick: bool): (r: Session)
    ensures performingTrick || g.consecutiveTricks <= 0 ==> r == g
    ensures !performingTrick && g.consecutiveTricks > 0 ==>
      var points := C.BaseTrickScore * g.consecutiveTricks * g.multiplier;
      && r == g.(trickScore := g.trickScore + points, consecutiveTricks := 0, hud := g.hud + [TrickPointsShown(points)])
    ensures Valid(g) ==> r.trickScore >= g.trickScore && r.consecutiveTricks >= 0
  {
    if performingTrick then g
    else if g.consecutiveTricks > 0 then
      var points := C.BaseTrickScore * g.consecutiveTricks * g.multiplier;
      assert g.multiplier >= 0 ==> points >= 0 by {
        if g.multiplier >= 0 { ProductNonNegative(C.BaseTrickScore * g.consecutiveTricks, g.multiplier); }
      }
      g.(trickScore := g.trickScore + points, consecutiveTricks := 0, hud := g.hud + [TrickPointsShown(points)])
    else g
  }

  /** `registerTrickLanded`: one more trick in the combo. Nothing in the
      game calls it, so the combo is never paid out in play. */
  function RegisterTrickLanded(g: Session): (r: Session)
    ensures r.consecutiveTricks == g.consecutiveTricks + 1
    ensures r == g.(consecutiveTricks := r.consecutiveTricks)
    ensures Valid(g) ==> Valid(r)
  {
    g.(consecutiveTricks := g.consecutiveTricks + 1)
  }

  /** `n` landed tricks in a row. */
  function RegisterTricks(g: Session, n: nat): (r: Session)
    ensures r.consecutiveTricks == g.consecutiveTricks + n
    ensures r == g.(consecutiveTricks := r.consecutiveTricks)
  {
    if n == 0 then g else RegisterTrickLanded(RegisterTricks(g, n - 1))
  }

  /** A combo of `n` tricks landed from an empty combo pays out
      `n · baseTrickScore · multiplier` once no trick is in progress, and
      then the combo is empty again. */
  lemma ComboPaysOut(g: Session, n: nat)
    requires g.consecutiveTricks == 0 && n > 0
    ensures var r := UpdateTrickSystem(RegisterTricks(g, n), false);
      && r.trickScore == g.trickScore + C.BaseTrickScore * n * g.multiplier
      && r.consecutiveTricks == 0
      && UpdateTrickSystem(r, false) == r
  {
  }

  /** Whether the manager's scene can run a frame: the spawners need a
      positive resort multiplier. */
  predicate SceneReady(g: Session) {
    g.scene.Some? ==> g.scene.value.obstacles.resortMultiplier > 0.0
  }

  /** The scene after one frame of play and the collision check: what
      `handleCollision` is given. */
  function PlayedFrame(scene: S.Scene, time: real, draws: S.FrameDraws): (r: S.Collision)
    requires scene.obstacles.resortMultiplier > 0.0
    ensures r.scene.obstacles.resortMultiplier == scene.obstacles.resortMultiplier
    ensures S.Valid(scene) ==> S.Valid(r.scene)
    ensures scene.active ==> r.scene.active
  {
    var played := S.Update(scene, time, draws);
    assert S.Valid(scene) ==> S.Valid(S.CheckCollisions(played).scene) by {
      if S.Valid(scene) { S.CheckKeepsValid(played); }
    }
    S.CheckCollisions(played)
  }

  /** The rest of a frame once the collision is handled: the score
      refreshed from the distance, the speed shown, the combo settled. */
  function FinishFrame(h: Session): (r: Session)
    requires h.scene.Some?
    ensures r.scene == h.scene && r.state == h.state && r.store == h.store
    ensures r.report == h.report && r.coins == h.coins && r.multiplier == h.multiplier
    ensures r.score == ScoreFor(h.scene.value.distance, h.trickScore, h.coins)
    ensures h.scene.value.player.isPerformingTrick || h.consecutiveTricks <= 0 ==>
      r.trickScore == h.trickScore && r.consecutiveTricks == h.consecutiveTricks
    ensures !h.scene.value.player.isPerformingTrick && h.consecutiveTricks > 0 ==>
      r.trickScore == h.trickScore + C.BaseTrickScore * h.consecutiveTricks * h.multiplier
      && r.consecutiveTricks == 0
    ensures Valid(h) ==> Valid(r)
  {
    var scene := h.scene.value;
    var scored := RefreshScore(h, scene.distance);
    var shown := scored.(hud := scored.hud + [SpeedShown(scene.speed)]);
    UpdateTrickSystem(shown, scene.player.isPerformingTrick)
  }

  /** `update(atTime:)`. Nothing happens unless a game is being played on a
      scene. Otherwise the scene runs a frame, collisions are checked and
      handled, the score is refreshed from the distance, the speed is shown,
      and the trick combo is settled. The outcome of the collision stands;
      the score counts the distance, the coins and the trick score paid out
      before this frame; a pending combo is paid out once no trick is in
      progress. */
  function Update(g: Session, time: real, draws: S.FrameDraws, now: real): (r: Session)
    requires SceneReady(g)
    ensures g.state != Playing || g.scene.None? ==> r == g
    ensures g.state == Playing && g.scene.Some? ==>
      var col := PlayedFrame(g.scene.value, time, draws);
      var handled := HandleCollision(g.(scene := Some(col.scene)), col.hit, now);
      var scene := handled.scene.value;
      && r.scene == handled.scene && r.state == handled.state && r.store == handled.store
      && r.report == handled.report && r.coins == handled.coins && r.multiplier == handled.multiplier
      && r.score == ScoreFor(scene.distance, g.trickScore, r.coins)
      && (scene.player.isPerformingTrick || g.consecutiveTricks <= 0 ==>
            r.trickScore == g.trickScore && r.consecutiveTricks == g.consecutiveTricks)
      && (!scene.player.isPerformingTrick && g.consecutiveTricks > 0 ==>
            r.trickScore == g.trickScore + C.BaseTrickScore * g.consecutiveTricks * r.multiplier
            && r.consecutiveTricks == 0)
    ensures Valid(g) ==> Valid(r)
    ensures SceneReady(r)
  {
    if g.state != Playing || g.scene.None? then g
    else
      var col := PlayedFrame(g.scene.value, time, draws);
      var played := g.(scene := Some(col.scene));
      assert Valid(g) ==> Valid(played);
      HandleCollisionKeepsValid(played, col.hit, now);
      FinishFrame(HandleCollision(played, col.hit, now))
  }

  /** `handleCollision` keeps the manager's invariant whatever was hit. */
  lemma HandleCollisionKeepsValid(g: Session, hit: S.Hit, now: real)
    ensures Valid(g) ==> Valid(HandleCollision(g, hit, now))
  {
  }

  /** Hitting an obstacle ends the run with the score of the previous
      frame: the distance covered in the fatal frame is not counted in the
      submitted score or the report, though the score shown afterwards
      includes it. The report says whether that score beat the high score
      stored before the run ended. */
  lemma ObstacleEndsRun(g: Session, time: real, draws: S.FrameDraws, now: real)
    requires SceneReady(g) && g.state == Playing && g.scene.Some?
    requires PlayedFrame(g.scene.value, time, draws).hit.ObstacleHit?
    ensures var r := Update(g, time, draws, now);
      && r.state == GameOver && r.scene.Some? && !r.scene.value.active
      && r.store == ScoreManager.SubmitScore(g.store, g.score * g.multiplier, now)
      && r.report.Some? && r.report.value.score == g.score * g.multiplier
      && r.report.value.coins == g.coins
      && (r.report.value.isHighScore <==> g.score * g.multiplier > ScoreManager.HighScore(g.store))
  {
  }

  /** One score-multiplier pickup after another. */
  function CollectMultipliers(g: Session, c: K.Collectible, k: nat, now: real): (r: Session)
    requires c.kind == K.ScoreMultiplier
    ensures r.score == g.score && r.coins == g.coins && r.state == g.state
  {
    if k == 0 then g else HandleCollision(CollectMultipliers(g, c, k - 1, now), S.CollectibleHit(c), now)
  }

  /** The multiplier saturates: `k` pickups raise it by `k`, but never
      past the maximum. */
  lemma {:induction false} MultiplierSaturates(g: Session, c: K.Collectible, k: nat, now: real)
    requires c.kind == K.ScoreMultiplier && g.multiplier <= C.MaxMultiplier
    ensures CollectMultipliers(g, c, k, now).multiplier == MinInt(g.multiplier + k, C.MaxMultiplier)
  {
    if k > 0 {
      MultiplierSaturates(g, c, k - 1, now);
    }
  }
}

=== FILE: spatial.dfy ===
/** Vector arithmetic, the float helpers and the axis-aligned bounding
    box used for collision. */
module Spatial {
  import opened Numerics

  datatype Vec3 = Vec3(x: real, y: real, z: real)

  const Zero: Vec3 := Vec3(0.0, 0.0, 0.0)

  /** Component-wise `+`: subtracting the same vector undoes it. */
  function Add(a: Vec3, b: Vec3): (r: Vec3)
    ensures Sub(r, b) == a
    ensures b == Zero ==> r == a
  {
    Vec3(a.x + b.x, a.y + b.y, a.z + b.z)
  }

  /** Component-wise `-`: the difference is zero exactly for equal
      vectors. */
  function Sub(a: Vec3, b: Vec3): (r: Vec3)
    ensures r == Zero <==> a == b
  {
    Vec3(a.x - b.x, a.y - b.y, a.z - b.z)
  }

  /** Scaling by a float: by one it changes nothing, by zero (or of the
      zero vector) it gives the zero vector. */
  function Scale(v: Vec3, k: real): (r: Vec3)
    ensures k == 1.0 ==> r == v
    ensures k == 0.0 || v == Zero ==> r == Zero
  {
    Vec3(v.x * k, v.y * k, v.z * k)
  }

  /** Adding a vector and then subtracting it again gives the original. */
  lemma AddSubRoundTrip(a: Vec3, b: Vec3)
    ensures Sub(Add(a, b), b) == a
    ensures Add(Sub(a, b), b) == a
  {
  }

  /** Addition is commutative and the zero vector is its unit. */
  lemma AddCommutesWithZeroUnit(a: Vec3, b: Vec3)
    ensures Add(a, b) == Add(b, a)
    ensures Add(a, Zero) == a && Sub(a, Zero) == a
  {
  }

  /** Scaling distributes over addition, so `*` is component-wise linear. */
  lemma ScaleDistributes(a: Vec3, b: Vec3, k: real)
    ensures Scale(Add(a, b), k) == Add(Scale(a, k), Scale(b, k))
    ensures Scale(a, 1.0) == a
  {
  }

  /** The concrete vectors of the unit tests. */
  lemma VectorExamples()
    ensures Add(Vec3(1.0, 2.0, 3.0), Vec3(4.0, 5.0, 6.0)) == Vec3(5.0, 7.0, 9.0)
    ensures Sub(Vec3(4.0, 5.0, 6.0), Vec3(1.0, 2.0, 3.0)) == Vec3(3.0, 3.0, 3.0)
    ensures Scale(Vec3(1.0, 2.0, 3.0), 2.0) == Vec3(2.0, 4.0, 6.0)
  {
  }

  /** `normalized`, given the vector's length `len`. The square root is
      not modelled: all that is assumed of `len` is that it is
      non-negative and zero exactly for the zero vector. The zero vector
      maps to the zero vector rather than failing; any other vector is
      divided by its length. */
  function Normalized(v: Vec3, len: real): (r: Vec3)
    requires len >= 0.0 && (len == 0.0 <==> v == Zero)
    ensures v == Zero ==> r == Zero
    ensures v != Zero ==> Scale(r, len) == v
  {
    if len > 0.0 then Vec3(v.x / len, v.y / len, v.z / len) else Zero
  }

  /** `Float.lerp(to:amount:)`. */
  function Lerp(from: real, target: real, amount: real): (r: real)
    ensures amount == 0.0 ==> r == from
    ensures amount == 1.0 ==> r == target
    ensures 0.0 <= amount <= 1.0 ==> Min(from, target) <= r <= Max(from, target)
  {
    LerpBetween(from, target, amount);
    from + (target - from) * amount
  }

  lemma LerpBetween(from: real, target: real, amount: real)
    ensures 0.0 <= amount <= 1.0 ==>
      Min(from, target) <= from + (target - from) * amount <= Max(from, target)
  {
    if 0.0 <= amount <= 1.0 {
      if from <= target {
        MulNonNegative(target - from, amount);
        MulNonNegative(target - from, 1.0 - amount);
      } else {
        MulNonNegative(from - target, amount);
        MulNonNegative(from - target, 1.0 - amount);
      }
    }
  }

  /** The example of the unit tests: halfway from 0 to 10 is 5. */
  lemma LerpExample()
    ensures Lerp(0.0, 10.0, 0.5) == 5.0
  {
  }

  /** `Float.clamped(min:max:)`: `max(lo, min(hi, v))`. */
  function Clamped(v: real, lo: real, hi: real): (r: real)
    ensures lo <= hi ==> lo <= r <= hi
    ensures lo <= v <= hi ==> r == v
    ensures v < lo ==> r == lo
    ensures lo <= hi && hi < v ==> r == hi
  {
    Max(lo, Min(hi, v))
  }

  /** An axis-aligned box given by its center and its half-extent. */
  datatype BoundingBox = BoundingBox(center: Vec3, halfExtent: Vec3)

  /** The per-axis separating test: the boxes overlap iff on every axis the
      distance between the centers is strictly less than the sum of the
      half-extents. */
  predicate Intersects(a: BoundingBox, b: BoundingBox)
    ensures Intersects(a, b) ==>
      a.halfExtent.x + b.halfExtent.x > 0.0 && a.halfExtent.y + b.halfExtent.y > 0.0
      && a.halfExtent.z + b.halfExtent.z > 0.0
    ensures a.center == b.center ==>
      (Intersects(a, b) <==>
         a.halfExtent.x + b.halfExtent.x > 0.0 && a.halfExtent.y + b.halfExtent.y > 0.0
         && a.halfExtent.z + b.halfExtent.z > 0.0)
  {
    && Abs(a.center.x - b.center.x) < a.halfExtent.x + b.halfExtent.x
    && Abs(a.center.y - b.center.y) < a.halfExtent.y + b.halfExtent.y
    && Abs(a.center.z - b.center.z) < a.halfExtent.z + b.halfExtent.z
  }

  /** Independent reading of overlap: the open intervals
      (c - h, c + h) of the two boxes overlap on one axis. */
  predicate OpenIntervalsOverlap(ca: real, ha: real, cb: real, hb: real) {
    ca - ha < cb + hb && cb - hb < ca + ha
  }

  /** The separating test agrees with open-interval overlap on all three
      axes, in both directions. */
  lemma IntersectsIffIntervalsOverlap(a: BoundingBox, b: BoundingBox)
    ensures Intersects(a, b) <==>
      && OpenIntervalsOverlap(a.center.x, a.halfExtent.x, b.center.x, b.halfExtent.x)
      && OpenIntervalsOverlap(a.center.y, a.halfExtent.y, b.center.y, b.halfExtent.y)
      && OpenIntervalsOverlap(a.center.z, a.halfExtent.z, b.center.z, b.halfExtent.z)
  {
  }

  /** The test is symmetric. */
  lemma IntersectsSymmetric(a: BoundingBox, b: BoundingBox)
    ensures Intersects(a, b) <==> Intersects(b, a)
  {
  }

  /** Two boxes with the same center and positive half-extents overlap;
      in particular such a box overlaps itself. */
  lemma SameCenterIntersects(a: BoundingBox, b: BoundingBox)
    requires a.center == b.center
    requires a.halfExtent.x > 0.0 && a.halfExtent.y > 0.0 && a.halfExtent.z > 0.0
    requires b.halfExtent.x >= 0.0 && b.halfExtent.y >= 0.0 && b.halfExtent.z >= 0.0
    ensures Intersects(a, b)
  {
  }

  /** The comparison is strict: boxes that merely touch on one face do not
      intersect. */
  lemma TouchingBoxesDoNotIntersect(a: BoundingBox, b: BoundingBox)
    requires b.center.x - a.center.x == a.halfExtent.x + b.halfExtent.x
    ensures !Intersects(a, b)
  {
  }

  /** The boxes of the unit tests. */
  lemma BoundingBoxExamples()
    ensures Intersects(BoundingBox(Zero, Vec3(1.0, 1.0, 1.0)), BoundingBox(Vec3(1.5, 0.0, 0.0), Vec3(1.0, 1.0, 1.0)))
    ensures !Intersects(BoundingBox(Zero, Vec3(1.0, 1.0, 1.0)), BoundingBox(Vec3(3.0, 0.0, 0.0), Vec3(1.0, 1.0, 1.0)))
    ensures !Intersects(BoundingBox(Zero, Vec3(0.5, 0.5, 0.5)), BoundingBox(Vec3(5.0, 5.0, 5.0), Vec3(0.5, 0.5, 0.5)))
  {
  }
}

=== FILE: store.dfy ===
/** The key-value store the progression stores persist into
    (`UserDefaults.standard`), kept abstract: a finite map from keys to
    values. JSON encoding is not modelled; a stored list is kept as the
    list itself, and a value of the wrong kind reads like a value that
    fails to decode. */
module Store {

  /** One entry of the top-score list (ScoreManager.swift). */
  datatype ScoreEntry = ScoreEntry(score: int, date: real)

  /** One entry of a resort's leaderboard (LeaderboardManager.swift). */
  datatype RunEntry = RunEntry(
    resortId: string,
    characterType: string,
    distance: int,
    score: int,
    runTime: real,
    date: real)

  datatype Value =
    | IntValue(n: int)
    | ScoreList(scores: seq<ScoreEntry>)
    | RunList(runs: seq<RunEntry>)

  type Defaults = map<string, Value>

  const Empty: Defaults := map[]

  /** `integer(forKey:)`: the stored integer, or 0 when there is none. */
  function IntegerFor(d: Defaults, key: string): int {
    if key in d && d[key].IntValue? then d[key].n else 0
  }

  /** Two stores agree on every key outside `keys`. */
  ghost predicate AgreeOutside(d: Defaults, e: Defaults, keys: set<string>) {
    forall k :: k !in keys ==> (k in d <==> k in e) && (k in d ==> d[k] == e[k])
  }

  /** Writing one key leaves the integer read at any other key unchanged. */
  lemma IntegerForOtherKey(d: Defaults, k: string, v: Value, key: string)
    requires k != key
    ensures IntegerFor(d[k := v], key) == IntegerFor(d, key)
  {
  }

  /** Writing a key inside `keys` keeps agreement outside `keys`, and
      agreement outside `keys` is transitive. */
  lemma AgreeOutsideUpdate(d: Defaults, e: Defaults, k: string, v: Value, keys: set<string>)
    requires AgreeOutside(d, e, keys) && k in keys
    ensures AgreeOutside(d, e[k := v], keys)
  {
  }

  lemma AgreeOutsideRefl(d: Defaults, keys: set<string>)
    ensures AgreeOutside(d, d, keys)
  {
  }
}

=== FILE: terrain.dfy ===
/** The terrain streamer (Game/TerrainGenerator.swift). Chunks are laid
    down the slope (towards negative z) from a spawn frontier `nextChunkZ`;
    each is one chunk length long and starts where the previous one ended.
    The geometry inside a chunk, its colours and the slope wobble
    (`sin(noiseOffset)`) are rendering and are not modelled. */
module Terrain {
  import opened Numerics
  import opened Ranking
  import C = Constants

  /** One chunk: it spans `[endZ, startZ]` along the slope. */
  datatype Chunk = Chunk(startZ: real, endZ: real)

  /** The chunk's node sits at its middle. */
  function CenterZ(c: Chunk): real { c.startZ - C.TerrainChunkLength / 2.0 }

  datatype Terrain = Terrain(chunks: seq<Chunk>, nextChunkZ: real, noiseOffset: real, chunkWidth: real)

  /** A fresh generator for a resort: no chunks, the frontier at the start
      line, and the chunk width scaled by the resort's width multiplier. */
  function New(widthMultiplier: real): (r: Terrain)
    ensures r.chunks == [] && r.nextChunkZ == C.TerrainStartZ && r.noiseOffset == 0.0
    ensures widthMultiplier > 0.0 ==> r.chunkWidth > 0.0
    ensures r.chunkWidth == C.TerrainWidth * widthMultiplier
  {
    Terrain([], C.TerrainStartZ, 0.0, C.TerrainWidth * widthMultiplier)
  }

  /** The chunks tile the slope without gaps: each is one chunk length
      long, each starts where the one before ended, and the last ends at the
      frontier. */
  ghost predicate Contiguous(t: Terrain) {
    && (forall i :: 0 <= i < |t.chunks| ==> t.chunks[i].startZ - t.chunks[i].endZ == C.TerrainChunkLength)
    && (forall i :: 0 <= i < |t.chunks| - 1 ==> t.chunks[i].endZ == t.chunks[i + 1].startZ)
    && (|t.chunks| > 0 ==> t.chunks[|t.chunks| - 1].endZ == t.nextChunkZ)
  }

  /** The slope-noise phase has advanced 0.3 for every chunk laid since the
      start line, that is, for every chunk length the frontier has moved. */
  ghost predicate NoiseTracksFrontier(t: Terrain) {
    t.noiseOffset * C.TerrainChunkLength == 0.3 * (C.TerrainStartZ - t.nextChunkZ)
  }

  /** `addChunk`: a chunk from the frontier one length down the slope is
      appended, and the frontier and the noise phase advance. */
  function AddChunk(t: Terrain): (r: Terrain)
    ensures r.chunks == t.chunks + [Chunk(t.nextChunkZ, t.nextChunkZ - C.TerrainChunkLength)]
    ensures r.nextChunkZ == t.nextChunkZ - C.TerrainChunkLength
    ensures r.noiseOffset == t.noiseOffset + 0.3
    ensures r.chunkWidth == t.chunkWidth
    ensures Contiguous(t) ==> Contiguous(r)
    ensures NoiseTracksFrontier(t) ==> NoiseTracksFrontier(r)
  {
    var c := Chunk(t.nextChunkZ, t.nextChunkZ - C.TerrainChunkLength);
    Terrain(t.chunks + [c], t.nextChunkZ - C.TerrainChunkLength, t.noiseOffset + 0.3, t.chunkWidth)
  }

  /** `addChunk` called `n` times, as `generateInitialTerrain` does: the
      `n` new chunks step down the slope one chunk length at a time from
      the old frontier. */
  function AddChunks(t: Terrain, n: nat): (r: Terrain)
    ensures |r.chunks| == |t.chunks| + n && r.chunks[..|t.chunks|] == t.chunks
    ensures forall j :: |t.chunks| <= j < |r.chunks| ==>
      r.chunks[j] == Chunk(t.nextChunkZ - C.TerrainChunkLength * (j - |t.chunks|) as real,
                           t.nextChunkZ - C.TerrainChunkLength * (j - |t.chunks| + 1) as real)
    ensures r.nextChunkZ == t.nextChunkZ - C.TerrainChunkLength * n as real
    ensures r.noiseOffset == t.noiseOffset + 0.3 * n as real
    ensures r.chunkWidth == t.chunkWidth
    ensures Contiguous(t) ==> Contiguous(r)
    ensures NoiseTracksFrontier(t) ==> NoiseTracksFrontier(r)
    decreases n
  {
    if n == 0 then t
    else
      var first := AddChunk(t);
      var r := AddChunks(first, n - 1);
      assert r.chunks[..|t.chunks|] == r.chunks[..|first.chunks|][..|t.chunks|];
      assert r.chunks[|t.chunks|] == first.chunks[|t.chunks|];
      r
  }

  /** The frontier loop of `update`: chunks are laid until the frontier
      is no longer ahead of `playerZ - terrainLookAhead`. The frontier ends
      at or past that line, but less than a chunk beyond it if it had to
      move at all, and never moves back up the slope. The chunks already
      laid are kept, in order, ahead of the new ones. */
  function Fill(t: Terrain, playerZ: real): (r: Terrain)
    ensures r.nextChunkZ <= playerZ - C.TerrainLookAhead
    ensures r.nextChunkZ <= t.nextChunkZ
    ensures t.nextChunkZ > playerZ - C.TerrainLookAhead ==>
      r.nextChunkZ > playerZ - C.TerrainLookAhead - C.TerrainChunkLength
    ensures t.nextChunkZ <= playerZ - C.TerrainLookAhead ==> r == t
    ensures |r.chunks| >= |t.chunks| && r.chunks[..|t.chunks|] == t.chunks
    ensures r.chunkWidth == t.chunkWidth
    ensures Contiguous(t) ==> Contiguous(r)
    ensures NoiseTracksFrontier(t) ==> NoiseTracksFrontier(r)
    decreases StepsShort(t.nextChunkZ, playerZ - C.TerrainLookAhead, C.TerrainChunkLength)
  {
    var target := playerZ - C.TerrainLookAhead;
    if t.nextChunkZ > target then
      var next := AddChunk(t);
      StepsShortDecreases(t.nextChunkZ, target, C.TerrainChunkLength);
      var r := Fill(next, playerZ);
      assert r.chunks[..|t.chunks|] == r.chunks[..|next.chunks|][..|t.chunks|];
      r
    else t
  }

  /** `removeAll` in `update`: a chunk is dropped once its far end is more
      than `terrainCleanupDistance` behind the player. */
  predicate Kept(playerZ: real, c: Chunk) {
    c.endZ <= playerZ + C.TerrainCleanupDistance
  }

  function Cleanup(t: Terrain, playerZ: real): (r: Terrain)
    ensures forall c :: multiset(r.chunks)[c] == if Kept(playerZ, c) then multiset(t.chunks)[c] else 0
    ensures r.nextChunkZ == t.nextChunkZ && r.noiseOffset == t.noiseOffset && r.chunkWidth == t.chunkWidth
  {
    t.(chunks := Filter(t.chunks, c => Kept(playerZ, c)))
  }

  /** `update(playerZ:)`: extend the frontier, then drop chunks left
      behind. The chunks that remain are the old ones still inside the
      window, in their order, followed by the newly laid ones inside it. */
  function Update(t: Terrain, playerZ: real): (r: Terrain)
    ensures r.nextChunkZ <= playerZ - C.TerrainLookAhead && r.nextChunkZ <= t.nextChunkZ
    ensures forall c :: c in r.chunks ==> Kept(playerZ, c)
    ensures r.chunks == Filter(t.chunks, c => Kept(playerZ, c)) +
      Filter(Fill(t, playerZ).chunks[|t.chunks|..], c => Kept(playerZ, c))
    ensures NoiseTracksFrontier(t) ==> NoiseTracksFrontier(r)
  {
    var filled := Fill(t, playerZ);
    var r := Cleanup(filled, playerZ);
    assert filled.chunks == t.chunks + filled.chunks[|t.chunks|..];
    FilterAppend(t.chunks, filled.chunks[|t.chunks|..], c => Kept(playerZ, c));
    assert forall c :: c in r.chunks ==> Kept(playerZ, c) by {
      forall c | c in r.chunks
        ensures Kept(playerZ, c)
      {
        assert multiset(r.chunks)[c] > 0;
      }
    }
    r
  }

  /** On contiguous chunks the ones dropped by cleanup are exactly the
      oldest ones: cleanup removes a prefix and keeps the rest in order, so
      the kept chunks still tile the slope up to the frontier. */
  lemma {:induction false} CleanupDropsPrefix(t: Terrain, playerZ: real)
    requires Contiguous(t)
    ensures exists k :: 0 <= k <= |t.chunks| && Cleanup(t, playerZ).chunks == t.chunks[k..]
    ensures Contiguous(Cleanup(t, playerZ))
  {
    var keep := (c: Chunk) => Kept(playerZ, c);
    var k := FirstKept(t, playerZ, 0);
    FilterDropsPrefix(t.chunks, keep, k);
    SuffixContiguous(t, k);
  }

  /** Dropping the oldest chunks of a contiguous terrain leaves it
      contiguous. */
  lemma SuffixContiguous(t: Terrain, k: nat)
    requires Contiguous(t) && k <= |t.chunks|
    ensures Contiguous(t.(chunks := t.chunks[k..]))
  {
  }

  /** The index of the first chunk cleanup keeps, at or after `from`; the
      chunks get lower and lower down the slope, so every chunk from there on
      is kept too. */
  lemma {:induction false} FirstKeptIsPrefixBound(t: Terrain, playerZ: real, k: nat)
    requires Contiguous(t) && k < |t.chunks| && Kept(playerZ, t.chunks[k])
    ensures forall i :: k <= i < |t.chunks| ==> Kept(playerZ, t.chunks[i])
    decreases |t.chunks| - k
  {
    if k + 1 < |t.chunks| {
      assert t.chunks[k + 1].endZ == t.chunks[k].endZ - C.TerrainChunkLength;
      FirstKeptIsPrefixBound(t, playerZ, k + 1);
    }
  }

  function FirstKept(t: Terrain, playerZ: real, from: nat): (k: nat)
    requires Contiguous(t) && from <= |t.chunks|
    requires forall i :: 0 <= i < from ==> !Kept(playerZ, t.chunks[i])
    ensures from <= k <= |t.chunks|
    ensures forall i :: 0 <= i < k ==> !Kept(playerZ, t.chunks[i])
    ensures forall i :: k <= i < |t.chunks| ==> Kept(playerZ, t.chunks[i])
    decreases |t.chunks| - from
  {
    if from == |t.chunks| then from
    else if Kept(playerZ, t.chunks[from]) then
      FirstKeptIsPrefixBound(t, playerZ, from);
      from
    else FirstKept(t, playerZ, from + 1)
  }

  /** `reset`: throw every chunk away, put the frontier back at the start
      line, zero the noise phase and lay the initial chunks again. */
  function Reset(t: Terrain): (r: Terrain)
    ensures |r.chunks| == C.InitialChunkCount
    ensures forall i :: 0 <= i < |r.chunks| ==>
      r.chunks[i] == Chunk(10.0 - 30.0 * i as real, -20.0 - 30.0 * i as real)
    ensures r.nextChunkZ == -230.0 && r.noiseOffset == 2.4
    ensures r.chunkWidth == t.chunkWidth
    ensures Contiguous(r) && NoiseTracksFrontier(r)
  {
    AddChunks(Terrain([], C.TerrainStartZ, 0.0, t.chunkWidth), C.InitialChunkCount)
  }

  /** The initial chunks cover the slope from the start line down to the
      frontier, whatever the state before; so resetting twice is resetting
      once. */
  lemma ResetIdempotent(t: Terrain)
    ensures Reset(Reset(t)) == Reset(t)
    ensures Reset(t).chunks[0].startZ == C.TerrainStartZ
    ensures Reset(t).chunks[|Reset(t).chunks| - 1].endZ == Reset(t).nextChunkZ
  {
    assert Reset(Reset(t)).chunks == Reset(t).chunks;
  }

  /** How many chunks can be live right after the frontier has moved: the
      look-ahead, at most one chunk of overshoot and the cleanup distance,
      counted in chunk lengths, (120 + 30 + 30) / 30. */
  const WindowChunks: nat := 6

  /** On contiguous chunks the far end of chunk `i` lies a whole number of
      chunk lengths above the frontier. */
  lemma {:induction false} EndFromFrontier(t: Terrain, i: nat)
    requires Contiguous(t) && i < |t.chunks|
    ensures t.chunks[i].endZ == t.nextChunkZ + C.TerrainChunkLength * (|t.chunks| - 1 - i) as real
    decreases |t.chunks| - i
  {
    if i + 1 < |t.chunks| {
      EndFromFrontier(t, i + 1);
    }
  }

  /** The number of live chunks stays bounded: after a frame that had to
      lay chunks at most `WindowChunks` remain, after any other frame no
      more than before; so a generator reset to its eight initial chunks
      never holds more than eight, however the rider moves. */
  lemma ChunkWindow(t: Terrain, playerZ: real)
    requires Contiguous(t)
    ensures t.nextChunkZ > playerZ - C.TerrainLookAhead ==> |Update(t, playerZ).chunks| <= WindowChunks
    ensures t.nextChunkZ <= playerZ - C.TerrainLookAhead ==> |Update(t, playerZ).chunks| <= |t.chunks|
    ensures |t.chunks| <= C.InitialChunkCount ==> |Update(t, playerZ).chunks| <= C.InitialChunkCount
  {
    var filled := Fill(t, playerZ);
    var r := Update(t, playerZ);
    assert r == Cleanup(filled, playerZ);
    CleanupDropsPrefix(filled, playerZ);
    var m := |r.chunks|;
    if t.nextChunkZ > playerZ - C.TerrainLookAhead && m > 0 {
      EndFromFrontier(r, 0);
      assert r.chunks[0] in r.chunks;
      assert C.TerrainChunkLength * (m - 1) as real < 180.0;
    }
  }

  /** A generator that starts fresh and is then only ever reset and updated
      keeps its chunks contiguous and its noise phase in step with the
      frontier. */
  lemma UpdateKeepsInvariants(t: Terrain, playerZ: real)
    requires Contiguous(t) && NoiseTracksFrontier(t)
    ensures Contiguous(New(1.0)) && NoiseTracksFrontier(New(1.0))
    ensures Contiguous(Update(t, playerZ)) && NoiseTracksFrontier(Update(t, playerZ))
  {
    CleanupDropsPrefix(Fill(t, playerZ), playerZ);
  }
}

=== FILE: weather.dfy ===
/** The weather state machine (Game/WeatherSystem.swift): a condition, a
    timer, and the time of the next change. The particle emitter and the
    fog animation are rendering; what is kept is the condition, the fog
    distances it implies and the timer logic. Random draws are parameters. */
module Weather {
  import opened Numerics

  datatype Condition = Clear | LightSnow | HeavySnow | Blizzard | Windy

  /** How far the fog is pushed out (above 1) or pulled in (below 1). */
  function FogMultiplier(c: Condition): real {
    match c
    case Clear => 1.5
    case LightSnow => 1.2
    case HeavySnow => 0.8
    case Blizzard => 0.4
    case Windy => 1.0
  }

  /** Snow particles emitted per second. */
  function SnowBirthRate(c: Condition): real {
    match c
    case Clear => 50.0
    case LightSnow => 200.0
    case HeavySnow => 500.0
    case Blizzard => 1000.0
    case Windy => 300.0
  }

  /** Every condition scales the fog by a positive factor, clear weather
      pushes it out the farthest and a blizzard pulls it in the closest. */
  lemma FogMultiplierRange(c: Condition)
    ensures 0.0 < FogMultiplier(Blizzard) <= FogMultiplier(c) <= FogMultiplier(Clear) == 1.5
    ensures FogMultiplier(c) == 1.5 <==> c == Clear
  {
  }

  /** The fog distances `applyWeather` gives the scene for a resort whose
      own fog spans `[fogStart, fogEnd]`. */
  datatype Fog = Fog(start: real, end: real)

  function FogFor(fogStart: real, fogEnd: real, c: Condition): (r: Fog)
    ensures fogStart < fogEnd ==> r.start < r.end
    ensures 0.0 <= fogStart ==> r.start <= fogStart * FogMultiplier(Clear)
    ensures 0.0 <= fogEnd ==> r.end <= fogEnd * FogMultiplier(Clear)
  {
    var m := FogMultiplier(c);
    FogMultiplierRange(c);
    ScaleMonotone(fogStart, fogEnd, m);
    ScaleMonotone(m, FogMultiplier(Clear), fogStart);
    ScaleMonotone(m, FogMultiplier(Clear), fogEnd);
    Fog(fogStart * m, fogEnd * m)
  }

  lemma ScaleMonotone(a: real, b: real, k: real)
    ensures a < b && k > 0.0 ==> a * k < b * k
    ensures a <= b && k >= 0.0 ==> a * k <= b * k
  {
    if a <= b && k >= 0.0 {
      assert b * k - a * k == (b - a) * k;
    }
  }

  /** The range `Float.random(in: 20...60)` draws the next change from. */
  type ChangeInterval = x: real | 20.0 <= x <= 60.0 witness 20.0

  datatype State = State(current: Condition, timer: real, nextChange: real)

  /** A fresh system: light snow, the timer at zero, a change due at 30 s. */
  const Initial: State := State(LightSnow, 0.0, 30.0)

  /** The timer has not yet reached the next change, and the next change is
      within the range it is drawn from. */
  ghost predicate Valid(s: State) {
    0.0 <= s.timer < s.nextChange && 20.0 <= s.nextChange <= 60.0
  }

  /** `applyResortWeather`: the starting condition is classified by the
      resort's snow intensity. */
  function ResortWeather(snowIntensity: real): (r: Condition)
    ensures r == HeavySnow <==> snowIntensity >= 1.8
    ensures r == LightSnow <==> 1.2 <= snowIntensity < 1.8
    ensures r == Clear <==> snowIntensity < 1.2
  {
    if snowIntensity >= 1.8 then HeavySnow
    else if snowIntensity >= 1.2 then LightSnow
    else Clear
  }

  function ApplyResortWeather(s: State, snowIntensity: real): (r: State)
    ensures r.timer == s.timer && r.nextChange == s.nextChange
    ensures r.current == ResortWeather(snowIntensity)
  {
    s.(current := ResortWeather(snowIntensity))
  }

  /** `transitionToRandomWeather` with the drawn condition `drawn`: the
      weather becomes `drawn`, and the scene is re-styled only when that is
      a change. */
  datatype Transition = Transition(weather: Condition, restyled: bool)

  function TransitionTo(current: Condition, drawn: Condition): (r: Transition)
    ensures r.weather == drawn
    ensures r.restyled <==> drawn != current
  {
    if drawn == current then Transition(current, false) else Transition(drawn, true)
  }

  /** `update(deltaTime:)`. Once the timer reaches the next change, the
      timer restarts, the next change is `interval` away and the weather
      moves to `drawn`; before that only the timer advances. */
  function Update(s: State, dt: real, interval: ChangeInterval, drawn: Condition): (r: State)
    ensures s.timer + dt >= s.nextChange ==> r == State(drawn, 0.0, interval)
    ensures s.timer + dt < s.nextChange ==> r == s.(timer := s.timer + dt)
  {
    var timer := s.timer + dt;
    if timer >= s.nextChange then State(TransitionTo(s.current, drawn).weather, 0.0, interval)
    else s.(timer := timer)
  }

  /** The system starts valid: the timer at zero is below the first
      change, thirty seconds away, which lies in the drawn range. */
  lemma InitialIsValid()
    ensures Valid(Initial)
  {
  }

  /** A frame with a non-negative time step keeps the state valid. */
  lemma UpdateKeepsValid(s: State, dt: real, interval: ChangeInterval, drawn: Condition)
    requires Valid(s) && dt >= 0.0
    ensures Valid(Update(s, dt, interval, drawn))
  {
  }

  /** Drawing the condition already in force changes nothing: neither the
      weather nor the scene's styling. */
  lemma SameDrawIsNoChange(s: State, dt: real, interval: ChangeInterval)
    ensures TransitionTo(s.current, s.current) == Transition(s.current, false)
    ensures Update(s, dt, interval, s.current).current == s.current
  {
  }

  /** The weather changes only when the timer runs out: frames that stay
      short of the next change keep the condition. */
  lemma WeatherChangesOnlyOnTimer(s: State, dt: real, interval: ChangeInterval, drawn: Condition)
    requires Update(s, dt, interval, drawn).current != s.current
    ensures s.timer + dt >= s.nextChange
    ensures drawn != s.current
  {
  }
}
